=== FILE: README.md ===
# Cedar MCP server core, modelled in Dafny

This project models the decision logic of the Cedar-OS MCP server. The
server answers coding-assistant questions about Cedar-OS and Mastra. It
does so by searching local copies of their documentation, asking
clarifying questions, and running a small setup wizard. The parts modelled
here are:

- **Cedar documentation index** (`CedarDocs`, built on `Strings`, `Seqs`,
  `Tokens`, `Ranking`, `Scoring`, `LineIndex` and `Markdown`):
  - loading a directory, a JSON file or a Markdown file into chunks;
  - the keyword search: query normalisation, whitelisted short tokens,
    whole-word-prefix counting, heading weight, stable ordering by
    (score, token breadth);
  - line-number citations;
  - `describe`.
- **Mastra documentation index** (`MastraDocs`):
  - parsing `llms-full.txt` into chunks that carry their source URL,
    docs section and heading;
  - its weighted search;
  - its `describe`.
- **Clarifier** (`Clarify`), **feature mapper** (`Features`) and **setup
  wizard** (`Wizard`), with its session map, stage flow, progress and
  derived plan.
- **Install-command resolution** (`InstallCommand`) and **install-strategy
  choice** (`InstallStrategy`).
- **Spells and context specialists** (`Specialist`, `SpellsSpecialist`,
  `ContextSpecialist`):
  - query building;
  - relevant/other result partition;
  - error-keyword extraction;
  - topic suggestions.
- **The server's own logic** (`Compatibility`):
  - the compatibility check, including Python's `int()` grammar for
    version numbers;
  - the troubleshooting matcher.
- **The documentation fetch script** (`FetchDocs`): URL normalisation,
  source selection and the exit code.

Every operation is a pure function over immutable datatypes. I/O becomes
a parameter:

- file contents and directory listings are values;
- a fetch is a predicate `fetched: string -> bool`.

The wizard's sessions are a `map`, threaded through each call.

## Model

| member | source | states |
|---|---|---|
| Strings.Lower | cedar-test/cedar_mcp/services/docs.py:119 | lower-casing keeps the length and maps each character on its own, leaving no ASCII capital and keeping whitespace as whitespace |
| Strings.LowerAppend | cedar-test/cedar_mcp/services/docs.py:119 | lower-casing a concatenation is the concatenation of the lower-cased parts |
| Strings.Strip | cedar-test/cedar_mcp/shared.py:40 | `strip()` leaves no whitespace at either end and returns an already-trimmed string unchanged |
| Strings.StripIdempotent | cedar-test/cedar_mcp/shared.py:40 | stripping twice is the same as stripping once |
| Strings.SplitWs | cedar-test/cedar_mcp/tools/spells_specialist.py:533 | `split()` with no separator yields only non-empty words |
| Strings.SplitWsWords | cedar-test/cedar_mcp/tools/spells_specialist.py:533 | no word produced by `split()` contains whitespace |
| Strings.SplitWsKeepsText | cedar-test/cedar_mcp/tools/spells_specialist.py:533 | the words of `split()` concatenate to exactly the non-whitespace characters of the input, in order |
| Strings.SplitOn | cedar-test/cedar_mcp/services/docs.py:124 | `split(" ")` yields at least one piece and no piece contains the separator |
| Strings.SplitOnJoin | cedar-test/cedar_mcp/services/docs.py:124 | joining the pieces of `split(sep)` with `sep` gives back the input |
| Strings.SplitLines | cedar-test/cedar_mcp/services/docs.py:90 | `splitlines()` has as many lines as the keep-ends form, no line holds a line break, and each is a prefix of its keep-ends line |
| Strings.SplitLinesKeepEndsConcat | cedar-test/cedar_mcp/services/docs.py:197 | the lines of `splitlines(keepends=True)` concatenate to the text |
| Strings.ContainsAt | cedar-test/cedar_mcp/services/clarify.py:40 | the `in` test holds when the needle occurs at some index |
| Strings.ContainsWitness | cedar-test/cedar_mcp/services/clarify.py:40 | conversely, a successful `in` test has an index where the needle occurs |
| Seqs.Dedup | cedar-test/cedar_mcp/services/docs.py:129 | `dict.fromkeys` keeps every element, repeats none and adds nothing |
| Seqs.DedupSnoc | cedar-test/cedar_mcp/services/docs.py:129 | deduplication keeps first occurrences in order: a new element is appended, a seen one dropped |
| Seqs.DedupSorted | cedar-test/cedar_mcp/services/docs.py:224-231 | deduplicating a non-decreasing list of line numbers gives a strictly increasing one |
| Seqs.DedupNoDups | cedar-test/cedar_mcp/services/docs.py:129 | deduplication leaves a list without repeats unchanged |
| Seqs.Filter | cedar-test/cedar_mcp/services/clarify.py:38-40 | a list comprehension with a condition keeps exactly the elements that pass, as a subsequence of the input |
| Seqs.FilterAll | cedar-test/cedar_mcp/services/clarify.py:38-40 | a filter that every element passes is the identity |
| Seqs.Count | cedar-test/cedar_mcp/services/feature.py:44 | `sum(1 for ...)` is positive exactly when some element passes and equals the length exactly when all pass |
| Seqs.FilterCount | cedar-test/cedar_mcp/tools/spells_specialist.py:536-538 | a comprehension built by appending every passing element has one entry per passing element |
| Seqs.FilterAt | cedar-test/cedar_mcp/tools/spells_specialist.py:536-538 | a passing element is appended at the index given by the number of passing elements before it |
| Seqs.Take | cedar-test/cedar_mcp/services/docs.py:156 | `[:max(0, n)]` is a prefix of at most `n` elements, exactly `n` when there are enough, the whole list when `n` exceeds it |
| Seqs.PySliceTo | cedar-test/cedar_mcp/services/mastra_docs.py:189 | Python's `[:n]` is `Take` for `n >= 0` and drops the last `-n` elements for negative `n` |
| Seqs.Min | cedar-test/cedar_mcp/services/docs.py:181 | `min` of a non-empty list is a member no greater than any other |
| Seqs.Max | cedar-test/cedar_mcp/services/docs.py:182 | `max` of a non-empty list is a member no smaller than any other |
| Seqs.StrLessTransitive | cedar-test/cedar_mcp/services/docs.py:239 | Python's string order is transitive |
| Seqs.StrLessTotal | cedar-test/cedar_mcp/services/docs.py:239 | any two distinct strings are ordered one way or the other |
| Seqs.StrLessIrreflexive | cedar-test/cedar_mcp/services/docs.py:239 | no string is below itself |
| Seqs.SortedSet | cedar-test/cedar_mcp/services/docs.py:239 | `sorted(set(xs))` has exactly the members of `xs`, strictly ascending, without repeats |
| Tokens.Clean | cedar-test/cedar_mcp/services/docs.py:120 | the substitution `[^a-z0-9\s]` to space keeps the length, alphanumerics and whitespace, and blanks everything else |
| Tokens.Collapse | cedar-test/cedar_mcp/services/docs.py:121 | collapsing `\s+` leaves only single spaces and characters of the input, and keeps whether it starts with whitespace |
| Tokens.NormalizeShape | cedar-test/cedar_mcp/services/docs.py:117-121 | normalised text is lower-case alphanumeric words separated by single spaces, with no space at either end |
| Tokens.NormalizeIdempotent | cedar-test/cedar_mcp/services/docs.py:117-121 | normalising normalised text changes nothing |
| Tokens.Tokenize | cedar-test/cedar_mcp/services/docs.py:123-127 | every query token has at least three characters or is whitelisted |
| Tokens.FilterTokens | cedar-test/cedar_mcp/services/docs.py:124-127 | the token filter keeps exactly the pieces that are long enough or whitelisted |
| Tokens.QueryTokensShape | cedar-test/cedar_mcp/services/docs.py:123-131 | the query tokens are distinct non-empty alphanumeric words, each long enough or whitelisted, and none produced by tokenising is lost |
| Tokens.MatchFlags | cedar-test/cedar_mcp/services/docs.py:143 | flags exactly the positions where `\b` + token matches case-insensitively |
| Tokens.MatchesFrom | cedar-test/cedar_mcp/services/docs.py:217-220 | the match starts found by `finditer` are strictly increasing, are all matches, and include every match |
| Tokens.CountIsMatches | cedar-test/cedar_mcp/services/docs.py:144-145 | the number of `findall` matches equals the number of `finditer` matches |
| Tokens.CountWordPrefixWords | cedar-test/cedar_mcp/services/docs.py:143-145 | on normalised text, the match count is the number of words that start with the token |
| Ranking.Insert | cedar-test/cedar_mcp/services/docs.py:155 | insertion adds exactly the new entry to the multiset of entries |
| Ranking.Sort | cedar-test/cedar_mcp/services/docs.py:155 | sorting is a permutation |
| Ranking.SortOrdered | cedar-test/cedar_mcp/services/docs.py:155 | sorting by (score, breadth) descending is stable: ties keep their original order |
| Ranking.OrderedMeaning | cedar-test/cedar_mcp/services/docs.py:155 | in an ordered ranking an earlier entry has a key at least as large, and among equal keys the earlier original position |
| Ranking.Rank | cedar-test/cedar_mcp/services/docs.py:155 | the ranking is ordered and a permutation of the scored entries |
| Ranking.RankKeepsPosition | cedar-test/cedar_mcp/services/docs.py:155 | ranking drops no chunk |
| Ranking.PrefixKeepsBest | cedar-test/cedar_mcp/services/docs.py:156 | an entry missing from a prefix of an ordered ranking lies after it, behind every entry in it |
| Ranking.Positive | cedar-test/cedar_mcp/services/docs.py:151-152 | only chunks with a positive score are scored entries, in increasing position |
| Ranking.PositiveComplete | cedar-test/cedar_mcp/services/docs.py:151-152 | every chunk with a positive score has an entry |
| Ranking.RankPositiveComplete | cedar-test/cedar_mcp/services/docs.py:151-155 | every positively scored chunk appears in the ranking |
| Ranking.RankPositiveEntries | cedar-test/cedar_mcp/services/docs.py:151-155 | every ranking entry is a positively scored chunk |
| Scoring.DocOf | cedar-test/cedar_mcp/services/docs.py:136-137 | a chunk's searchable heading and body are normalised text |
| Scoring.HitsOf | cedar-test/cedar_mcp/services/docs.py:139-148 | the per-token hits are query tokens, in query order, each with a positive weighted count |
| Scoring.HitsComplete | cedar-test/cedar_mcp/services/docs.py:147-148 | every query token with a positive weighted count is a hit |
| Scoring.HitsDistinct | cedar-test/cedar_mcp/services/docs.py:148 | distinct query tokens give distinct hits |
| Scoring.ScoreIsSum | cedar-test/cedar_mcp/services/docs.py:149 | the chunk score is the sum of all the tokens' weighted counts |
| Scoring.TotalPositive | cedar-test/cedar_mcp/services/docs.py:151 | a chunk's score is positive exactly when it has a hit |
| Scoring.ScoreFrom | cedar-test/cedar_mcp/services/docs.py:133-152 | the scoring loop emits, in chunk order, entries whose score, hits and breadth are those of their chunk |
| Scoring.ScoreFromComplete | cedar-test/cedar_mcp/services/docs.py:151-152 | every chunk with a positive score is emitted |
| Scoring.QueryOf | cedar-test/cedar_mcp/services/docs.py:114-131 | the empty query has no tokens, and the tokens never repeat |
| Scoring.RankChunks | cedar-test/cedar_mcp/services/docs.py:133-155 | the ranking is ordered, each entry scored as its chunk is, and empty for a query with no tokens |
| Scoring.RankChunksComplete | cedar-test/cedar_mcp/services/docs.py:151-155 | a chunk is ranked exactly when its score is positive |
| Scoring.RankedEntry | cedar-test/cedar_mcp/services/docs.py:152-155 | a positively scored chunk has a ranking entry carrying its score and breadth |
| LineIndex.Offsets | cedar-test/cedar_mcp/services/docs.py:189-200 | the line offsets start at 0, end at the text length, and strictly increase |
| LineIndex.OffsetsTileText | cedar-test/cedar_mcp/services/docs.py:195-200 | consecutive offsets delimit exactly the kept-ends lines of the text |
| LineIndex.CharIndexToLine | cedar-test/cedar_mcp/services/docs.py:202-212 | the binary search returns the number of offsets at or before the index, a line number of at least 1 |
| LineIndex.LineOfBracket | cedar-test/cedar_mcp/services/docs.py:202-212 | a character's 1-based line is the one whose offset interval contains it |
| LineIndex.LinesOf | cedar-test/cedar_mcp/services/docs.py:220-223 | each match start is mapped to its line |
| LineIndex.LinesOfSorted | cedar-test/cedar_mcp/services/docs.py:220-223 | increasing match starts give non-decreasing lines |
| LineIndex.DedupLinesAscending | cedar-test/cedar_mcp/services/docs.py:224-231 | deduplicated lines of increasing match starts strictly increase |
| LineIndex.TokenLinesAscending | cedar-test/cedar_mcp/services/docs.py:214-231 | a token's line list strictly increases |
| LineIndex.TokenLinesInRange | cedar-test/cedar_mcp/services/docs.py:214-231 | every listed line is a real line of the text |
| LineIndex.TokenLinesExact | cedar-test/cedar_mcp/services/docs.py:214-231 | a line is listed exactly when some match of the token starts on it |
| Markdown.HeadingText | cedar-test/cedar_mcp/services/docs.py:99 | the heading text is the line with its leading `#`s and spaces removed |
| Markdown.Scan | cedar-test/cedar_mcp/services/docs.py:94-103 | every emitted section has at least one line and no heading line among them |
| Markdown.SplitMarkdown | cedar-test/cedar_mcp/services/docs.py:88-104 | one (heading, body) pair per section, the body being the section's lines joined by newlines |
| Markdown.ScanTagged | cedar-test/cedar_mcp/services/docs.py:94-103 | the sections, read line by line, are the non-heading lines each tagged with the heading above it |
| Markdown.SectionsKeepLines | cedar-test/cedar_mcp/services/docs.py:88-104 | splitting keeps every non-heading line of the text, in order, under its nearest heading |
| Markdown.LeadingSection | cedar-test/cedar_mcp/services/docs.py:92 | text that starts with a non-heading line has a first section without a heading |
| CedarDocs.BaseName | cedar-test/cedar_mcp/services/docs.py:239 | `Path(p).name` is the part of the path after its last slash |
| CedarDocs.LastIndexOf | cedar-test/cedar_mcp/services/docs.py:239 | the last occurrence of a character, or none when it does not occur |
| CedarDocs.NameSuffix | cedar-test/cedar_mcp/services/docs.py:41 | `Path.suffix` is non-empty exactly when the name has a dot that is not leading or trailing, and is the tail from it |
| CedarDocs.JsonChunks | cedar-test/cedar_mcp/services/docs.py:44-55 | each JSON object gives one chunk with its heading and its content (or ""), stopping at the first non-object |
| CedarDocs.MarkdownChunks | cedar-test/cedar_mcp/services/docs.py:58-65 | one chunk per Markdown section with that section's heading and body |
| CedarDocs.LoadEntry | cedar-test/cedar_mcp/services/docs.py:40-68 | unsupported or unreadable files load nothing; chunks carry the file's path; only non-JSON text is kept for citations |
| CedarDocs.LoadAllSources | cedar-test/cedar_mcp/services/docs.py:70-74 | every chunk loaded from a directory comes from an admitted file of it |
| CedarDocs.LoadAllTexts | cedar-test/cedar_mcp/services/docs.py:60 | every kept text is the content of an admitted file at that path |
| CedarDocs.Load | cedar-test/cedar_mcp/services/docs.py:24-31 | an unset path has no docs path; an unset or missing one loads nothing; a single file loads its own chunks |
| CedarDocs.DocsOf | cedar-test/cedar_mcp/services/docs.py:136-137 | each chunk is searched through its normalised heading (or "") and content |
| CedarDocs.FoundLines | cedar-test/cedar_mcp/services/docs.py:172-173 | each hit token is paired with its line list in the source text |
| CedarDocs.FoundLinesAscending | cedar-test/cedar_mcp/services/docs.py:172-173 | every token's line list strictly increases |
| CedarDocs.LineLists | cedar-test/cedar_mcp/services/docs.py:170-176 | the citation lists only tokens found on some line, and lists every such token |
| CedarDocs.AllLines | cedar-test/cedar_mcp/services/docs.py:171 | the pooled lines are exactly the lines of every token |
| CedarDocs.CitationShapeHolds | cedar-test/cedar_mcp/services/docs.py:170-185 | a citation spans the smallest to the largest line found, and each token keeps its first ten lines |
| CedarDocs.SpanEnds | cedar-test/cedar_mcp/services/docs.py:181-182 | the cited span's ends are lines some token was found on, first not after last |
| CedarDocs.CitationWhen | cedar-test/cedar_mcp/services/docs.py:167-177 | a citation is attached exactly when the source is an absolute local path whose text was kept and some hit token occurs in it |
| CedarDocs.FoundWhen | cedar-test/cedar_mcp/services/docs.py:176-177 | some line is found exactly when some hit token occurs in the text |
| CedarDocs.CitationFacts | cedar-test/cedar_mcp/services/docs.py:177-185 | an attached citation has the source path, the span and the per-token lines described above |
| CedarDocs.TopOf | cedar-test/cedar_mcp/services/docs.py:155-156 | at most `max(0, limit)` entries, ordered, each a scored chunk |
| CedarDocs.Search | cedar-test/cedar_mcp/services/docs.py:106-187 | at most `max(0, limit)` results, none for an empty query or one without tokens |
| CedarDocs.ResultPositions | cedar-test/cedar_mcp/services/docs.py:158-159 | the chunks behind the results are real chunks of the index |
| CedarDocs.SearchResults | cedar-test/cedar_mcp/services/docs.py:158-186 | each result carries its chunk's source, heading, content, score and matched tokens |
| CedarDocs.SearchOrder | cedar-test/cedar_mcp/services/docs.py:155 | results are ordered by score, then by the number of matched tokens, then by load order |
| CedarDocs.TopOfKeepsBest | cedar-test/cedar_mcp/services/docs.py:155-156 | a scored chunk left out of the top list means the list is full and every entry ranks ahead of it |
| CedarDocs.PrefixCut | cedar-test/cedar_mcp/services/docs.py:156 | cutting an ordered ranking keeps every entry ahead of the ones it drops |
| CedarDocs.SearchKeepsBest | cedar-test/cedar_mcp/services/docs.py:133-156 | a matching chunk missing from the results means the results are full and all rank ahead of it |
| CedarDocs.SourceNames | cedar-test/cedar_mcp/services/docs.py:239 | one file name per chunk |
| CedarDocs.Describe | cedar-test/cedar_mcp/services/docs.py:235-241 | the description reports the docs path, the chunk count, no built-in docs, and the sorted distinct file names of the chunks |
| MastraDocs.DropHashes | cedar-test/cedar_mcp/services/mastra_docs.py:120 | `lstrip("#")` removes exactly the leading hashes |
| MastraDocs.Classify | cedar-test/cedar_mcp/services/mastra_docs.py:71-122 | a line is a source marker, a docs-section marker, a heading or text; only text lines are kept as text, and each marker carries its URL, section or title |
| MastraDocs.ClassifyAll | cedar-test/cedar_mcp/services/mastra_docs.py:60-68 | every line is classified on its own |
| MastraDocs.Groups | cedar-test/cedar_mcp/services/mastra_docs.py:66-136 | every emitted group has at least one line |
| MastraDocs.GroupsPlace | cedar-test/cedar_mcp/services/mastra_docs.py:66-124 | the groups, read line by line, are the text lines each placed under the source, section and heading in force at it |
| MastraDocs.GroupsCtxOk | cedar-test/cedar_mcp/services/mastra_docs.py:84-102 | every group's source URL and section come from markers of the right kind |
| MastraDocs.PlacementsPlain | cedar-test/cedar_mcp/services/mastra_docs.py:60-124 | no marker line ever ends up in a chunk's body |
| MastraDocs.Emitted | cedar-test/cedar_mcp/services/mastra_docs.py:73-82 | exactly the drafts whose body is not blank are kept |
| MastraDocs.Parse | cedar-test/cedar_mcp/services/mastra_docs.py:51-136 | every parsed chunk has a non-blank body and a source and section that came from markers |
| MastraDocs.DraftWellFormed | cedar-test/cedar_mcp/services/mastra_docs.py:73-82 | a flushed group with a non-blank body makes a well-formed chunk |
| MastraDocs.ParseKeepsText | cedar-test/cedar_mcp/services/mastra_docs.py:60-124 | parsing keeps every non-marker line, in order, under its context, and no marker line |
| MastraDocs.ParseChunks | cedar-test/cedar_mcp/services/mastra_docs.py:73-82 | the chunks are exactly the groups whose body is not blank |
| MastraDocs.Load | cedar-test/cedar_mcp/services/mastra_docs.py:26-49 | an unset path has no docs path; a missing or unreadable file loads nothing; a read file is kept as the citation text and its chunks are well formed |
| MastraDocs.DocsOf | cedar-test/cedar_mcp/services/mastra_docs.py:165-166 | each chunk is searched through its normalised heading (or "") and content |
| MastraDocs.Truthy | cedar-test/cedar_mcp/services/mastra_docs.py:202-205 | an optional field is reported only when present and non-empty |
| MastraDocs.TopOf | cedar-test/cedar_mcp/services/mastra_docs.py:188-189 | the top list is a prefix of the ranking, at most `limit` long for a non-negative limit and `limit` short of the ranking for a negative one |
| MastraDocs.Search | cedar-test/cedar_mcp/services/mastra_docs.py:138-209 | at most `limit` results for a non-negative limit, none for an empty query or one without tokens |
| MastraDocs.ResultPositions | cedar-test/cedar_mcp/services/mastra_docs.py:191-192 | the chunks behind the results are real chunks of the index |
| MastraDocs.SearchResults | cedar-test/cedar_mcp/services/mastra_docs.py:191-207 | each result carries its chunk's heading, content, score, matched tokens and its non-empty source and section |
| MastraDocs.MastraTotalIs | cedar-test/cedar_mcp/services/mastra_docs.py:172-181 | a token counts three times its heading matches plus its body matches, doubled for the five domain terms "mastra", "agent", "workflow", "tool" and "memory" |
| MastraDocs.LoadedProvenanceReported | cedar-test/cedar_mcp/services/mastra_docs.py:76-82 | a loaded chunk's url and section, when present, are non-empty, so the search reports exactly the ones present (a chunk before any `Source:` line has neither) |
| MastraDocs.SearchOrder | cedar-test/cedar_mcp/services/mastra_docs.py:188 | results are ordered by score, then by the number of matched tokens, then by load order |
| MastraDocs.NegativeLimitKeepsResults | cedar-test/cedar_mcp/services/mastra_docs.py:189 | a negative limit returns all but the last `-limit` ranked chunks instead of nothing |
| MastraDocs.SearchClamped | cedar-test/cedar_mcp/services/mastra_docs.py:189 | with the limit clamped at zero, a non-positive limit returns nothing and a positive one agrees with the search |
| MastraDocs.FindFirst | cedar-test/cedar_mcp/services/mastra_docs.py:217 | the first occurrence of the literal, or none when it does not occur |
| MastraDocs.GroupLength | cedar-test/cedar_mcp/services/mastra_docs.py:217 | the lazy group `.+?` of `(.+?)(?:/\|$)` takes the first character, even a '/', and then runs up to the next '/' or the end |
| MastraDocs.SectionName | cedar-test/cedar_mcp/services/mastra_docs.py:217-219 | a section name is non-empty and has no slash after its first character |
| MastraDocs.SectionNameOfDocs | cedar-test/cedar_mcp/services/mastra_docs.py:217-219 | `/docs/<name>` and `/docs/<name>/...` both name section `<name>` |
| MastraDocs.SectionNamesMembers | cedar-test/cedar_mcp/services/mastra_docs.py:213-219 | the listed sections are exactly the names found in the chunks' section markers |
| MastraDocs.Describe | cedar-test/cedar_mcp/services/mastra_docs.py:211-226 | the description reports the path, the chunk count, the kind, and the sorted distinct section names |
| Clarify.Echo | cedar-test/cedar_mcp/services/clarify.py:30-31 | the echoed goal question starts with "T", ends with "?" and contains the stripped goal |
| Clarify.Suggest | cedar-test/cedar_mcp/services/clarify.py:25-49 | at most ten distinct questions, each a candidate that no constraint blocks |
| Clarify.CandidatesDistinct | cedar-test/cedar_mcp/services/clarify.py:30-48 | the candidate questions never repeat |
| Clarify.DimensionsDistinct | cedar-test/cedar_mcp/services/clarify.py:4-21 | the eight dimension questions are distinct |
| Clarify.DimensionsNotEcho | cedar-test/cedar_mcp/services/clarify.py:30-31 | the echoed goal question is never a dimension question |
| Clarify.SuggestKeepsOrder | cedar-test/cedar_mcp/services/clarify.py:37-49 | the suggestions keep the candidates' order |
| Clarify.SuggestComplete | cedar-test/cedar_mcp/services/clarify.py:37-49 | an unblocked candidate is suggested unless ten questions were already taken |
| Clarify.SuggestEchoFirst | cedar-test/cedar_mcp/services/clarify.py:30-31 | a non-blank goal whose echo is unblocked is asked first |
| Clarify.SuggestUnconstrained | cedar-test/cedar_mcp/services/clarify.py:33-40 | with no constraints every candidate is kept, ending with the eight dimensions |
| Clarify.UnconstrainedCount | cedar-test/cedar_mcp/services/clarify.py:33-40 | with no constraints there are at least as many candidates as dimensions |
| Clarify.EmptyConstraintBlocksAll | cedar-test/cedar_mcp/services/clarify.py:38-40 | an empty constraint string occurs in every question and blocks them all |
| InstallCommand.Resolve | cedar-test/cedar_mcp/shared.py:34-42 | the resolved command is non-empty, trimmed, never a "use the default" answer; it is the default exactly when the input asks for it, else the trimmed input |
| InstallCommand.DefaultFacts | cedar-test/cedar_mcp/shared.py:7 | the default command is non-empty, trimmed and not itself a "use the default" answer |
| InstallCommand.ResolveIdempotent | cedar-test/cedar_mcp/shared.py:34-42 | resolving a resolved command changes nothing |
| InstallCommand.DefaultResolvesToItself | cedar-test/cedar_mcp/shared.py:7 | the default command resolves to itself |
| InstallCommand.OwnResolvesToItself | cedar-test/cedar_mcp/shared.py:38-42 | a trimmed command that is not a "use the default" answer resolves to itself |
| InstallStrategy.Determine | cedar-test/cedar_mcp/tools/check_install.py:108-159 | the strategy follows the project analysis case by case, and the command is npm install exactly for an existing Cedar project and add-sapling exactly for the two integration cases |
| InstallStrategy.CedarTakesPriority | cedar-test/cedar_mcp/tools/check_install.py:112-124 | a non-empty project with package.json and Cedar installed always gets npm install, whatever else the analysis says |
| Features.TagScore | cedar-test/cedar_mcp/services/feature.py:52-55 | the fallback score is positive exactly when some search result mentions some tag |
| Features.KeywordScores | cedar-test/cedar_mcp/services/feature.py:43-46 | one keyword score per feature |
| Features.TagScores | cedar-test/cedar_mcp/services/feature.py:52-55 | one fallback score per feature |
| Features.DecidingScores | cedar-test/cedar_mcp/services/feature.py:43-62 | the fallback scores decide exactly when the goal is non-empty and no keyword matched |
| Features.RankedBy | cedar-test/cedar_mcp/services/feature.py:64-65 | at most five candidates, ordered by score, each a feature with a positive score |
| Features.RankedByComplete | cedar-test/cedar_mcp/services/feature.py:45-65 | with few enough features, every positively scored feature is ranked |
| Features.CandidatesOf | cedar-test/cedar_mcp/services/feature.py:64-65 | candidate scores never increase down the list |
| Features.Contents | cedar-test/cedar_mcp/services/feature.py:53 | one content string per search result |
| Features.MapWith | cedar-test/cedar_mcp/services/feature.py:38-65 | the goal and context are echoed, at most five candidates with positive, non-increasing scores, none for an empty goal with no keyword match |
| Features.MapGoal | cedar-test/cedar_mcp/services/feature.py:38-65 | over the docs index, at most five candidates, each with a positive score |
| Features.MapWithSound | cedar-test/cedar_mcp/services/feature.py:43-62 | every candidate is a feature with its deciding score |
| Features.MapWithComplete | cedar-test/cedar_mcp/services/feature.py:45-65 | with at most five features (the Cedar table has four), every feature with a positive deciding score is a candidate |
| Features.MapWithTiesInOrder | cedar-test/cedar_mcp/services/feature.py:64 | candidates with equal scores keep the catalogue order |
| Wizard.StageIdsInOrder | cedar-test/cedar_mcp/services/wizard.py:40-74 | the three stages' question ids lie back to back in the overall question list |
| Wizard.ClarifyTexts | cedar-test/cedar_mcp/services/wizard.py:41-58 | the first stage asks the clarifier's first questions for the goal |
| Wizard.StageQuestions | cedar-test/cedar_mcp/services/wizard.py:40-74 | each stage's questions carry the stage's ids, and the first stage's texts are the clarifier's |
| Wizard.Advance | cedar-test/cedar_mcp/services/wizard.py:76-88 | a stage whose questions are all answered moves on to the next stage at index 0; otherwise nothing changes; answers are kept |
| Wizard.ProgressOf | cedar-test/cedar_mcp/services/wizard.py:153-164 | progress reports the stage's question count and how many were answered, the stage index below the stage total |
| Wizard.Lookup | cedar-test/cedar_mcp/services/wizard.py:170-185 | `dict.get` gives the value exactly when the key is present |
| Wizard.DerivePlan | cedar-test/cedar_mcp/services/wizard.py:169-185 | the plan always has state calling, and has chat or voice exactly when the feature answer mentions them; its install command is non-empty and trimmed, and the default when there is no `install_cmd_pref` answer |
| Wizard.DerivePlanInstallCommand | cedar-test/cedar_mcp/services/wizard.py:185 | when there is an `install_cmd_pref` answer, the plan's install command is that answer resolved by InstallCommand.Resolve |
| Wizard.NextQuestion | cedar-test/cedar_mcp/services/wizard.py:94-116 | unknown sessions are reported; otherwise the session is advanced and a question is asked exactly when its stage has one left |
| Wizard.Start | cedar-test/cedar_mcp/services/wizard.py:90-92 | starting stores a fresh session and asks the clarifier's first question |
| Wizard.FirstQuestion | cedar-test/cedar_mcp/services/wizard.py:41-58 | the first question is `clarify_0`, the clarifier's first question |
| Wizard.Record | cedar-test/cedar_mcp/services/wizard.py:126-129 | an answer is stored under the current question's id and the index moves on by one |
| Wizard.Answer | cedar-test/cedar_mcp/services/wizard.py:118-133 | unknown sessions are reported; otherwise only the answered session changes |
| Wizard.StateOf | cedar-test/cedar_mcp/services/wizard.py:135-146 | the state exists exactly for known sessions and reports its answered count |
| Wizard.Abort | cedar-test/cedar_mcp/services/wizard.py:148-151 | aborting removes that session only |
| Wizard.StartReachable | cedar-test/cedar_mcp/services/wizard.py:90-92 | a started session is at the beginning of the question flow |
| Wizard.NextQuestionFollowsFlow | cedar-test/cedar_mcp/services/wizard.py:94-116 | asking leaves the flow position unchanged, asks the question at that position, or reports completion after the last |
| Wizard.AskedAtPosition | cedar-test/cedar_mcp/services/wizard.py:102-103 | the question asked is the one at the session's position in the overall flow |
| Wizard.AnswerAdvancesOne | cedar-test/cedar_mcp/services/wizard.py:118-133 | answering moves an open session one question on and leaves a complete one where it is |
| Wizard.AnswerClosed | cedar-test/cedar_mcp/services/wizard.py:118-125 | answering a complete session returns its plan and changes nothing |
| Wizard.AnswerOpen | cedar-test/cedar_mcp/services/wizard.py:126-133 | answering an open session stores the answer under the current question's id and moves one on |
| Wizard.RecordStep | cedar-test/cedar_mcp/services/wizard.py:126-133 | recording then advancing moves one position on and stores the answer under that question's id |
| Wizard.RecordKeys | cedar-test/cedar_mcp/services/wizard.py:128 | after an answer, the stored ids are exactly the questions asked so far |
| Wizard.AdvanceKeepsPosition | cedar-test/cedar_mcp/services/wizard.py:76-88 | moving to the next stage keeps the position in the overall flow |
| Wizard.CompleteHasEveryAnswer | cedar-test/cedar_mcp/services/wizard.py:110-114 | a complete session has an answer for every question |
| Wizard.AbortIdempotent | cedar-test/cedar_mcp/services/wizard.py:148-151 | aborting twice is the same as aborting once |
| Specialist.Relevance | cedar-test/cedar_mcp/tools/spells_specialist.py:240-250 | a result's relevance is positive exactly when its lower-cased text mentions some search term |
| Specialist.Relevances | cedar-test/cedar_mcp/tools/spells_specialist.py:239-250 | one relevance per result |
| Specialist.ZeroPositions | cedar-test/cedar_mcp/tools/spells_specialist.py:254-255 | the positions listed are increasing and all of irrelevant results |
| Specialist.ZeroPositionsComplete | cedar-test/cedar_mcp/tools/spells_specialist.py:254-255 | every irrelevant result's position is listed |
| Specialist.RelevantPart | cedar-test/cedar_mcp/tools/spells_specialist.py:257-258 | at most seven relevant results, ordered by relevance, each with a positive relevance |
| Specialist.OtherPart | cedar-test/cedar_mcp/tools/spells_specialist.py:259-260 | at most three irrelevant results, in their original order |
| Specialist.Partition | cedar-test/cedar_mcp/tools/spells_specialist.py:233-261 | the filtered results are the ranked relevant ones followed by the first irrelevant ones |
| Specialist.RelevantKeepsBest | cedar-test/cedar_mcp/tools/spells_specialist.py:257-261 | a relevant result is dropped only when seven results at least as relevant are kept ahead of it |
| Specialist.OtherKeepsFirst | cedar-test/cedar_mcp/tools/spells_specialist.py:259-261 | an irrelevant result is dropped only when three earlier irrelevant ones are kept |
| Specialist.FilterHits | cedar-test/cedar_mcp/tools/spells_specialist.py:233-261 | at most ten results, each one of the inputs |
| Specialist.FilterHitsIsPartition | cedar-test/cedar_mcp/tools/spells_specialist.py:233-261 | filtering search hits is the relevance partition |
| Specialist.FilterHitsTags | cedar-test/cedar_mcp/tools/spells_specialist.py:251-255 | a kept result is tagged with its relevance exactly when it mentions a term |
| Specialist.PartitionTags | cedar-test/cedar_mcp/tools/spells_specialist.py:251-255 | tagged results carry their positive relevance; untagged ones have none |
| Specialist.MentionedTermIsRelevant | cedar-test/cedar_mcp/tools/spells_specialist.py:245-255 | a kept result that mentions a search term is tagged relevant |
| Specialist.FilterHitsOrder | cedar-test/cedar_mcp/tools/spells_specialist.py:257-261 | relevant results come first, by relevance; irrelevant ones follow in their original order |
| Specialist.FilterKeepsBest | cedar-test/cedar_mcp/tools/spells_specialist.py:257-261 | a dropped relevant search hit has seven kept hits at least as relevant ahead of it |
| Specialist.FilterKeepsFirst | cedar-test/cedar_mcp/tools/spells_specialist.py:259-261 | a dropped irrelevant search hit has three earlier irrelevant hits kept |
| Specialist.ErrorKeywords | cedar-test/cedar_mcp/tools/spells_specialist.py:531-540 | at most five keywords, each a word of the lower-cased query longer than three characters and not a stop word, in query order |
| Specialist.ErrorKeywordsComplete | cedar-test/cedar_mcp/tools/spells_specialist.py:535-540 | a qualifying word is a keyword unless five were already taken |
| Specialist.ErrorKeywordsPositions | cedar-test/cedar_mcp/tools/spells_specialist.py:531-540 | the keywords are the first five qualifying words, repeats kept: their number is the count of qualifying words capped at five, and the qualifying word with `q` qualifying words before it is keyword `q` when `q` is below five |
| Specialist.TakeFilterPositions | cedar-test/cedar_mcp/tools/spells_specialist.py:535-540 | `keywords[:5]` of the appended qualifying words has the capped count and keeps each of the first five at its rank |
| Specialist.Applicable | cedar-test/cedar_mcp/tools/spells_specialist.py:303-315 | the query-specific topics are exactly the applicable ones, in order |
| Specialist.ApplicableAppend | cedar-test/cedar_mcp/tools/spells_specialist.py:303-315 | the topics of two lists of checks are the topics of each in turn |
| Specialist.Topics | cedar-test/cedar_mcp/tools/spells_specialist.py:290-317 | the suggestions are the base topics then the applicable extras, cut at five |
| Specialist.TopicsKeepsEarly | cedar-test/cedar_mcp/tools/spells_specialist.py:303-317 | an applicable extra that fits under the cap appears at its place after the earlier applicable ones |
| SpellsSpecialist.FocusTerms | cedar-test/cedar_mcp/tools/spells_specialist.py:221-230 | the default terms are used exactly for an unknown focus |
| SpellsSpecialist.BuildQuery | cedar-test/cedar_mcp/tools/spells_specialist.py:219-231 | the search query is the user's query, a space, then the focus terms: its words are the query's words followed by the terms' words |
| SpellsSpecialist.UnknownFocusAddsSpell | cedar-test/cedar_mcp/tools/spells_specialist.py:229-231 | an unknown focus adds the single word "spell" |
| SpellsSpecialist.MentioningSpellIsRelevant | cedar-test/cedar_mcp/tools/spells_specialist.py:233-255 | a kept result that mentions "spell" is tagged relevant |
| SpellsSpecialist.ErrorKeywords | cedar-test/cedar_mcp/tools/spells_specialist.py:531-540 | at most five query words longer than three characters, never one of the seven stop words ("the", "and", "not", "working", "doesn't", "won't", "spell"), in query order |
| SpellsSpecialist.ErrorKeywordsPositions | cedar-test/cedar_mcp/tools/spells_specialist.py:531-540 | with the spells stop list, the keywords are the first five qualifying query words at their ranks, repeats kept |
| SpellsSpecialist.BaseTopics | cedar-test/cedar_mcp/tools/spells_specialist.py:290-300 | each focus gives three base topics |
| SpellsSpecialist.Extras | cedar-test/cedar_mcp/tools/spells_specialist.py:303-315 | six query-specific checks |
| SpellsSpecialist.SuggestTopics | cedar-test/cedar_mcp/tools/spells_specialist.py:286-317 | three to five topics: the base topics first, then topics whose check applies to the query |
| SpellsSpecialist.RadialQueryGetsMenuItems | cedar-test/cedar_mcp/tools/spells_specialist.py:304-305 | a query mentioning "radial" gets the menu-item topic right after the base topics |
| SpellsSpecialist.PlainQueryGetsBaseTopics | cedar-test/cedar_mcp/tools/spells_specialist.py:286-317 | a query that triggers no check gets just the base topics |
| ContextSpecialist.FocusTerms | cedar-test/cedar_mcp/tools/context_specialist.py:200-208 | the default terms are used exactly for an unknown focus |
| ContextSpecialist.BuildQuery | cedar-test/cedar_mcp/tools/context_specialist.py:198-209 | the search query's words are the query's words followed by the focus terms' words |
| ContextSpecialist.MentionsFocusWords | cedar-test/cedar_mcp/tools/context_specialist.py:201 | the "mentions" focus adds the words mention, @mention, mention, provider |
| ContextSpecialist.MentioningMentionIsRelevant | cedar-test/cedar_mcp/tools/context_specialist.py:211-233 | a kept result that mentions "mention" is tagged relevant |
| ContextSpecialist.ErrorKeywords | cedar-test/cedar_mcp/tools/context_specialist.py:444-454 | at most five query words longer than three characters, never one of the six stop words ("the", "and", "not", "working", "doesn't", "won't"), in query order |
| ContextSpecialist.ErrorKeywordsPositions | cedar-test/cedar_mcp/tools/context_specialist.py:444-454 | with the context stop list, the keywords are the first five qualifying query words at their ranks, repeats kept |
| ContextSpecialist.BaseTopics | cedar-test/cedar_mcp/tools/context_specialist.py:264-272 | each focus gives three base topics |
| ContextSpecialist.Extras | cedar-test/cedar_mcp/tools/context_specialist.py:275-281 | three query-specific checks |
| ContextSpecialist.SuggestTopics | cedar-test/cedar_mcp/tools/context_specialist.py:260-283 | three to five topics: the base topics first, then topics whose check applies to the query |
| ContextSpecialist.StateQueryGetsStateTopic | cedar-test/cedar_mcp/tools/context_specialist.py:278-279 | a query mentioning "state" always gets the state-registration topic |
| ContextSpecialist.ErrorTopicUnlessFull | cedar-test/cedar_mcp/tools/context_specialist.py:276-283 | the error topic is suggested for an "error" query unless both earlier checks fired and filled the five slots |
| ContextSpecialist.AllThreeApply | cedar-test/cedar_mcp/tools/context_specialist.py:276-283 | when all three checks fire, the cap at five drops the last topic |
| Compatibility.ParseInt | cedar-test/cedar_agentic_server.py:897 | `int()` accepts exactly stripped text with one optional sign and underscore-grouped digits, and the sign decides the sign of the value |
| Compatibility.GroupsValueDigits | cedar-test/cedar_agentic_server.py:897 | without underscores, the grouped value is the plain decimal value |
| Compatibility.ShowNatValue | cedar-test/cedar_agentic_server.py:897 | the decimal rendering of a number has that number as its value |
| Compatibility.ParseShow | cedar-test/cedar_agentic_server.py:897 | `int()` reads back every rendered integer |
| Compatibility.ParseGrouped | cedar-test/cedar_agentic_server.py:897 | `int("1_6")` is 16 |
| Compatibility.Major | cedar-test/cedar_agentic_server.py:897 | the major part is the prefix before the first dot |
| Compatibility.MajorOf | cedar-test/cedar_agentic_server.py:897 | the major part of `<n>.<rest>` is `<n>` |
| Compatibility.FrameworkAdvice | cedar-test/cedar_agentic_server.py:926-930 | Next.js advice exactly when the framework mentions "next", Vite advice exactly when it mentions "vite" but not "next" |
| Compatibility.Warnings | cedar-test/cedar_agentic_server.py:915-923 | a conflict warning exactly for each conflicting package present |
| Compatibility.When | cedar-test/cedar_agentic_server.py:898-912 | a message is included exactly when its condition holds |
| Compatibility.Issues | cedar-test/cedar_agentic_server.py:898-912 | one issue per outdated component, the Node one first |
| Compatibility.Advice | cedar-test/cedar_agentic_server.py:898-930 | the upgrade advice comes first and every triggered warning is present |
| Compatibility.Assess | cedar-test/cedar_agentic_server.py:891-935 | compatibility is the absence of a Node issue and the message follows it |
| Compatibility.CheckCompatibility | cedar-test/cedar_agentic_server.py:881-940 | the check fails exactly when a version's major part is not an integer, Node first; otherwise it reports the assessment |
| Compatibility.OnlyNodeDecides | cedar-test/cedar_agentic_server.py:898-912 | only the Node version decides compatibility; an old React only adds an issue |
| Compatibility.NodeVersionDecides | cedar-test/cedar_agentic_server.py:891-901 | a version `v<major>.<rest>` is compatible exactly when major is at least 18 |
| Compatibility.LatestReactFails | cedar-test/cedar_agentic_server.py:904-909 | the React version "latest" makes the check fail |
| Compatibility.LatestUnreadable | cedar-test/cedar_agentic_server.py:906-909 | "latest" has no integer major part |
| Compatibility.AnyIn | cedar-test/cedar_agentic_server.py:807 | `any(k in text for k in words)` holds exactly when some word occurs in the text |
| Compatibility.MatcherMeaning | cedar-test/cedar_agentic_server.py:805-807 | the per-problem test is the word-sharing rule |
| Compatibility.Troubleshoot | cedar-test/cedar_agentic_server.py:799-835 | the matched problems are exactly those sharing a word with the issue, in order, and the general steps and resources appear exactly when none matched |
| Compatibility.KnownProblemHasNot | cedar-test/cedar_agentic_server.py:367-443 | every known problem's text contains the word "not" |
| Compatibility.MatchesWithNot | cedar-test/cedar_agentic_server.py:807 | a problem text containing " not " matches any issue that contains "not" |
| Compatibility.NotMatchesEverything | cedar-test/cedar_agentic_server.py:799-822 | any issue containing "not" matches every known problem, and no general steps are given |
| FetchDocs.RStripSlashes | cedar-test/scripts/fetch_llms_txt.py:109 | `rstrip("/")` removes exactly the trailing slashes |
| FetchDocs.SuffixesDiffer | cedar-test/scripts/fetch_llms_txt.py:101-102 | a URL ending in `/llms-full.txt` never ends in `/llms.txt` |
| FetchDocs.NormalizeUrl | cedar-test/scripts/fetch_llms_txt.py:100-109 | an index URL is refused; anything else is extended to end in `/llms-full.txt` and kept if it already does |
| FetchDocs.NormalizeIdempotent | cedar-test/scripts/fetch_llms_txt.py:100-109 | normalising a normalised URL changes nothing |
| FetchDocs.AppendsOneSegment | cedar-test/scripts/fetch_llms_txt.py:105-109 | other URLs get exactly one `llms-full.txt` segment |
| FetchDocs.Sources | cedar-test/scripts/fetch_llms_txt.py:195-213 | Cedar is fetched unless Mastra-only, Mastra unless Cedar-only, and nothing when both flags are given |
| FetchDocs.DefaultUrlsKept | cedar-test/scripts/fetch_llms_txt.py:200-207 | the built-in URLs pass normalisation unchanged |
| FetchDocs.FetchOne | cedar-test/scripts/fetch_llms_txt.py:98-149 | one fetch succeeds exactly when the URL normalises and the normalised URL is fetched |
| FetchDocs.Successes | cedar-test/scripts/fetch_llms_txt.py:218-221 | the success count reaches the number of sources exactly when every fetch succeeds |
| FetchDocs.SourceName | cedar-test/scripts/fetch_llms_txt.py:183-189 | a URL names Cedar when it mentions "cedar", otherwise Mastra when it mentions "mastra" |
| FetchDocs.Main | cedar-test/scripts/fetch_llms_txt.py:152-226 | the exit code is 0 or 1; a URL without an output path fails; a URL run succeeds exactly when its fetch does; without a URL, both "only" flags fail |
| FetchDocs.DefaultModeExit | cedar-test/scripts/fetch_llms_txt.py:194-226 | without a URL, the exit code is 0 exactly when some source was selected and every selected fetch succeeded |

## Left out

- File system, JSON decoding, HTTP, clocks and `asyncio` are not modelled.
  - Directory listings and file contents are values of `CedarDocs.Entry` and `MastraDocs.MastraPath`.
  - A fetch is the predicate `fetched`.
  - An unreadable file is a `None` text.
- The environment flag that turns the specialist tools on and off is left out.
  - So is the MCP tool registration and dispatch.
  - So is the error wrapper that turns any exception into an error payload. Its effect on `check_compatibility` is the `Failed` outcome.
- The fetch script's meta/ETag cache, SHA-256 digests, file writes and printed messages are left out. Only success or failure of each fetch is modelled.
- The wizard's documentation evidence is left out because, as written, it is never attached. The plan would carry search results for "Streaming", "chat/stream" and "voice" (cedar-test/cedar_mcp/services/wizard.py:187-207), but it only searches when `self.docs_index.search` has a `__wrapped__` attribute (line 199). `DocsIndex.search` is a plain `async def` (cedar-test/cedar_mcp/services/docs.py:106), so the result is always None and `plan["evidence"]` is never set. Wizard.DerivePlan without an evidence field is therefore exact for this code.
- The long guidance texts are left out: code-fix snippets, install-strategy reasoning strings and specialist explanation prose. They are constant strings that no decision depends on.
- The clarifier's fallback on an internal exception is left out. Nothing in the modelled code raises one.
- `describe` reports the docs path as `Option<string>` rather than its string form.
- Strings.Lower: lower-cases ASCII capitals only. Python's `str.lower()` also maps non-ASCII letters ("É", "Σ"), so any contract stated through it covers ASCII text only.
- CedarDocs.Search: the query normaliser's `[^a-z0-9\s]` class and the `\b` word boundary are ASCII here, so non-ASCII letters and digits, which Python's `\w` counts as word characters, are treated as separators.
- CedarDocs.CitationOf: line citations use the same ASCII `\b` matching, so tokens next to non-ASCII letters may be cited where Python would not match.
- LineIndex.TokenLines: the token match is ASCII-case-insensitive only, for the same reason.
- MastraDocs.Search: it inherits the ASCII-only normalisation and word boundary of the shared scorer.
- Clarify.Suggest: the constraint test lower-cases with ASCII-only `Lower`.
- Specialist.ErrorKeywords: the query is lower-cased with ASCII-only `Lower`.
- Features.KeywordScore: keyword matching lower-cases with ASCII-only `Lower`.
- Compatibility.Troubleshoot: the issue and problem texts are lower-cased with ASCII-only `Lower`.
- CedarDocs.JsonChunks: a JSON item is either an object with optional string `heading` and `content` or something else. A missing or `null` heading is the model's `None`, which is what `item.get("heading")` returns, and search reads it as "" (cedar-test/cedar_mcp/services/docs.py:136), so that case is exact. What cannot be expressed is an explicit `null` or non-string `content`, or a truthy non-string `heading`. The source stores such a value in the chunk, and every later tokenised search of that index raises when `.lower()` is applied to it.
- CedarDocs.LoadEntry: inherits the JSON item shape above, so chunks whose content is `null` or not a string, or whose heading is a truthy non-string, are not modelled.
- Compatibility.ParseInt: accepts ASCII decimal digits only. Python's `int()` also accepts other Unicode decimal digits (for example Arabic-Indic digits).
- Compatibility.CheckCompatibility: dependency versions are strings. A non-string version value (which the source would reject in `startswith`) cannot be expressed.
- SpellsSpecialist.FilterResults and ContextSpecialist.FilterResults carry no contract of their own. They instantiate `Specialist.FilterHits` with each tool's search terms, and their properties are the `Specialist` lemmas plus `MentioningSpellIsRelevant` and `MentioningMentionIsRelevant`.

## Findings

| source | as written | input that shows it | evidently intended | confidence | as-written member | corrected member |
|---|---|---|---|---|---|---|
| cedar-test/cedar_mcp/services/mastra_docs.py:189 | `top = scored[:limit]` with no clamp on `limit` | `limit = -1` with three matching chunks returns two results, where a non-positive limit should return none | clamp the limit at zero, as the Cedar index does with `max(0, limit)` at docs.py:156 | not executed | MastraDocs.NegativeLimitKeepsResults | MastraDocs.SearchClamped |

=== FILE: cedardocs.dfy ===
/** The Cedar documentation index (cedar-test/cedar_mcp/services/docs.py):
    loading chunks from Markdown, text and JSON files, keyword search with
    line-level citations, and the index description. The file system and
    the JSON decoder are inputs: a directory walk is a sequence of entries,
    each carrying what reading and decoding it gives. */
module CedarDocs {
  import opened Strings
  import opened Seqs
  import opened Tokens
  import opened Ranking
  import opened Scoring
  import opened LineIndex
  import opened Markdown

  datatype DocChunk = DocChunk(source: string, heading: Option<string>, content: string)

  /** `Path(p).name`: the text after the last `/`. */
  function BaseName(path: string): (r: string)
    ensures |r| <= |path| && r == path[|path| - |r|..]
    ensures '/' !in r
    ensures |r| < |path| ==> path[|path| - |r| - 1] == '/'
  {
    if |path| == 0 || path[|path| - 1] == '/' then ""
    else
      var r := BaseName(path[..|path| - 1]) + [path[|path| - 1]];
      assert r == path[|path| - |r|..];
      r
  }

  /** Python's `s.rfind(c)`, with `None` for -1. */
  function LastIndexOf(s: string, c: char): (r: Option<nat>)
    ensures r.Some? ==> r.value < |s| && s[r.value] == c
    ensures r.Some? ==> forall j :: r.value < j < |s| ==> s[j] != c
    ensures r.None? ==> c !in s
  {
    if |s| == 0 then None
    else if s[|s| - 1] == c then Some(|s| - 1)
    else
      var r := LastIndexOf(s[..|s| - 1], c);
      assert forall x :: x in s ==> x in s[..|s| - 1] || x == s[|s| - 1];
      r
  }

  /** The dot at `i` starts a suffix of `name`: it is the last dot, and
      neither the first nor the last character. */
  predicate SuffixDot(name: string, i: int) {
    0 < i < |name| - 1 && name[i] == '.' && '.' !in name[i + 1..]
  }

  /** `PurePath.suffix` of a file name. */
  function NameSuffix(name: string): (r: string)
    ensures r != "" <==> exists i :: SuffixDot(name, i)
    ensures r != "" ==> exists i :: SuffixDot(name, i) && r == name[i..]
  {
    match LastIndexOf(name, '.')
    case Some(i) =>
      if 0 < i < |name| - 1 then
        assert SuffixDot(name, i);
        name[i..]
      else ""
    case None => ""
  }

  /** `Path(p).suffix`. */
  function Suffix(path: string): string {
    NameSuffix(BaseName(path))
  }

  const AllowedSuffixes: set<string> := {".md", ".markdown", ".json", ".txt"}

  /** What `json.loads` makes of a file, as far as the loader looks at it. */
  datatype Json = JsonInvalid | JsonNotList | JsonList(items: seq<JsonItem>)

  /** One list item: an object with its optional `heading` and `content`
      strings, or anything else. */
  datatype JsonItem = JsonObject(heading: Option<string>, content: Option<string>) | JsonOther

  /** A path met by the loader: whether it is a regular file, its text
      (`None` when it cannot be read as UTF-8) and its JSON decoding. */
  datatype Entry = Entry(path: string, isFile: bool, text: Option<string>, json: Json)

  /** Chunks and retained file texts. */
  datatype Loaded = Loaded(chunks: seq<DocChunk>, texts: map<string, string>)

  /** The loader reads the entry at all: a regular file with an allowed
      suffix, compared case-insensitively. */
  predicate Admitted(e: Entry) {
    e.isFile && Lower(Suffix(e.path)) in AllowedSuffixes
  }

  predicate IsJson(e: Entry) {
    Lower(Suffix(e.path)) == ".json"
  }

  /** A JSON list yields one chunk per item up to the first item that is not
      an object, where `item.get` raises and loading of the file stops. */
  function JsonChunks(path: string, items: seq<JsonItem>): (r: seq<DocChunk>)
    ensures |r| <= |items|
    ensures forall k :: 0 <= k < |r| ==>
      items[k].JsonObject? && r[k] == DocChunk(path, items[k].heading, items[k].content.GetOr(""))
    ensures |r| < |items| ==> items[|r|].JsonOther?
  {
    if |items| == 0 || items[0].JsonOther? then []
    else [DocChunk(path, items[0].heading, items[0].content.GetOr(""))] + JsonChunks(path, items[1..])
  }

  /** One chunk per heading section. */
  function MarkdownChunks(path: string, text: string): (r: seq<DocChunk>)
    ensures |r| == |SplitMarkdown(text)|
    ensures forall k :: 0 <= k < |r| ==>
      r[k] == DocChunk(path, SplitMarkdown(text)[k].0, SplitMarkdown(text)[k].1)
  {
    var parts := SplitMarkdown(text);
    seq(|parts|, k requires 0 <= k < |parts| => DocChunk(path, parts[k].0, parts[k].1))
  }

  /** `_load_entry`. */
  function LoadEntry(e: Entry): (r: Loaded)
    ensures !Admitted(e) || e.text.None? ==> r == Loaded([], map[])
    ensures forall k :: 0 <= k < |r.chunks| ==> r.chunks[k].source == e.path
    ensures r.texts.Keys <= {e.path}
    ensures e.path in r.texts <==> Admitted(e) && e.text.Some? && !IsJson(e)
    ensures e.path in r.texts ==> r.texts[e.path] == e.text.value
  {
    if !Admitted(e) || e.text.None? then Loaded([], map[])
    else if IsJson(e) then
      match e.json
      case JsonList(items) => Loaded(JsonChunks(e.path, items), map[])
      case _ => Loaded([], map[])
    else
      Loaded(MarkdownChunks(e.path, e.text.value), map[e.path := e.text.value])
  }

  /** Loading every entry of a directory walk, in walk order; a later
      entry's text replaces an earlier one under the same path. */
  function LoadAll(entries: seq<Entry>): Loaded {
    if |entries| == 0 then Loaded([], map[])
    else
      var a := LoadEntry(entries[0]);
      var b := LoadAll(entries[1..]);
      Loaded(a.chunks + b.chunks, a.texts + b.texts)
  }

  /** Every chunk comes from an admitted entry of the walk. */
  lemma {:induction false} LoadAllSources(entries: seq<Entry>)
    ensures forall k :: 0 <= k < |LoadAll(entries).chunks| ==>
      LoadAll(entries).chunks[k].source in AdmittedPaths(entries)
    decreases |entries|
  {
    if |entries| > 0 {
      LoadAllSources(entries[1..]);
      var a := LoadEntry(entries[0]);
      var b := LoadAll(entries[1..]);
      var r := LoadAll(entries);
      assert r.chunks == a.chunks + b.chunks;
      forall k | 0 <= k < |r.chunks| ensures r.chunks[k].source in AdmittedPaths(entries) {
        if k < |a.chunks| {
          assert r.chunks[k] == a.chunks[k];
          assert Admitted(entries[0]);
        } else {
          var c := b.chunks[k - |a.chunks|];
          assert r.chunks[k] == c;
          assert c.source in AdmittedPaths(entries[1..]);
          SourceShift(entries, c.source);
        }
      }
    }
  }

  /** Every retained text is the text of an admitted entry under that path. */
  lemma {:induction false} LoadAllTexts(entries: seq<Entry>)
    ensures forall p :: p in LoadAll(entries).texts ==>
      p in AdmittedPaths(entries) && Some(LoadAll(entries).texts[p]) in TextsAt(entries, p)
    decreases |entries|
  {
    if |entries| > 0 {
      LoadAllTexts(entries[1..]);
      var a := LoadEntry(entries[0]);
      var b := LoadAll(entries[1..]);
      var r := LoadAll(entries);
      forall p | p in r.texts
        ensures p in AdmittedPaths(entries) && Some(r.texts[p]) in TextsAt(entries, p)
      {
        if p in b.texts {
          PathsShift(entries, p, r.texts[p]);
        } else {
          assert p == entries[0].path && r.texts[p] == a.texts[p];
        }
      }
    }
  }

  lemma SourceShift(entries: seq<Entry>, p: string)
    requires |entries| > 0 && p in AdmittedPaths(entries[1..])
    ensures p in AdmittedPaths(entries)
  {
    var j :| 0 <= j < |entries[1..]| && Admitted(entries[1..][j]) && entries[1..][j].path == p;
    assert entries[j + 1] == entries[1..][j];
  }

  /** What holds of the tail of a walk holds of the walk. */
  lemma PathsShift(entries: seq<Entry>, p: string, t: string)
    requires |entries| > 0
    requires p in AdmittedPaths(entries[1..]) && Some(t) in TextsAt(entries[1..], p)
    ensures p in AdmittedPaths(entries) && Some(t) in TextsAt(entries, p)
  {
    var j :| 0 <= j < |entries[1..]| && Admitted(entries[1..][j]) && entries[1..][j].path == p;
    assert entries[j + 1] == entries[1..][j];
    var i :| 0 <= i < |entries[1..]| && entries[1..][i].path == p && entries[1..][i].text == Some(t);
    assert entries[i + 1] == entries[1..][i];
  }

  /** The paths of the admitted entries. */
  function AdmittedPaths(entries: seq<Entry>): set<string> {
    set j | 0 <= j < |entries| && Admitted(entries[j]) :: entries[j].path
  }

  /** The texts of the entries under `path`. */
  function TextsAt(entries: seq<Entry>, path: string): set<Option<string>> {
    set j | 0 <= j < |entries| && entries[j].path == path :: entries[j].text
  }

  /** The configured docs path: none, one that does not exist, a file, or a
      directory with the entries of its recursive walk. */
  datatype DocsPath = Unset | Missing(path: string) | SingleFile(entry: Entry) | Tree(path: string, entries: seq<Entry>)

  datatype Index = Index(docsPath: Option<string>, chunks: seq<DocChunk>, texts: map<string, string>)

  /** `DocsIndex(docs_path)`: loading never fails; what cannot be read or
      decoded adds nothing. */
  function Load(p: DocsPath): (ix: Index)
    ensures p.Unset? <==> ix.docsPath.None?
    ensures p.Unset? || p.Missing? ==> ix.chunks == [] && ix.texts == map[]
    ensures p.SingleFile? ==> forall k :: 0 <= k < |ix.chunks| ==>
      Admitted(p.entry) && ix.chunks[k].source == p.entry.path
  {
    match p
    case Unset => Index(None, [], map[])
    case Missing(path) => Index(Some(path), [], map[])
    case SingleFile(e) =>
      var l := LoadEntry(e);
      Index(Some(e.path), l.chunks, l.texts)
    case Tree(path, entries) =>
      var l := LoadAll(entries);
      Index(Some(path), l.chunks, l.texts)
  }

  /** The chunks as the scorer reads them: `normalize(chunk.heading or "")`
      and `normalize(chunk.content)`. */
  function DocsOf(chunks: seq<DocChunk>): (r: seq<Doc>)
    ensures |r| == |chunks|
    ensures forall k :: 0 <= k < |chunks| ==> r[k] == DocOf(chunks[k].heading.GetOr(""), chunks[k].content)
  {
    seq(|chunks|, k requires 0 <= k < |chunks| => DocOf(chunks[k].heading.GetOr(""), chunks[k].content))
  }

  const ContentLimit := 2000
  const LinesPerToken := 10

  datatype TokenLineList = TokenLineList(token: string, lines: seq<int>)

  datatype Citation = Citation(source: string, start: int, end: int, tokenLines: seq<TokenLineList>)

  datatype DocResult = DocResult(
    source: string,
    heading: Option<string>,
    content: string,
    matchCount: nat,
    matchedTokens: seq<Hit>,
    citations: Option<Citation>)

  /** The uncapped line list of every token, in token order. */
  function FoundLines(text: string, tokens: seq<string>): (r: seq<seq<int>>)
    ensures |r| == |tokens|
    ensures forall i :: 0 <= i < |tokens| ==> r[i] == TokenLines(text, tokens[i])
  {
    seq(|tokens|, i requires 0 <= i < |tokens| => TokenLines(text, tokens[i]))
  }

  lemma FoundLinesAscending(text: string, tokens: seq<string>)
    ensures var f := FoundLines(text, tokens);
      forall i :: 0 <= i < |f| ==> StrictlyIncreasing(f[i])
  {
    var f := FoundLines(text, tokens);
    forall i | 0 <= i < |f| ensures StrictlyIncreasing(f[i]) {
      TokenLinesAscending(text, tokens[i]);
    }
  }

  /** `token_line_map`: every token found at least once, with its first ten
      lines. */
  function LineLists(tokens: seq<string>, found: seq<seq<int>>): (r: seq<TokenLineList>)
    requires |found| == |tokens|
    ensures forall k :: 0 <= k < |r| ==> exists i :: 0 <= i < |tokens| && Listed(r[k], tokens[i], found[i])
    ensures forall i :: 0 <= i < |tokens| && |found[i]| > 0 ==> tokens[i] in ListTokens(r)
  {
    ListsFrom(tokens, found, 0)
  }

  /** The lists of the tokens from position `n` on. */
  function ListsFrom(tokens: seq<string>, found: seq<seq<int>>, n: nat): (r: seq<TokenLineList>)
    requires |found| == |tokens| && n <= |tokens|
    ensures EntriesFrom(r, tokens, found, n)
    ensures TokensListed(r, tokens, found, n)
    decreases |tokens| - n
  {
    if n == |tokens| then []
    else
      var rest := ListsFrom(tokens, found, n + 1);
      if |found[n]| > 0 then
        var x := TokenLineList(tokens[n], Take(found[n], LinesPerToken));
        EntriesStep(x, rest, tokens, found, n);
        TokensStep(x, rest, tokens, found, n);
        [x] + rest
      else rest
  }

  /** Every entry lists one of the tokens from position `n` on. */
  predicate EntriesFrom(r: seq<TokenLineList>, tokens: seq<string>, found: seq<seq<int>>, n: nat)
    requires |found| == |tokens|
  {
    forall k :: 0 <= k < |r| ==> exists i :: n <= i < |tokens| && Listed(r[k], tokens[i], found[i])
  }

  /** Every token from position `n` on that was found at least once has an
      entry. */
  predicate TokensListed(r: seq<TokenLineList>, tokens: seq<string>, found: seq<seq<int>>, n: nat)
    requires |found| == |tokens|
  {
    forall i :: n <= i < |tokens| && |found[i]| > 0 ==> tokens[i] in ListTokens(r)
  }

  lemma EntriesStep(x: TokenLineList, rest: seq<TokenLineList>, tokens: seq<string>, found: seq<seq<int>>, n: nat)
    requires |found| == |tokens| && n < |tokens| && |found[n]| > 0
    requires x == TokenLineList(tokens[n], Take(found[n], LinesPerToken))
    requires EntriesFrom(rest, tokens, found, n + 1)
    ensures EntriesFrom([x] + rest, tokens, found, n)
  {
    var r := [x] + rest;
    ListsCons(x, rest);
    forall k | 0 <= k < |r| ensures exists i :: n <= i < |tokens| && Listed(r[k], tokens[i], found[i]) {
      if k == 0 {
        assert Listed(r[0], tokens[n], found[n]);
      } else {
        assert r[k] == rest[k - 1];
      }
    }
  }

  lemma TokensStep(x: TokenLineList, rest: seq<TokenLineList>, tokens: seq<string>, found: seq<seq<int>>, n: nat)
    requires |found| == |tokens| && n < |tokens|
    requires x.token == tokens[n]
    requires TokensListed(rest, tokens, found, n + 1)
    ensures TokensListed([x] + rest, tokens, found, n)
  {
    var r := [x] + rest;
    ListsCons(x, rest);
    forall i | n <= i < |tokens| && |found[i]| > 0 ensures tokens[i] in ListTokens(r) {
      if i == n {
        assert ListTokens(r)[0] == tokens[n];
      } else {
        var j :| 0 <= j < |ListTokens(rest)| && ListTokens(rest)[j] == tokens[i];
        assert ListTokens(r)[j + 1] == tokens[i];
      }
    }
  }

  lemma ListsCons(x: TokenLineList, rest: seq<TokenLineList>)
    ensures ([x] + rest)[0] == x
    ensures forall k :: 0 <= k < |rest| ==> ([x] + rest)[k + 1] == rest[k]
    ensures ListTokens([x] + rest) == [x.token] + ListTokens(rest)
  {
    assert ([x] + rest)[1..] == rest;
  }

  /** `entry` lists `token` with the first ten of its lines `lines`. */
  predicate Listed(entry: TokenLineList, token: string, lines: seq<int>) {
    entry.token == token && |lines| > 0 && entry.lines == Take(lines, LinesPerToken)
  }

  function ListTokens(lists: seq<TokenLineList>): (r: seq<string>)
    ensures |r| == |lists|
    ensures forall k :: 0 <= k < |lists| ==> r[k] == lists[k].token
  {
    if |lists| == 0 then [] else [lists[0].token] + ListTokens(lists[1..])
  }

  /** `all_lines`: every line of every token, uncapped. */
  function AllLines(found: seq<seq<int>>): (r: seq<int>)
    ensures forall x :: x in r <==> exists i :: 0 <= i < |found| && x in found[i]
  {
    if |found| == 0 then []
    else
      var rest := AllLines(found[1..]);
      assert forall i :: 0 <= i < |found| - 1 ==> found[1..][i] == found[i + 1];
      found[0] + rest
  }

  /** The citation of a result, when there is one. */
  function CitationOf(ix: Index, source: string, hits: seq<Hit>): Option<Citation> {
    if StartsWith(source, "/") && source in ix.texts && |hits| > 0 then
      var found := FoundLines(ix.texts[source], HitTokens(hits));
      var all := AllLines(found);
      if |all| > 0 then Some(Citation(source, Min(all), Max(all), LineLists(HitTokens(hits), found)))
      else None
    else None
  }

  /** What a citation promises about the per-token lists `found` it was
      built from. */
  predicate CitationShape(c: Citation, source: string, tokens: seq<string>, found: seq<seq<int>>)
    requires |found| == |tokens|
  {
    && c.source == source
    && c.start <= c.end
    && (exists i :: 0 <= i < |found| && c.start in found[i])
    && (exists i :: 0 <= i < |found| && c.end in found[i])
    && (forall k :: 0 <= k < |c.tokenLines| ==> EntryShape(c.tokenLines[k], tokens, c.start, c.end))
  }

  /** A listed token is a matched one, with one to ten ascending lines, all
      within the span from `start` to `end`. */
  predicate EntryShape(e: TokenLineList, tokens: seq<string>, start: int, end: int) {
    && e.token in tokens
    && 0 < |e.lines| <= LinesPerToken
    && StrictlyIncreasing(e.lines)
    && (forall j :: 0 <= j < |e.lines| ==> start <= e.lines[j] <= end)
  }

  lemma CitationShapeHolds(source: string, tokens: seq<string>, found: seq<seq<int>>)
    requires |found| == |tokens| && |AllLines(found)| > 0
    requires forall i :: 0 <= i < |found| ==> StrictlyIncreasing(found[i])
    ensures var all := AllLines(found);
      CitationShape(Citation(source, Min(all), Max(all), LineLists(tokens, found)), source, tokens, found)
  {
    var all := AllLines(found);
    var lists := LineLists(tokens, found);
    forall k | 0 <= k < |lists| ensures EntryShape(lists[k], tokens, Min(all), Max(all)) {
      var i :| 0 <= i < |tokens| && Listed(lists[k], tokens[i], found[i]);
      EntryShapeOf(lists[k], tokens, found, i);
    }
    SpanEnds(found);
  }

  /** The span's ends are lines of some token. */
  lemma SpanEnds(found: seq<seq<int>>)
    requires |AllLines(found)| > 0
    ensures Min(AllLines(found)) <= Max(AllLines(found))
    ensures exists i :: 0 <= i < |found| && Min(AllLines(found)) in found[i]
    ensures exists i :: 0 <= i < |found| && Max(AllLines(found)) in found[i]
  {
    var all := AllLines(found);
    assert Min(all) in all && Max(all) in all;
  }

  /** An entry built from the `i`-th token's lines has the promised shape. */
  lemma EntryShapeOf(e: TokenLineList, tokens: seq<string>, found: seq<seq<int>>, i: nat)
    requires |found| == |tokens| && i < |tokens| && StrictlyIncreasing(found[i])
    requires Listed(e, tokens[i], found[i])
    ensures |AllLines(found)| > 0
    ensures EntryShape(e, tokens, Min(AllLines(found)), Max(AllLines(found)))
  {
    var all := AllLines(found);
    assert found[i][0] in all;
    assert e.lines == found[i][..|e.lines|];
    forall j | 0 <= j < |e.lines| ensures Min(all) <= e.lines[j] <= Max(all) {
      assert e.lines[j] == found[i][j];
      assert found[i][j] in all;
    }
  }

  /** A citation appears exactly for a local source (one starting with `/`)
      whose text was retained and in which some matched token occurs. */
  lemma CitationWhen(ix: Index, source: string, hits: seq<Hit>)
    ensures CitationOf(ix, source, hits).Some? <==>
      && StartsWith(source, "/") && source in ix.texts
      && exists i :: 0 <= i < |hits| && |TokenLines(ix.texts[source], hits[i].token)| > 0
  {
    if StartsWith(source, "/") && source in ix.texts {
      FoundWhen(ix.texts[source], hits);
    }
  }

  /** Some matched token has a line in `text` exactly when the lines of all
      of them are not empty. */
  lemma FoundWhen(text: string, hits: seq<Hit>)
    ensures |AllLines(FoundLines(text, HitTokens(hits)))| > 0 <==>
      exists i :: 0 <= i < |hits| && |TokenLines(text, hits[i].token)| > 0
  {
    if exists i :: 0 <= i < |hits| && |TokenLines(text, hits[i].token)| > 0 {
      var i :| 0 <= i < |hits| && |TokenLines(text, hits[i].token)| > 0;
      FoundOne(text, hits, i);
    }
    if |AllLines(FoundLines(text, HitTokens(hits)))| > 0 {
      FoundSome(text, hits);
    }
  }

  lemma FoundOne(text: string, hits: seq<Hit>, i: nat)
    requires i < |hits| && |TokenLines(text, hits[i].token)| > 0
    ensures |AllLines(FoundLines(text, HitTokens(hits)))| > 0
  {
    var found := FoundLines(text, HitTokens(hits));
    assert found[i][0] in AllLines(found);
  }

  lemma FoundSome(text: string, hits: seq<Hit>)
    requires |AllLines(FoundLines(text, HitTokens(hits)))| > 0
    ensures exists i :: 0 <= i < |hits| && |TokenLines(text, hits[i].token)| > 0
  {
    var found := FoundLines(text, HitTokens(hits));
    var all := AllLines(found);
    assert all[0] in all;
    var i :| 0 <= i < |found| && all[0] in found[i];
    assert |TokenLines(text, hits[i].token)| > 0;
  }

  /** A citation's span runs from the first to the last line of any matched
      token; every listed token is a matched one, with at most its first ten
      lines, in ascending order, all within the span. */
  lemma CitationFacts(ix: Index, source: string, hits: seq<Hit>)
    requires CitationOf(ix, source, hits).Some?
    ensures CitationShape(CitationOf(ix, source, hits).value, source, HitTokens(hits),
                          FoundLines(ix.texts[source], HitTokens(hits)))
  {
    var text := ix.texts[source];
    var tokens := HitTokens(hits);
    FoundLinesAscending(text, tokens);
    CitationShapeHolds(source, tokens, FoundLines(text, tokens));
  }

  /** `max(0, int(limit))`. */
  function Clamp(limit: int): nat {
    if limit < 0 then 0 else limit
  }

  /** The query tokens of a search. */
  function QueryTokensOf(query: string): seq<string> {
    QueryOf(CedarConfig, query)
  }

  /** The first `max(0, limit)` ranked chunks. */
  function TopOf(tokens: seq<string>, docs: seq<Doc>, limit: int): (r: seq<Ranked<seq<Hit>>>)
    ensures |r| <= Clamp(limit)
    ensures Ordered(r)
    ensures forall k :: 0 <= k < |r| ==> r[k].pos < |docs|
    ensures forall k :: 0 <= k < |r| ==> Scored(CedarConfig, tokens, docs, r[k])
  {
    var ranked := RankChunks(CedarConfig, tokens, docs);
    var r := Take(ranked, limit);
    assert forall k :: 0 <= k < |r| ==> r[k] == ranked[k];
    r
  }

  /** `top`: the ranked chunks kept by the limit. */
  function Top(ix: Index, query: string, limit: int): seq<Ranked<seq<Hit>>> {
    TopOf(QueryTokensOf(query), DocsOf(ix.chunks), limit)
  }

  /** The result entry of one ranked chunk. */
  function ResultOf(ix: Index, e: Ranked<seq<Hit>>): DocResult
    requires e.pos < |ix.chunks|
  {
    var c := ix.chunks[e.pos];
    DocResult(c.source, c.heading, Take(c.content, ContentLimit), e.score, e.item,
              CitationOf(ix, c.source, e.item))
  }

  /** `DocsIndex.search`. */
  function Search(ix: Index, query: string, limit: int): (r: seq<DocResult>)
    ensures |r| == |Top(ix, query, limit)| <= Clamp(limit)
    ensures query == "" ==> r == []
    ensures QueryTokensOf(query) == [] ==> r == []
  {
    var top := Top(ix, query, limit);
    seq(|top|, k requires 0 <= k < |top| => ResultOf(ix, top[k]))
  }

  /** The chunk positions of the results, best first. */
  function ResultPositions(ix: Index, query: string, limit: int): (ps: seq<nat>)
    ensures |ps| == |Top(ix, query, limit)|
    ensures forall k :: 0 <= k < |ps| ==> ps[k] < |ix.chunks|
  {
    var top := Top(ix, query, limit);
    assert |DocsOf(ix.chunks)| == |ix.chunks|;
    seq(|top|, k requires 0 <= k < |top| => top[k].pos)
  }

  /** `res` is the result for the chunk at `p` of a search for `tokens`:
      its source and heading, at most the first 2000 characters of its
      content, the token counts (twice the heading hits plus the body hits)
      of exactly the query tokens that occur, their sum as the match count,
      and the chunk's citation. */
  predicate ResultFor(ix: Index, tokens: seq<string>, res: DocResult, p: nat) {
    && p < |ix.chunks|
    && var c := ix.chunks[p];
    && var d := DocsOf(ix.chunks)[p];
    && res.source == c.source
    && res.heading == c.heading
    && res.content <= c.content
    && |res.content| == (if |c.content| < ContentLimit then |c.content| else ContentLimit)
    && (forall j :: 0 <= j < |res.matchedTokens| ==>
          && res.matchedTokens[j].token in tokens
          && res.matchedTokens[j].count
             == 2 * CountWordPrefix(d.heading, res.matchedTokens[j].token)
                + CountWordPrefix(d.body, res.matchedTokens[j].token)
          && res.matchedTokens[j].count > 0)
    && (forall i :: 0 <= i < |tokens| && TokenTotal(CedarConfig, d, tokens[i]) > 0 ==>
          tokens[i] in HitTokens(res.matchedTokens))
    && NoDups(HitTokens(res.matchedTokens))
    && res.matchCount == Total(res.matchedTokens) == SumTotals(CedarConfig, d, tokens)
    && res.matchCount > 0
    && res.citations == CitationOf(ix, c.source, res.matchedTokens)
  }

  /** Each result is the result for the chunk at its position. */
  lemma SearchResults(ix: Index, query: string, limit: int)
    ensures forall k :: 0 <= k < |Search(ix, query, limit)| ==>
      ResultFor(ix, QueryTokensOf(query), Search(ix, query, limit)[k], ResultPositions(ix, query, limit)[k])
  {
    var tokens := QueryTokensOf(query);
    var docs := DocsOf(ix.chunks);
    var top := Top(ix, query, limit);
    var r := Search(ix, query, limit);
    var ps := ResultPositions(ix, query, limit);
    forall k | 0 <= k < |r| ensures ResultFor(ix, tokens, r[k], ps[k]) {
      var e := top[k];
      var d := docs[e.pos];
      assert Scored(CedarConfig, tokens, docs, e);
      HitsDistinct(CedarConfig, d, tokens);
      ScoreIsSum(CedarConfig, d, tokens);
      forall i | 0 <= i < |tokens| && TokenTotal(CedarConfig, d, tokens[i]) > 0
        ensures tokens[i] in HitTokens(e.item)
      {
        HitsComplete(CedarConfig, d, tokens, i);
      }
    }
  }

  /** A result with key (`score`, `breadth`) at chunk `pos` precedes one
      with key (`score2`, `breadth2`) at chunk `pos2`: a higher score, or
      an equal score with more matched tokens, or an equal key and an
      earlier chunk. */
  predicate RanksAhead(score: nat, breadth: nat, pos: nat, score2: nat, breadth2: nat, pos2: nat) {
    || score > score2
    || (score == score2 && breadth > breadth2)
    || (score == score2 && breadth == breadth2 && pos < pos2)
  }

  /** Results are ordered by match count, then by number of matched tokens,
      both descending; results with equal keys keep chunk order. */
  lemma SearchOrder(ix: Index, query: string, limit: int, i: nat, j: nat)
    requires i < j < |Search(ix, query, limit)|
    ensures RanksAhead(
      Search(ix, query, limit)[i].matchCount, |Search(ix, query, limit)[i].matchedTokens|,
      ResultPositions(ix, query, limit)[i],
      Search(ix, query, limit)[j].matchCount, |Search(ix, query, limit)[j].matchedTokens|,
      ResultPositions(ix, query, limit)[j])
  {
    var top := Top(ix, query, limit);
    assert Ahead(top[i], top[j]);
  }

  /** A chunk with a positive score left out of `TopOf` was cut by the
      limit and ranks behind every kept chunk. */
  lemma TopOfKeepsBest(tokens: seq<string>, docs: seq<Doc>, limit: int, p: nat)
    requires p < |docs| && Total(HitsOf(CedarConfig, docs[p], tokens)) > 0
    requires forall k :: 0 <= k < |TopOf(tokens, docs, limit)| ==> TopOf(tokens, docs, limit)[k].pos != p
    ensures |TopOf(tokens, docs, limit)| == Clamp(limit)
    ensures forall k :: 0 <= k < |TopOf(tokens, docs, limit)| ==>
      var e := TopOf(tokens, docs, limit)[k];
      RanksAhead(e.score, e.breadth, e.pos,
                 Total(HitsOf(CedarConfig, docs[p], tokens)), |HitsOf(CedarConfig, docs[p], tokens)|, p)
  {
    var ranked := RankChunks(CedarConfig, tokens, docs);
    var top := TopOf(tokens, docs, limit);
    var m := RankedEntry(CedarConfig, tokens, docs, p);
    assert top == Take(ranked, limit);
    PrefixCut(ranked, limit, m);
    forall k | 0 <= k < |top|
      ensures RanksAhead(top[k].score, top[k].breadth, top[k].pos, ranked[m].score, ranked[m].breadth, ranked[m].pos)
    {
      assert Ahead(top[k], ranked[m]);
    }
  }

  /** The entries a limit keeps from an ordered list all rank ahead of any
      entry it cuts. */
  lemma PrefixCut(ranked: seq<Ranked<seq<Hit>>>, limit: int, m: nat)
    requires Ordered(ranked) && m < |ranked|
    requires forall k :: 0 <= k < |Take(ranked, limit)| ==> Take(ranked, limit)[k].pos != ranked[m].pos
    ensures |Take(ranked, limit)| == Clamp(limit)
    ensures forall k :: 0 <= k < |Take(ranked, limit)| ==> Ahead(Take(ranked, limit)[k], ranked[m])
  {
    var top := Take(ranked, limit);
    assert forall k :: 0 <= k < |top| ==> ranked[k] == top[k];
    PrefixKeepsBest(ranked, |top|, m);
  }

  /** The limit keeps the best chunks: a chunk that scores above zero but is
      not among the results was cut by the limit, and every result ranks
      ahead of it. */
  lemma SearchKeepsBest(ix: Index, query: string, limit: int, p: nat)
    requires p < |ix.chunks| && p !in ResultPositions(ix, query, limit)
    requires SumTotals(CedarConfig, DocsOf(ix.chunks)[p], QueryTokensOf(query)) > 0
    ensures |Search(ix, query, limit)| == Clamp(limit)
    ensures forall k :: 0 <= k < |Search(ix, query, limit)| ==>
      RanksAhead(
        Search(ix, query, limit)[k].matchCount, |Search(ix, query, limit)[k].matchedTokens|,
        ResultPositions(ix, query, limit)[k],
        SumTotals(CedarConfig, DocsOf(ix.chunks)[p], QueryTokensOf(query)),
        |HitsOf(CedarConfig, DocsOf(ix.chunks)[p], QueryTokensOf(query))|, p)
  {
    var tokens := QueryTokensOf(query);
    var docs := DocsOf(ix.chunks);
    var top := TopOf(tokens, docs, limit);
    var ps := ResultPositions(ix, query, limit);
    ScoreIsSum(CedarConfig, docs[p], tokens);
    forall k | 0 <= k < |top| ensures top[k].pos != p {
      assert ps[k] == top[k].pos;
    }
    TopOfKeepsBest(tokens, docs, limit, p);
  }

  /** The name a chunk's source is listed under: the file name of a path
      starting with `/`, the source itself otherwise. */
  function SourceName(source: string): string {
    if StartsWith(source, "/") then BaseName(source) else source
  }

  function SourceNames(chunks: seq<DocChunk>): (r: seq<string>)
    ensures |r| == |chunks|
    ensures forall k :: 0 <= k < |chunks| ==> r[k] == SourceName(chunks[k].source)
  {
    seq(|chunks|, k requires 0 <= k < |chunks| => SourceName(chunks[k].source))
  }

  datatype Description = Description(docsPath: Option<string>, numChunks: nat, sources: seq<string>, hasBuiltin: bool)

  /** `DocsIndex.describe`: the chunk count and the sorted distinct source
      names; no built-in documentation is ever loaded. */
  function Describe(ix: Index): (d: Description)
    ensures d.docsPath == ix.docsPath
    ensures d.numChunks == |ix.chunks|
    ensures !d.hasBuiltin
    ensures StrictlySorted(d.sources) && NoDups(d.sources)
    ensures forall name :: name in d.sources <==>
      exists k :: 0 <= k < |ix.chunks| && SourceName(ix.chunks[k].source) == name
  {
    var names := SourceNames(ix.chunks);
    assert forall name :: name in names <==>
      exists k :: 0 <= k < |ix.chunks| && SourceName(ix.chunks[k].source) == name by {
      forall name | name in names
        ensures exists k :: 0 <= k < |ix.chunks| && SourceName(ix.chunks[k].source) == name
      {
        var k :| 0 <= k < |names| && names[k] == name;
      }
    }
    Description(ix.docsPath, |ix.chunks|, SortedSet(names), false)
  }
}

=== FILE: clarify.dfy ===
/** The clarifying-question list builder: a goal echo, the eight dimension
    questions, minus those a known constraint already answers, de-duplicated
    and capped at ten. */
module Clarify {
  import opened Strings
  import opened Seqs

  /** The eight dimension questions (scope, constraints, integration, UI/UX),
      flattened in declaration order. */
  const Dimensions: seq<string> := [
    "What is the primary user goal?",
    "Which user journeys " + "must be supported in v1?",
    "Do you have framework/version " + "constraints (Next.js, React, Node.js)?",
    "Any security/compliance requirements?",
    "How will this connect " + "to your backend or AI provider?",
    "Do you need streaming or tool calling?",
    "Any UI patterns or components " + "required (floating chat, inline, modal)?",
    "Accessibility or localization needs?"
  ]

  const MaxQuestions := 10

  /** The question that repeats the (stripped) goal back to the user. */
  function Echo(goal: string): (q: string)
    ensures |q| > 0 && q[0] == 'T'
    ensures q[|q| - 1] == '?'
    ensures Contains(q, Strip(goal))
  {
    var lead := "To confirm, is this your goal: '";
    var q := lead + Strip(goal) + "'?";
    assert q[|lead|..|lead| + |Strip(goal)|] == Strip(goal);
    ContainsAt(q, Strip(goal), |lead|);
    q
  }

  /** The question list before filtering: the echo when the stripped goal is
      non-empty, then every dimension question. */
  function Candidates(goal: string): seq<string> {
    (if Strip(goal) != "" then [Echo(goal)] else []) + Dimensions
  }

  /** Some known constraint, lower-cased, occurs in the lower-cased question. */
  predicate Blocked(q: string, constraints: seq<string>) {
    exists c :: c in constraints && Contains(Lower(q), Lower(c))
  }

  /** The candidates no known constraint blocks (the filter runs only for a
      non-empty constraint list). */
  function Unblocked(goal: string, constraints: seq<string>): seq<string> {
    if |constraints| > 0 then Filter(Candidates(goal), q => !Blocked(q, constraints))
    else Candidates(goal)
  }

  /** `suggest_questions`. */
  function Suggest(goal: string, constraints: seq<string>): (r: seq<string>)
    ensures |r| <= MaxQuestions
    ensures NoDups(r)
    ensures forall i :: 0 <= i < |r| ==> r[i] in Candidates(goal) && !Blocked(r[i], constraints)
  {
    Take(Dedup(Unblocked(goal, constraints)), MaxQuestions)
  }

  /** No two candidate questions are equal: the echo starts with 'T' and no
      dimension question does. */
  lemma CandidatesDistinct(goal: string)
    ensures NoDups(Candidates(goal))
  {
    DimensionsDistinct();
    if Strip(goal) != "" {
      DimensionsNotEcho(goal);
      ConsNoDups(Echo(goal), Dimensions);
    } else {
      assert Candidates(goal) == Dimensions;
    }
  }

  /** The dimension questions have pairwise different lengths. */
  lemma DimensionsDistinct()
    ensures NoDups(Dimensions)
  {
    var d := Dimensions;
    assert |d[0]| == 30 && |d[1]| == 44 && |d[2]| == 68 && |d[3]| == 37;
    assert |d[4]| == 53 && |d[5]| == 38 && |d[6]| == 70 && |d[7]| == 36;
  }

  lemma DimensionsNotEcho(goal: string)
    ensures Echo(goal) !in Dimensions
  {
    var d := Dimensions;
    assert d[0][0] == 'W' && d[1][0] == 'W' && d[2][0] == 'D' && d[3][0] == 'A';
    assert d[4][0] == 'H' && d[5][0] == 'D' && d[6][0] == 'A' && d[7][0] == 'A';
  }

  /** The output lists kept candidates in their original order. */
  lemma SuggestKeepsOrder(goal: string, constraints: seq<string>)
    ensures Subsequence(Suggest(goal, constraints), Candidates(goal))
  {
    var u := Unblocked(goal, constraints);
    CandidatesDistinct(goal);
    if |constraints| > 0 {
      FilterNoDups(Candidates(goal), q => !Blocked(q, constraints));
    }
    DedupNoDups(u);
    assert Subsequence(u, Candidates(goal)) by {
      if |constraints| == 0 { SubsequenceRefl(Candidates(goal)); }
    }
    SubsequenceTake(u, Candidates(goal), MaxQuestions);
  }

  lemma {:induction false} SubsequenceRefl(s: seq<string>)
    ensures Subsequence(s, s)
    decreases |s|
  {
    if |s| > 0 {
      SubsequenceRefl(s[1..]);
    }
  }

  /** A candidate no constraint blocks is dropped only when the cap of ten
      is already reached. */
  lemma SuggestComplete(goal: string, constraints: seq<string>, q: string)
    requires q in Candidates(goal) && !Blocked(q, constraints)
    ensures q in Suggest(goal, constraints) || |Suggest(goal, constraints)| == MaxQuestions
  {
    var u := Unblocked(goal, constraints);
    CandidatesDistinct(goal);
    if |constraints| > 0 {
      FilterNoDups(Candidates(goal), x => !Blocked(x, constraints));
      var i :| 0 <= i < |Candidates(goal)| && Candidates(goal)[i] == q;
      assert q in u;
    }
    DedupNoDups(u);
  }

  /** With a non-empty stripped goal whose echo no constraint blocks, the
      echo is the first question. */
  lemma SuggestEchoFirst(goal: string, constraints: seq<string>)
    requires Strip(goal) != "" && !Blocked(Echo(goal), constraints)
    ensures |Suggest(goal, constraints)| > 0 && Suggest(goal, constraints)[0] == Echo(goal)
  {
    var u := Unblocked(goal, constraints);
    CandidatesDistinct(goal);
    var c := Candidates(goal);
    assert c[0] == Echo(goal);
    if |constraints| > 0 {
      FilterNoDups(c, x => !Blocked(x, constraints));
      assert u == [c[0]] + Filter(c[1..], x => !Blocked(x, constraints));
    }
    DedupNoDups(u);
  }

  /** Without known constraints every candidate is asked, in order: the
      eight dimension questions, preceded by the echo when there is a goal. */
  lemma SuggestUnconstrained(goal: string)
    ensures Suggest(goal, []) == Candidates(goal)
    ensures |Suggest(goal, [])| >= 8
    ensures Suggest(goal, [])[|Suggest(goal, [])| - 8..] == Dimensions
  {
    CandidatesDistinct(goal);
    DedupNoDups(Candidates(goal));
  }

  /** Without known constraints there are at least eight questions. */
  lemma UnconstrainedCount(goal: string)
    ensures |Suggest(goal, [])| >= |Dimensions|
  {
    SuggestUnconstrained(goal);
  }

  /** An empty known constraint occurs in every question, so it removes all
      of them. */
  lemma EmptyConstraintBlocksAll(goal: string, constraints: seq<string>)
    requires "" in constraints
    ensures Suggest(goal, constraints) == []
  {
    var c := Candidates(goal);
    forall i | 0 <= i < |c| ensures Blocked(c[i], constraints) {
      ContainsEmpty(Lower(c[i]));
      assert Lower("") == "";
    }
  }
}

=== FILE: compatibility.dfy ===
/** The server's compatibility check (Node and React versions, conflicting
    dependencies, framework advice) and the keyword matching of its
    troubleshooting tool. */
module Compatibility {
  import opened Strings
  import opened Seqs

  // ---------------------------------------------------------------------
  // Python's int() on a decimal string

  predicate IsDigit(c: char) {
    '0' <= c <= '9'
  }

  predicate AllDigits(s: string) {
    forall i :: 0 <= i < |s| ==> IsDigit(s[i])
  }

  /** The value of a string of decimal digits, most significant first. */
  function DigitsValue(s: string): nat
    requires AllDigits(s)
  {
    if |s| == 0 then 0
    else 10 * DigitsValue(s[..|s| - 1]) + (s[|s| - 1] as int - '0' as int)
  }

  /** The text after an optional leading sign. */
  function Unsigned(t: string): string {
    if |t| > 0 && (t[0] == '+' || t[0] == '-') then t[1..] else t
  }

  /** Decimal digits in groups: a digit first, and every `_` directly
      followed by a digit, so no `_` leads, trails or is doubled. */
  predicate Grouped(s: string) {
    |s| > 0 && IsDigit(s[0]) && forall i :: 0 <= i < |s| ==> GroupChar(s, i)
  }

  /** The character at `i` is a digit, or a `_` with a digit after it. */
  predicate GroupChar(s: string, i: nat)
    requires i < |s|
  {
    IsDigit(s[i]) || (s[i] == '_' && i + 1 < |s| && IsDigit(s[i + 1]))
  }

  /** `int(s)`: surrounding whitespace is ignored, one optional sign, then
      ASCII digits in groups separated by single underscores; anything else
      is rejected (the source raises `ValueError`). */
  function ParseInt(s: string): (r: Option<int>)
    ensures r.Some? <==> Grouped(Unsigned(Strip(s)))
    ensures r.Some? && |Strip(s)| > 0 && Strip(s)[0] == '-' ==> r.value <= 0
    ensures r.Some? && !(|Strip(s)| > 0 && Strip(s)[0] == '-') ==> r.value >= 0
  {
    var t := Strip(s);
    var d := Unsigned(t);
    if !Grouped(d) then None
    else if t[0] == '-' then Some(0 - GroupsValue(d) as int)
    else Some(GroupsValue(d))
  }

  /** The value of the digits of `s`, most significant first, reading past
      the separators `_`. */
  function GroupsValue(s: string): nat {
    if |s| == 0 then 0
    else if s[|s| - 1] == '_' then GroupsValue(s[..|s| - 1])
    else 10 * GroupsValue(s[..|s| - 1]) + DigitValue(s[|s| - 1])
  }

  function DigitValue(c: char): nat {
    if IsDigit(c) then c as int - '0' as int else 0
  }

  /** Without separators, grouped digits have their plain decimal value. */
  lemma {:induction false} GroupsValueDigits(s: string)
    requires AllDigits(s)
    ensures GroupsValue(s) == DigitsValue(s)
  {
    if |s| > 0 {
      GroupsValueDigits(s[..|s| - 1]);
    }
  }

  function DigitChar(n: nat): (c: char)
    requires n < 10
    ensures IsDigit(c)
  {
    ('0' as int + n) as char
  }

  /** The decimal rendering of a natural number, as `str(n)` writes it. */
  function ShowNat(n: nat): (s: string)
    ensures |s| > 0 && AllDigits(s)
  {
    if n < 10 then [DigitChar(n)] else ShowNat(n / 10) + [DigitChar(n % 10)]
  }

  function ShowInt(n: int): string {
    if n < 0 then "-" + ShowNat(-n) else ShowNat(n)
  }

  /** Reading the digits `str` writes gives the number back. */
  lemma {:induction false} ShowNatValue(n: nat)
    ensures DigitsValue(ShowNat(n)) == n
  {
    var s := ShowNat(n);
    if n >= 10 {
      ShowNatValue(n / 10);
      assert s[..|s| - 1] == ShowNat(n / 10);
    }
  }

  /** `int(str(n)) == n` for every integer. */
  lemma ParseShow(n: int)
    ensures ParseInt(ShowInt(n)) == Some(n)
  {
    var s := ShowInt(n);
    var m := if n < 0 then -n else n;
    ShowIntShape(n);
    StripUnpadded(s);
    ShowNatValue(m);
    GroupsValueDigits(ShowNat(m));
  }

  /** Underscores between digits are read past: `int("1_6") == 16`. */
  lemma ParseGrouped()
    ensures ParseInt("1_6") == Some(16)
  {
    var s := "1_6";
    StripUnpadded(s);
    assert Unsigned(s) == s;
    assert Grouped(s);
    assert GroupsValue(s) == 16 by {
      assert s[..2] == "1_" && s[..2][..1] == "1" && "1"[..0] == "";
    }
  }

  lemma ParseShowNat(n: nat)
    ensures ParseInt(ShowNat(n)) == Some(n)
  {
    ParseShow(n);
  }

  lemma ShowIntShape(n: int)
    ensures var s := ShowInt(n);
            |s| > 0 && !IsSpace(s[0]) && !IsSpace(s[|s| - 1])
            && (s[0] == '-' <==> n < 0)
            && Unsigned(s) == ShowNat(if n < 0 then -n else n)
  {
    var d := ShowNat(if n < 0 then -n else n);
    DigitNotSpace(d[0]);
    DigitNotSpace(d[|d| - 1]);
    if n < 0 {
      var s := "-" + d;
      assert s[0] == '-' && s[1..] == d && s[|s| - 1] == d[|d| - 1];
    }
  }

  lemma DigitNotSpace(c: char)
    requires IsDigit(c)
    ensures !IsSpace(c) && c != '-' && c != '+'
  {
  }

  /** A string with no whitespace at either end is its own strip. */
  lemma StripUnpadded(s: string)
    requires |s| > 0 && !IsSpace(s[0]) && !IsSpace(s[|s| - 1])
    ensures Strip(s) == s
  {
  }

  /** A version string's text before its first ".": `version.split(".")[0]`. */
  function Major(version: string): (m: string)
    ensures '.' !in m
    ensures m <= version
  {
    SplitOn(version, '.')[0]
  }

  lemma MajorOf(n: nat, rest: string)
    ensures Major(ShowNat(n) + "." + rest) == ShowNat(n)
  {
    var d := ShowNat(n);
    var s := d + "." + rest;
    DigitsBeforeDot(d, rest);
    IndexOfIs(s, '.', |d|);
    assert s[..|d|] == d;
  }

  lemma DigitsBeforeDot(d: string, rest: string)
    requires AllDigits(d)
    ensures var s := d + "." + rest;
            s[|d|] == '.' && forall j :: 0 <= j < |d| ==> s[j] != '.'
  {
    var s := d + "." + rest;
    forall j | 0 <= j < |d| ensures s[j] != '.' {
      assert s[j] == d[j];
    }
  }

  // ---------------------------------------------------------------------
  // check_compatibility

  /** The Node version with one leading "v" dropped. */
  function NodeVersionNum(node: string): string {
    if StartsWith(node, "v") then node[1..] else node
  }

  /** The React version with one leading "^" or "~" dropped. */
  function ReactVersionNum(react: string): string {
    if StartsWith(react, "^") || StartsWith(react, "~") then react[1..] else react
  }

  function NodeMajor(node: string): Option<int> {
    ParseInt(Major(NodeVersionNum(node)))
  }

  function ReactMajor(react: string): Option<int> {
    ParseInt(Major(ReactVersionNum(react)))
  }

  /** The oldest major version of Node and of React the check accepts. */
  const MinMajor := 18

  /** A Node version was given and its major version is below 18. */
  predicate NodeTooOld(node: string) {
    node != "" && NodeMajor(node).Some? && NodeMajor(node).value < MinMajor
  }

  predicate ReactTooOld(deps: map<string, string>) {
    "react" in deps && ReactMajor(deps["react"]).Some? && ReactMajor(deps["react"]).value < MinMajor
  }

  /** The check stops at a version whose major part is not an integer. */
  predicate NodeUnreadable(node: string) {
    node != "" && NodeMajor(node).None?
  }

  predicate ReactUnreadable(deps: map<string, string>) {
    "react" in deps && ReactMajor(deps["react"]).None?
  }

  /** The React version the report quotes ("" when there is none). */
  function ReactVersionOf(deps: map<string, string>): string {
    if "react" in deps then ReactVersionNum(deps["react"]) else ""
  }

  function NodeIssue(version: string): string {
    "Node.js " + version + " is too old. Cedar-OS requires Node.js 18+"
  }

  function ReactIssue(version: string): string {
    "React " + version + " may have compatibility issues. " + "Cedar-OS is tested with React 18+"
  }

  const NodeAdvice := "Upgrade to Node.js 18 or later"
  const ReactAdvice := "Consider upgrading to React 18+"
  const RouterWarning := "Cedar works best with Next.js App Router " + "or React Router v6+"
  const EmotionWarning := "Cedar uses its own styling system, " + "Emotion may conflict"
  const NextAdvice := "Great choice! Cedar-OS has excellent " + "Next.js support"
  const ViteAdvice := "Vite is supported. Make sure to configure SSR " + "properly for Cedar components"
  const CompatibleMessage := "Your setup looks compatible with Cedar-OS!"
  const IssuesMessage := "Some compatibility issues found. " + "Please review recommendations."

  datatype Report = Report(compatible: bool, issues: seq<string>, recommendations: seq<string>, message: string)

  /** The tool's answer: the report, or the error payload the server's tool
      dispatcher returns when `int()` rejects `literal`. */
  datatype Outcome = Checked(report: Report) | Failed(literal: string)

  /** The framework advice: Next.js first, then Vite, matched anywhere in
      the lower-cased framework name. */
  function FrameworkAdvice(framework: string): (r: seq<string>)
    ensures |r| <= 1
    ensures Contains(Lower(framework), "next") <==> r == [NextAdvice]
    ensures r == [ViteAdvice] <==> !Contains(Lower(framework), "next") && Contains(Lower(framework), "vite")
  {
    if framework == "" then []
    else if Contains(Lower(framework), "next") then [NextAdvice]
    else if Contains(Lower(framework), "vite") then [ViteAdvice]
    else []
  }

  function Warnings(deps: map<string, string>): (r: seq<string>)
    ensures |r| <= 2
    ensures RouterWarning in r <==> "react-router" in deps
    ensures EmotionWarning in r <==> "emotion" in deps
  {
    (if "react-router" in deps then [RouterWarning] else [])
    + (if "emotion" in deps then [EmotionWarning] else [])
  }

  function When(c: bool, s: string): (r: seq<string>)
    ensures |r| <= 1 && (s in r <==> c)
  {
    if c then [s] else []
  }

  /** The issues: the Node one first, then the React one. */
  function Issues(nodeOld: bool, reactOld: bool, nodeVersion: string, reactVersion: string): (r: seq<string>)
    ensures |r| == (if nodeOld then 1 else 0) + (if reactOld then 1 else 0)
    ensures nodeOld ==> r[0] == NodeIssue(nodeVersion)
    ensures reactOld ==> r[|r| - 1] == ReactIssue(reactVersion)
  {
    When(nodeOld, NodeIssue(nodeVersion)) + When(reactOld, ReactIssue(reactVersion))
  }

  /** The recommendations: upgrade advice (Node first, then React),
      conflict warnings, then the framework advice. */
  function Advice(nodeOld: bool, reactOld: bool, deps: map<string, string>, framework: string): (r: seq<string>)
    ensures |r| <= 5
    ensures nodeOld ==> |r| > 0 && r[0] == NodeAdvice
    ensures reactOld ==> ReactAdvice in r
    ensures "react-router" in deps ==> RouterWarning in r
    ensures "emotion" in deps ==> EmotionWarning in r
  {
    var u := When(nodeOld, NodeAdvice) + When(reactOld, ReactAdvice);
    var w := Warnings(deps);
    var r := u + w + FrameworkAdvice(framework);
    assert u + w <= r;
    assert nodeOld ==> u[0] == NodeAdvice;
    r
  }

  /** The report of a check whose version strings all parse: the Node
      finding alone decides compatibility, and the message follows it. */
  function Assess(nodeOld: bool, reactOld: bool, nodeVersion: string, reactVersion: string,
                  deps: map<string, string>, framework: string): (r: Report)
    ensures r.compatible == !nodeOld
    ensures r.message == (if r.compatible then CompatibleMessage else IssuesMessage)
    ensures r.issues == Issues(nodeOld, reactOld, nodeVersion, reactVersion)
    ensures r.recommendations == Advice(nodeOld, reactOld, deps, framework)
  {
    Report(!nodeOld, Issues(nodeOld, reactOld, nodeVersion, reactVersion), Advice(nodeOld, reactOld, deps, framework),
           if nodeOld then IssuesMessage else CompatibleMessage)
  }

  /** `check_compatibility`. A missing Node version, framework or dependency
      map reads as empty, as all of them are falsy in the source. The Node
      version is read first, so its error wins. */
  function CheckCompatibility(deps: map<string, string>, framework: string, node: string): (r: Outcome)
    ensures r.Failed? <==> NodeUnreadable(node) || ReactUnreadable(deps)
    ensures NodeUnreadable(node) ==> r == Failed(Major(NodeVersionNum(node)))
    ensures !NodeUnreadable(node) && ReactUnreadable(deps) ==> r == Failed(Major(ReactVersionOf(deps)))
    ensures r.Checked? ==> r.report == Assess(NodeTooOld(node), ReactTooOld(deps), NodeVersionNum(node),
                                              ReactVersionOf(deps), deps, framework)
  {
    if NodeUnreadable(node) then Failed(Major(NodeVersionNum(node)))
    else if ReactUnreadable(deps) then Failed(Major(ReactVersionOf(deps)))
    else Checked(Assess(NodeTooOld(node), ReactTooOld(deps), NodeVersionNum(node), ReactVersionOf(deps), deps, framework))
  }

  /** Compatibility depends on the Node version alone: an old React, or any
      other dependency, adds issues and advice but never makes the setup
      incompatible. */
  lemma OnlyNodeDecides(deps: map<string, string>, framework: string, node: string)
    requires CheckCompatibility(deps, framework, node).Checked?
    ensures CheckCompatibility(deps, framework, node).report.compatible <==> !NodeTooOld(node)
    ensures ReactTooOld(deps) ==>
              ReactIssue(ReactVersionOf(deps)) in CheckCompatibility(deps, framework, node).report.issues
  {
    var iss := Issues(NodeTooOld(node), ReactTooOld(deps), NodeVersionNum(node), ReactVersionOf(deps));
    if ReactTooOld(deps) {
      assert iss[|iss| - 1] == ReactIssue(ReactVersionOf(deps));
    }
  }

  lemma NodeMajorOf(major: nat, rest: string)
    ensures NodeMajor("v" + ShowNat(major) + "." + rest) == Some(major)
  {
    var x := ShowNat(major) + "." + rest;
    assert "v" + ShowNat(major) + "." + rest == "v" + x;
    DropV(x);
    MajorOf(major, rest);
    ParseShowNat(major);
    NodeMajorFrom("v" + x, x, ShowNat(major), major);
  }

  lemma NodeMajorFrom(node: string, x: string, d: string, n: nat)
    requires NodeVersionNum(node) == x && Major(x) == d && ParseInt(d) == Some(n)
    ensures NodeMajor(node) == Some(n)
  {
  }

  lemma DropV(x: string)
    ensures NodeVersionNum("v" + x) == x
  {
    assert ("v" + x)[1..] == x;
  }

  /** A Node version written as "v" followed by a major number and a dot
      decides compatibility by that number alone. */
  lemma NodeVersionDecides(deps: map<string, string>, framework: string, major: nat, rest: string)
    requires !ReactUnreadable(deps)
    ensures var r := CheckCompatibility(deps, framework, "v" + ShowNat(major) + "." + rest);
            r.Checked? && (r.report.compatible <==> major >= MinMajor)
  {
    NodeMajorOf(major, rest);
  }

  /** The "latest" tag that the setup generator writes is not a version:
      checking it as the React version fails. */
  lemma LatestReactFails(deps: map<string, string>, framework: string, node: string)
    requires "react" in deps && deps["react"] == "latest" && !NodeUnreadable(node)
    ensures CheckCompatibility(deps, framework, node) == Failed("latest")
  {
    LatestUnreadable();
  }

  lemma LatestUnreadable()
    ensures ReactVersionNum("latest") == "latest"
    ensures Major("latest") == "latest"
    ensures ReactMajor("latest").None?
  {
    var s := "latest";
    assert s[0] == 'l' && s[|s| - 1] == 't';
    assert forall j :: 0 <= j < |s| ==> s[j] != '.';
    IndexOfIs(s, '.', |s|);
    StripUnpadded(s);
    assert !IsDigit(Unsigned(s)[0]);
  }

  // ---------------------------------------------------------------------
  // troubleshoot_issue

  datatype Problem = Problem(key: string, problem: string, symptoms: seq<string>, solutions: seq<string>)

  /** The troubleshooting knowledge base, in insertion order. */
  const StreamingProblem := Problem(
    "streaming_not_working", "Chat streaming is" + " not " + "working",
    ["Messages appear all at once", "No typing indicator", "SSE errors"],
    ["Check if your API endpoint supports streaming", "Verify Content-Type headers are set correctly",
     "Ensure your backend returns proper SSE format", "Check network tab for streaming response"])
  const AgentsProblem := Problem(
    "agents_not_connecting", "Agents are" + " not " + "connecting to backend",
    ["Agent status shows disconnected", "No responses from chat", "Console errors"],
    ["Verify API endpoint configuration", "Check authentication setup",
     "Validate agent configuration", "Review network connectivity"])
  const StateProblem := Problem(
    "state_not_persisting", "Agentic state is" + " not " + "persisting between sessions",
    ["State resets on page reload", "Lost conversation history"],
    ["Enable persistence in Cedar config", "Set up proper storage backend",
     "Configure session management", "Check localStorage/sessionStorage"])
  const Knowledge: seq<Problem> := [StreamingProblem, AgentsProblem, StateProblem]

  const GeneralSteps: seq<string> :=
    ["Check browser console for errors", "Verify all Cedar dependencies are installed",
     "Check that CedarProvider is properly configured", "Ensure API endpoints are accessible",
     "Review Cedar documentation for the component"]
  const HelpfulResources: seq<string> :=
    ["https://docs.cedarcopilot.com/troubleshooting", "Cedar Discord community",
     "GitHub issues for specific bugs"]

  /** Some word of the lower-cased problem text occurs in the lower-cased
      issue, anywhere, even inside another word. */
  predicate Matches(problem: string, issue: string) {
    var words := SplitWs(Lower(problem));
    exists k :: 0 <= k < |words| && Contains(Lower(issue), words[k])
  }

  /** `any(keyword in text for keyword in words)`. */
  function AnyIn(words: seq<string>, text: string): (b: bool)
    ensures b <==> exists k :: 0 <= k < |words| && Contains(text, words[k])
  {
    if |words| == 0 then false
    else
      assert forall k :: 1 <= k < |words| ==> words[k] == words[1..][k - 1];
      Contains(text, words[0]) || AnyIn(words[1..], text)
  }

  /** The test the source applies to each problem of the knowledge base. */
  function Matcher(issue: string): Problem -> bool {
    (p: Problem) => AnyIn(SplitWs(Lower(p.problem)), Lower(issue))
  }

  datatype Diagnosis = Diagnosis(
    issue: string,
    matched: seq<Problem>,
    generalSteps: Option<seq<string>>,
    resources: Option<seq<string>>)

  /** The test the source applies is the matching rule. */
  lemma MatcherMeaning(issue: string, p: Problem)
    ensures Matcher(issue)(p) <==> Matches(p.problem, issue)
  {
  }

  /** The matching rule of `troubleshoot_issue` over a knowledge base: the
      matches are the problems whose text shares a word with the issue, in
      knowledge-base order; the general steps and resources are present
      only when nothing matched. */
  function Troubleshoot(db: seq<Problem>, issue: string): (r: Diagnosis)
    ensures r.issue == issue && Subsequence(r.matched, db)
    ensures forall i :: 0 <= i < |r.matched| ==> Matches(r.matched[i].problem, issue)
    ensures forall i :: 0 <= i < |db| && Matches(db[i].problem, issue) ==> db[i] in r.matched
    ensures r.generalSteps.Some? <==> r.matched == []
    ensures r.resources.Some? <==> r.matched == []
    ensures r.matched == [] ==> r.generalSteps == Some(GeneralSteps) && r.resources == Some(HelpfulResources)
    ensures issue == "" ==> r.matched == []
  {
    var matched := Filter(db, Matcher(issue));
    forall i | 0 <= i < |matched| ensures Matches(matched[i].problem, issue) {
      MatcherMeaning(issue, matched[i]);
    }
    forall i | 0 <= i < |db| && Matches(db[i].problem, issue) ensures db[i] in matched {
      MatcherMeaning(issue, db[i]);
    }
    if matched == [] then Diagnosis(issue, [], Some(GeneralSteps), Some(HelpfulResources))
    else Diagnosis(issue, matched, None, None)
  }

  /** "not" is a word of `a + " not " + b`, whatever the case of `a` and `b`. */
  lemma NotIsAWord(a: string, b: string)
    ensures "not" in SplitWs(Lower(a + " not " + b))
  {
    var la, lb := Lower(a), Lower(b);
    LowerAroundNot(a, b);
    NotWordBetween(la, lb);
  }

  lemma LowerAroundNot(a: string, b: string)
    ensures Lower(a + " not " + b) == Lower(a) + " " + ("not" + " " + Lower(b))
  {
    LowerAppend(a + " not ", b);
    LowerAppend(a, " not ");
    LowerNot();
    Regroup(Lower(a), Lower(b));
  }

  lemma Regroup(x: string, y: string)
    ensures x + " not " + y == x + " " + ("not" + " " + y)
  {
    assert " not " == " " + "not" + " ";
  }

  lemma LowerNot()
    ensures Lower(" not ") == " not "
  {
    var l := Lower(" not ");
    assert l[0] == ' ' && l[1] == 'n' && l[2] == 'o' && l[3] == 't' && l[4] == ' ';
  }

  lemma NotWordBetween(la: string, lb: string)
    ensures "not" in SplitWs(la + " " + ("not" + " " + lb))
  {
    var n := "not";
    NotIsOneWord();
    SplitWsJoin(n, " ", lb);
    SplitWsJoin(la, " ", n + " " + lb);
    var w := SplitWs(la);
    assert (w + ([n] + SplitWs(lb)))[|w|] == n;
  }

  lemma NotIsOneWord()
    ensures SplitWs("not") == ["not"]
  {
    var n := "not";
    assert NoSpace(n) by {
      assert n[0] == 'n' && n[1] == 'o' && n[2] == 't';
    }
    SplitWsOfWord(n);
  }

  lemma MatchesWithNot(a: string, b: string, issue: string)
    requires Contains(Lower(issue), "not")
    ensures Matches(a + " not " + b, issue)
  {
    NotIsAWord(a, b);
  }

  /** Each known problem's text has the word "not". */
  lemma KnownProblemHasNot(issue: string, i: nat)
    requires i < |Knowledge| && Contains(Lower(issue), "not")
    ensures Matcher(issue)(Knowledge[i])
  {
    var p := Knowledge[i];
    if i == 0 {
      MatchesWithNot("Chat streaming is", "working", issue);
    } else if i == 1 {
      MatchesWithNot("Agents are", "connecting to backend", issue);
    } else {
      MatchesWithNot("Agentic state is", "persisting between sessions", issue);
    }
    MatcherMeaning(issue, p);
  }

  /** Every known problem's text contains the word "not", so any issue
      that mentions "not" (including "cannot" or "nothing") matches the
      whole knowledge base. */
  lemma NotMatchesEverything(issue: string)
    requires Contains(Lower(issue), "not")
    ensures Troubleshoot(Knowledge, issue).matched == Knowledge
    ensures Troubleshoot(Knowledge, issue).generalSteps == None
  {
    forall i | 0 <= i < |Knowledge| ensures Matcher(issue)(Knowledge[i]) {
      KnownProblemHasNot(issue, i);
    }
    FilterAll(Knowledge, Matcher(issue));
  }
}

=== FILE: context.dfy ===
/** The context specialist (Agent Input Context: mentions, state
    subscription, context transformation): its search terms, the
    focus-specific search query, the result filter, the error-keyword
    extractor and the related topics it suggests. */
module ContextSpecialist {
  import opened Strings
  import opened Seqs
  import opened Specialist

  /** The context search terms by category, in declaration order. */
  const Hooks: seq<string> :=
    ["useSubscribeStateToInputContext", "useStateBasedMentionProvider", "useCedarState",
     "useRegisterState", "getAgentInputContext", "clearAgentInputContext"]
  const Mentions: seq<string> :=
    ["mention", "@mention", "mention provider", "trigger", "labelField", "searchFields",
     "renderMenuItem", "renderContextBadge"]
  const StateTerms: seq<string> :=
    ["subscribed state", "state subscription", "mapFn", "transform", "context entries",
     "state changes", "application state"]
  const ContextTerms: seq<string> :=
    ["agent input context", "context data", "contextual information", "additional context",
     "context stringification"]
  const Configuration: seq<string> :=
    ["icon", "color", "order", "priority", "showInChat", "description", "metadata"]
  const Integration: seq<string> :=
    ["AI agent", "context flow", "agent response", "context payload", "context size", "Cedar Store"]

  /** All search terms, flattened in category order. */
  const SearchTerms: seq<string> :=
    Hooks + (Mentions + StateTerms + ContextTerms + Configuration + Integration)

  /** The focus areas with their own query terms. */
  const KnownFocuses: seq<string> := ["mentions", "subscription", "transformation", "setup", "general"]

  /** The terms appended for a focus area that has none of its own. */
  const DefaultTerms := "Agent Input Context"

  /** The extra query terms for a focus area; the mentions focus uses the
      first three mention terms joined by spaces. */
  function FocusTerms(focus: string): (t: string)
    ensures t == DefaultTerms <==> focus !in KnownFocuses
  {
    if focus == "mentions" then
      var m := Join(Mentions[..3], " ");
      assert m[0] == 'm';
      m
    else if focus == "subscription" then "useSubscribeStateToInputContext " + "useCedarState state subscription"
    else if focus == "transformation" then "mapFn transform context entries " + "state changes"
    else if focus == "setup" then "Agent Input Context setup " + "configuration initial"
    else if focus == "general" then "Agent Input Context mentions " + "subscription state"
    else DefaultTerms
  }

  /** `_build_search_query`: the caller's query, a space, the focus terms.
      Split into words, it is the query's words followed by the focus
      terms' words. */
  function BuildQuery(base: string, focus: string): (q: string)
    ensures |q| > |base| && q[..|base|] == base && q[|base|] == ' '
    ensures SplitWs(q) == SplitWs(base) + SplitWs(FocusTerms(focus))
  {
    var t := FocusTerms(focus);
    SplitWsSpaced(base, t);
    base + " " + t
  }

  /** The mentions focus adds the words of "mention", "@mention" and
      "mention provider": four words in all. */
  lemma MentionsFocusWords(base: string)
    ensures SplitWs(BuildQuery(base, "mentions"))
            == SplitWs(base) + ["mention", "@mention", "mention", "provider"]
  {
    MentionsTermsWords();
  }

  lemma MentionsTermsWords()
    ensures SplitWs(FocusTerms("mentions")) == ["mention", "@mention", "mention", "provider"]
  {
    MentionsFocusText();
    MentionsTextWords();
  }

  lemma MentionsFocusText()
    ensures FocusTerms("mentions") == "mention" + " " + ("@mention" + " " + ("mention" + " " + "provider"))
  {
    var m := Mentions[..3];
    var a, b, c2 := "mention", "@mention", "provider";
    var c := a + " " + c2;
    assert Mentions[2] == c by {
      var t := Mentions[2];
      assert |t| == |c| == 16;
      assert t[..7] == a && c[..7] == a;
      assert t[7] == ' ' && c[7] == ' ';
      assert t[8..] == c2 && c[8..] == c2;
      assert t == t[..7] + [t[7]] + t[8..];
      assert c == c[..7] + [c[7]] + c[8..];
    }
    assert m == [a, b, c];
    assert m[1..] == [b, c] && m[2..] == [c];
    assert Join(m[2..], " ") == c;
    assert Join(m[1..], " ") == b + " " + c;
  }

  lemma MentionsTextWords()
    ensures SplitWs("mention" + " " + ("@mention" + " " + ("mention" + " " + "provider")))
            == ["mention", "@mention", "mention", "provider"]
  {
    MentionWords();
    FourWords("mention", "@mention", "mention", "provider");
  }

  lemma FourWords(a: string, b: string, c: string, d: string)
    requires |a| > 0 && NoSpace(a) && |b| > 0 && NoSpace(b) && |c| > 0 && NoSpace(c) && |d| > 0 && NoSpace(d)
    ensures SplitWs(a + " " + (b + " " + (c + " " + d))) == [a, b, c, d]
  {
    SplitWsOfWord(d);
    WordsCons(c, d, [d]);
    WordsCons(b, c + " " + d, [c] + [d]);
    WordsCons(a, b + " " + (c + " " + d), [b] + ([c] + [d]));
    Listed(a, b, c, d);
  }

  lemma Listed(a: string, b: string, c: string, d: string)
    ensures [a] + ([b] + ([c] + [d])) == [a, b, c, d]
  {
  }

  lemma WordsCons(a: string, rest: string, ws: seq<string>)
    requires |a| > 0 && NoSpace(a) && SplitWs(rest) == ws
    ensures SplitWs(a + " " + rest) == [a] + ws
  {
    SplitWsCons(a, rest);
  }

  lemma MentionWords()
    ensures |"mention"| > 0 && NoSpace("mention")
    ensures |"@mention"| > 0 && NoSpace("@mention")
    ensures |"provider"| > 0 && NoSpace("provider")
  {
    var a, b, c := "mention", "@mention", "provider";
    assert NoSpace(a) by {
      assert a[0] == 'm' && a[1] == 'e' && a[2] == 'n' && a[3] == 't' && a[4] == 'i' && a[5] == 'o' && a[6] == 'n';
    }
    assert NoSpace(b) by {
      assert b[0] == '@' && b[1..] == a;
    }
    assert NoSpace(c) by {
      assert c[0] == 'p' && c[1] == 'r' && c[2] == 'o' && c[3] == 'v';
      assert c[4] == 'i' && c[5] == 'd' && c[6] == 'e' && c[7] == 'r';
    }
  }

  /** `_filter_context_results`: relevance counts the context search terms. */
  function FilterResults(results: seq<Hit>): seq<Tagged<Hit>> {
    FilterHits(SearchTerms, results)
  }

  /** A result that mentions "mention" anywhere in its content or heading is
      never kept as an irrelevant result. */
  lemma MentioningMentionIsRelevant(results: seq<Hit>, k: nat)
    requires k < |FilterResults(results)|
    requires Contains(Haystack(results[FilterResults(results)[k].pos]), "mention")
    ensures FilterResults(results)[k].relevance.Some?
  {
    MentionIsSearchTerm();
    LowerMention();
    MentionedTermIsRelevant(SearchTerms, results, k, |Hooks|);
  }

  lemma MentionIsSearchTerm()
    ensures |Hooks| < |SearchTerms| && SearchTerms[|Hooks|] == "mention"
  {
    var rest := Mentions + StateTerms + ContextTerms + Configuration + Integration;
    assert rest[0] == "mention";
  }

  lemma LowerMention()
    ensures Lower("mention") == "mention"
  {
    var s := "mention";
    assert Lower(s)[0] == 'm' && Lower(s)[1] == 'e' && Lower(s)[2] == 'n' && Lower(s)[3] == 't';
    assert Lower(s)[4] == 'i' && Lower(s)[5] == 'o' && Lower(s)[6] == 'n';
  }

  /** Words the error-keyword extractor ignores. */
  const StopWords: seq<string> := ["the", "and", "not", "working", "doesn't", "won't"]

  /** `_extract_error_keywords`. */
  function ErrorKeywords(query: string): (r: seq<string>)
    ensures |r| <= KeywordCap
    ensures forall k :: 0 <= k < |r| ==> |r[k]| > 3 && r[k] != "working" && r[k] != "doesn't"
    ensures forall k :: 0 <= k < |r| ==> r[k] !in StopWords
    ensures Subsequence(r, SplitWs(Lower(query)))
  {
    Specialist.ErrorKeywords(StopWords, query)
  }

  /** The keywords are the query's first five qualifying words: as many as
      qualify, capped at five, and the `q`-th qualifying word at index `q`. */
  lemma ErrorKeywordsPositions(query: string, i: nat)
    requires i < |SplitWs(Lower(query))|
    requires |SplitWs(Lower(query))[i]| > 3 && SplitWs(Lower(query))[i] !in StopWords
    ensures var n := Count(SplitWs(Lower(query)), KeywordTest(StopWords));
      |ErrorKeywords(query)| == if n < KeywordCap then n else KeywordCap
    ensures var q := Count(SplitWs(Lower(query))[..i], KeywordTest(StopWords));
      q < KeywordCap ==> q < |ErrorKeywords(query)| && ErrorKeywords(query)[q] == SplitWs(Lower(query))[i]
  {
    Specialist.ErrorKeywordsPositions(StopWords, query, i);
  }

  /** The topics every suggestion starts with, by focus area. */
  function BaseTopics(focus: string): (r: seq<string>)
    ensures |r| == 3
  {
    if focus == "mentions" then ["Mention provider configuration", "Custom mention rendering", "Multiple mention types"]
    else if focus == "subscription" then ["State change monitoring", "Context update lifecycle", "Performance optimization"]
    else if focus == "transformation" then ["Data filtering patterns", "Context structure", "Sensitive data handling"]
    else ["Mention providers", "State subscription", "Context transformation"]
  }

  const ProviderTopic := "useStateBasedMentionProvider usage"
  const StateTopic := "useCedarState registration"
  const ErrorTopic := "Troubleshooting context issues"

  /** The extra topics, each with whether the lower-cased query asks for it. */
  function Extras(query: string): (r: seq<Extra>)
    ensures |r| == 3
  {
    var q := Lower(query);
    [ Extra(Contains(q, "provider"), ProviderTopic),
      Extra(Contains(q, "state"), StateTopic),
      Extra(Contains(q, "error"), ErrorTopic) ]
  }

  /** `_suggest_related_topics`. */
  function SuggestTopics(query: string, focus: string): (r: seq<string>)
    ensures 3 <= |r| <= TopicCap
    ensures r[..3] == BaseTopics(focus)
    ensures forall k :: 3 <= k < |r| ==> Extra(true, r[k]) in Extras(query)
  {
    var r := Topics(BaseTopics(focus), Extras(query));
    assert forall k :: 3 <= k < |r| ==> r[k] == Applicable(Extras(query))[k - 3];
    r
  }

  /** A query that mentions "state" always gets the useCedarState topic. */
  lemma StateQueryGetsStateTopic(query: string, focus: string)
    requires Contains(Lower(query), "state")
    ensures StateTopic in SuggestTopics(query, focus)
  {
    var extras := Extras(query);
    assert extras[..1] == [extras[0]];
    TopicsKeepsEarly(BaseTopics(focus), extras, 1);
  }

  /** The troubleshooting topic is offered for an error query unless the
      query also asks for both the provider and the state topics, which
      fill the cap of five. */
  lemma ErrorTopicUnlessFull(query: string, focus: string)
    requires Contains(Lower(query), "error")
    ensures var q := Lower(query);
            !(Contains(q, "provider") && Contains(q, "state")) ==> ErrorTopic in SuggestTopics(query, focus)
    ensures var q := Lower(query);
            Contains(q, "provider") && Contains(q, "state") ==>
              SuggestTopics(query, focus) == BaseTopics(focus) + [ProviderTopic, StateTopic]
  {
    var q := Lower(query);
    var extras := Extras(query);
    var base := BaseTopics(focus);
    if Contains(q, "provider") && Contains(q, "state") {
      AllThreeApply(base, extras[0], extras[1], extras[2]);
      assert extras == [extras[0], extras[1], extras[2]];
    } else {
      AtMostOneOfTwo(extras);
      TopicsKeepsEarly(base, extras, 2);
    }
  }

  /** With three base topics and three applicable extras, the cap keeps the
      first two extras. */
  lemma AllThreeApply(base: seq<string>, x: Extra, y: Extra, z: Extra)
    requires |base| == 3 && x.applies && y.applies && z.applies
    ensures Topics(base, [x, y, z]) == base + [x.topic, y.topic]
  {
    var e := [x, y, z];
    assert e[1..] == [y, z] && e[1..][1..] == [z] && e[1..][1..][1..] == [];
    assert Applicable([z]) == [z.topic];
    assert Applicable([y, z]) == [y.topic, z.topic];
    assert Applicable(e) == [x.topic, y.topic, z.topic];
  }

  lemma AtMostOneOfTwo(extras: seq<Extra>)
    requires |extras| >= 2 && !(extras[0].applies && extras[1].applies)
    ensures |Applicable(extras[..2])| <= 1
  {
    var e := extras[..2];
    assert e[1..] == [extras[1]] && e[1..][1..] == [];
  }
}

=== FILE: features.dfy ===
/** The goal-to-feature matcher: Cedar features scored by how many of their
    keywords the goal or context mentions, with a fallback that counts the
    features' documentation tags in a documentation search for the goal. */
module Features {
  import opened Strings
  import opened Seqs
  import opened Ranking
  import CedarDocs

  datatype Feature = Feature(key: string, name: string, keywords: seq<string>, tags: seq<string>)

  const CedarFeatures: seq<Feature> := [
    Feature("agentic_state", "Agentic State",
            ["state", "agents", "workflow", "context", "persistence"], ["agentic-state"]),
    Feature("chat_system", "Chat System",
            ["chat", "streaming", "sse", "conversation", "messages"], ["chat"]),
    Feature("agent_backend", "Agent Backend Connection",
            ["backend", "mastra", "adapter", "tool calling", "integration"], ["backend", "mastra"]),
    Feature("voice_integration", "Voice Integration",
            ["voice", "speech", "tts", "stt", "audio"], ["voice"])
  ]

  const MaxCandidates := 5

  /** How many results the fallback documentation search asks for. */
  const FallbackLimit := 8

  datatype Candidate = Candidate(feature: string, name: string, score: nat)

  datatype FeatureMatch = FeatureMatch(goal: string, context: Option<string>, candidates: seq<Candidate>)

  /** The number of the feature's keywords found in the lower-cased goal or
      the lower-cased context (a missing context reads as ""). */
  function KeywordScore(f: Feature, goal: string, context: Option<string>): nat {
    var g := Lower(goal);
    var c := Lower(context.GetOr(""));
    Count(f.keywords, kw => Contains(g, kw) || Contains(c, kw))
  }

  /** Over all search hits, the number of the feature's tags found in the
      hit's lower-cased content. */
  function TagScore(f: Feature, contents: seq<string>): (n: nat)
    ensures n > 0 <==> exists i, t :: 0 <= i < |contents| && 0 <= t < |f.tags|
                                     && Contains(Lower(contents[i]), f.tags[t])
  {
    if |contents| == 0 then 0
    else
      var here := Count(f.tags, t => Contains(Lower(contents[0]), t));
      var rest := TagScore(f, contents[1..]);
      assert forall i :: 1 <= i < |contents| ==> contents[i] == contents[1..][i - 1];
      here + rest
  }

  function KeywordScores(features: seq<Feature>, goal: string, context: Option<string>): (r: seq<nat>)
    ensures |r| == |features|
    ensures forall i :: 0 <= i < |r| ==> r[i] == KeywordScore(features[i], goal, context)
  {
    seq(|features|, i requires 0 <= i < |features| => KeywordScore(features[i], goal, context))
  }

  function TagScores(features: seq<Feature>, contents: seq<string>): (r: seq<nat>)
    ensures |r| == |features|
    ensures forall i :: 0 <= i < |r| ==> r[i] == TagScore(features[i], contents)
  {
    seq(|features|, i requires 0 <= i < |features| => TagScore(features[i], contents))
  }

  /** No feature has a keyword in the goal or context. */
  predicate NoKeywordMatch(features: seq<Feature>, goal: string, context: Option<string>) {
    forall i :: 0 <= i < |features| ==> KeywordScore(features[i], goal, context) == 0
  }

  /** The scores that decide: the keyword scores, unless no keyword matched
      and the goal is non-empty, in which case the tag scores over the
      fallback search's contents. */
  function DecidingScores(features: seq<Feature>, goal: string, context: Option<string>, contents: seq<string>)
    : (r: seq<nat>)
    ensures |r| == |features|
    ensures NoKeywordMatch(features, goal, context) && goal != "" ==> r == TagScores(features, contents)
    ensures !(NoKeywordMatch(features, goal, context) && goal != "") ==> r == KeywordScores(features, goal, context)
  {
    var kw := KeywordScores(features, goal, context);
    var candidates := Positive(features, kw, 0);
    if |candidates| == 0 && goal != "" then
      assert NoKeywordMatch(features, goal, context) by {
        forall i | 0 <= i < |features| ensures kw[i] == 0 {
          if kw[i] > 0 {
            var k := PositiveComplete(features, kw, 0, i);
          }
        }
      }
      TagScores(features, contents)
    else
      assert !NoKeywordMatch(features, goal, context) || goal == "" by {
        if goal != "" {
          assert kw[candidates[0].pos] > 0;
        }
      }
      kw
  }

  /** Positively scored features, sorted by score descending with ties in
      declaration order, at most five. */
  function RankedBy(features: seq<Feature>, scores: seq<nat>): (r: seq<Ranked<Feature>>)
    requires |scores| == |features|
    ensures |r| <= MaxCandidates
    ensures Ordered(r)
    ensures forall k :: 0 <= k < |r| ==>
              r[k].pos < |features| && r[k].item == features[r[k].pos]
              && r[k].score == scores[r[k].pos] > 0 && r[k].breadth == 0
  {
    RankPositiveEntries(features, scores);
    Take(Rank(Positive(features, scores, 0)), MaxCandidates)
  }

  /** Every feature with a positive score is ranked, when the features do
      not outnumber the cap. */
  lemma RankedByComplete(features: seq<Feature>, scores: seq<nat>, i: nat)
    requires |scores| == |features| && i < |features| && scores[i] > 0
    requires |features| <= MaxCandidates
    ensures exists k :: 0 <= k < |RankedBy(features, scores)| && RankedBy(features, scores)[k].pos == i
  {
    var k := RankPositiveComplete(features, scores, i);
    assert RankedBy(features, scores) == Rank(Positive(features, scores, 0));
  }

  function CandidateOf(e: Ranked<Feature>): Candidate {
    Candidate(e.item.key, e.item.name, e.score)
  }

  /** The ranked features as the candidate records the caller sees. */
  function CandidatesOf(ranked: seq<Ranked<Feature>>): (r: seq<Candidate>)
    requires Ordered(ranked)
    ensures |r| == |ranked|
    ensures forall k :: 0 <= k < |r| ==> r[k] == CandidateOf(ranked[k])
    ensures forall i, j :: 0 <= i < j < |r| ==> r[i].score >= r[j].score
  {
    forall i, j | 0 <= i < j < |ranked| ensures ranked[i].score >= ranked[j].score {
      OrderedMeaning(ranked, i, j);
    }
    seq(|ranked|, k requires 0 <= k < |ranked| => CandidateOf(ranked[k]))
  }

  function Contents(results: seq<CedarDocs.DocResult>): (r: seq<string>)
    ensures |r| == |results| && forall i :: 0 <= i < |r| ==> r[i] == results[i].content
  {
    seq(|results|, i requires 0 <= i < |results| => results[i].content)
  }

  /** `map_goal_to_features` over a feature table, once the fallback
      search's contents are known. */
  function MapWith(features: seq<Feature>, goal: string, context: Option<string>, contents: seq<string>)
    : (r: FeatureMatch)
    ensures r.goal == goal && r.context == context
    ensures |r.candidates| <= MaxCandidates
    ensures forall k :: 0 <= k < |r.candidates| ==> r.candidates[k].score > 0
    ensures forall i, j :: 0 <= i < j < |r.candidates| ==> r.candidates[i].score >= r.candidates[j].score
    ensures goal == "" && NoKeywordMatch(features, goal, context) ==> r.candidates == []
  {
    var scores := DecidingScores(features, goal, context, contents);
    FeatureMatch(goal, context, CandidatesOf(RankedBy(features, scores)))
  }

  /** `map_goal_to_features`: the Cedar feature table; the fallback reads the
      contents of a Cedar documentation search for the goal, limited to
      eight results. */
  function MapGoal(ix: CedarDocs.Index, goal: string, context: Option<string>): (r: FeatureMatch)
    ensures r.goal == goal && r.context == context
    ensures |r.candidates| <= MaxCandidates
    ensures forall k :: 0 <= k < |r.candidates| ==> r.candidates[k].score > 0
  {
    MapWith(CedarFeatures, goal, context, Contents(CedarDocs.Search(ix, goal, FallbackLimit)))
  }

  /** Each candidate is a feature with its deciding score. */
  lemma MapWithSound(features: seq<Feature>, goal: string, context: Option<string>, contents: seq<string>, k: nat)
    requires k < |MapWith(features, goal, context, contents).candidates|
    ensures var c := MapWith(features, goal, context, contents).candidates[k];
            exists p :: 0 <= p < |features| && c.feature == features[p].key && c.name == features[p].name
                        && c.score == DecidingScores(features, goal, context, contents)[p]
  {
    var scores := DecidingScores(features, goal, context, contents);
    var ranked := RankedBy(features, scores);
    var p := ranked[k].pos;
    assert CandidatesOf(ranked)[k] == CandidateOf(ranked[k]);
  }

  /** Every feature with a positive deciding score is a candidate, when the
      features do not outnumber the cap (the Cedar table has four). */
  lemma MapWithComplete(features: seq<Feature>, goal: string, context: Option<string>, contents: seq<string>, p: nat)
    requires |features| <= MaxCandidates
    requires p < |features| && DecidingScores(features, goal, context, contents)[p] > 0
    ensures exists k :: 0 <= k < |MapWith(features, goal, context, contents).candidates|
                        && MapWith(features, goal, context, contents).candidates[k].feature == features[p].key
  {
    var scores := DecidingScores(features, goal, context, contents);
    var ranked := RankedBy(features, scores);
    RankedByComplete(features, scores, p);
    var k :| 0 <= k < |ranked| && ranked[k].pos == p;
    assert MapWith(features, goal, context, contents).candidates == CandidatesOf(ranked);
    assert CandidatesOf(ranked)[k] == CandidateOf(ranked[k]);
  }

  /** Candidates with equal scores appear in the order of the feature table. */
  lemma MapWithTiesInOrder(features: seq<Feature>, goal: string, context: Option<string>, contents: seq<string>, i: nat, j: nat)
    requires i < j < |MapWith(features, goal, context, contents).candidates|
    requires MapWith(features, goal, context, contents).candidates[i].score
             == MapWith(features, goal, context, contents).candidates[j].score
    ensures exists p, q :: 0 <= p < q < |features|
                           && MapWith(features, goal, context, contents).candidates[i].feature == features[p].key
                           && MapWith(features, goal, context, contents).candidates[j].feature == features[q].key
  {
    var scores := DecidingScores(features, goal, context, contents);
    var ranked := RankedBy(features, scores);
    assert MapWith(features, goal, context, contents).candidates == CandidatesOf(ranked);
    assert CandidatesOf(ranked)[i] == CandidateOf(ranked[i]);
    assert CandidatesOf(ranked)[j] == CandidateOf(ranked[j]);
    OrderedMeaning(ranked, i, j);
    assert SameKey(ranked[i], ranked[j]);
    var p, q := ranked[i].pos, ranked[j].pos;
  }
}

=== FILE: fetchdocs.dfy ===
/** The documentation fetch script: normalising a documentation URL to its
    llms-full.txt file, choosing the sources to fetch, and the exit code.
    The download itself is a parameter: `fetched(url)` says whether fetching
    and saving the normalised URL succeeded. */
module FetchDocs {
  import opened Strings
  import opened Seqs

  const FullFile := "llms-full.txt"
  const FullSuffix := "/" + FullFile
  const IndexSuffix := "/llms.txt"

  /** `url.rstrip("/")`. */
  function RStripSlashes(url: string): (r: string)
    ensures r <= url
    ensures |r| == 0 || r[|r| - 1] != '/'
    ensures forall i :: |r| <= i < |url| ==> url[i] == '/'
  {
    if |url| > 0 && url[|url| - 1] == '/' then RStripSlashes(url[..|url| - 1]) else url
  }

  lemma EndsWithAppended(a: string, b: string)
    ensures EndsWith(a + b, b)
  {
    assert (a + b)[|a + b| - |b|..] == b;
  }

  /** The two suffixes exclude each other: the character before ".txt"
      is "s" in one and "l" in the other. */
  lemma SuffixesDiffer(url: string)
    requires EndsWith(url, FullSuffix)
    ensures !EndsWith(url, IndexSuffix)
  {
    var n := |url|;
    assert url[n - 5] == 'l' by {
      assert url[n - 5] == FullSuffix[|FullSuffix| - 5];
    }
    assert IndexSuffix[|IndexSuffix| - 5] == 's';
  }

  /** The URL check at the top of `fetch_single_doc`: an llms-full.txt URL
      is kept, an llms.txt URL is refused, and any other URL gets
      llms-full.txt appended as a path segment. */
  function NormalizeUrl(url: string): (r: Option<string>)
    ensures r.None? <==> EndsWith(url, IndexSuffix)
    ensures r.Some? ==> EndsWith(r.value, FullSuffix)
    ensures r.Some? ==> url <= r.value
    ensures EndsWith(url, FullSuffix) ==> r == Some(url)
  {
    if EndsWith(url, FullSuffix) then
      SuffixesDiffer(url);
      Some(url)
    else if EndsWith(url, IndexSuffix) then None
    else if EndsWith(url, "/") then
      var u := url + FullFile;
      assert u == url[..|url| - 1] + FullSuffix;
      EndsWithAppended(url[..|url| - 1], FullSuffix);
      Some(u)
    else
      var u := RStripSlashes(url) + FullSuffix;
      EndsWithAppended(RStripSlashes(url), FullSuffix);
      assert RStripSlashes(url) == url;
      Some(u)
  }

  /** Normalising twice is normalising once. */
  lemma NormalizeIdempotent(url: string)
    requires NormalizeUrl(url).Some?
    ensures NormalizeUrl(NormalizeUrl(url).value) == NormalizeUrl(url)
  {
  }

  /** The strip of trailing slashes never fires: the branch is reached
      only when the URL does not end with "/". */
  lemma AppendsOneSegment(url: string)
    requires !EndsWith(url, FullSuffix) && !EndsWith(url, IndexSuffix)
    ensures NormalizeUrl(url) == Some(if EndsWith(url, "/") then url + FullFile else url + FullSuffix)
  {
  }

  datatype Source = Source(name: string, url: string, out: string)

  const CedarSource := Source("Cedar", "https://docs.cedarcopilot.com" + FullSuffix, "docs/cedar_llms_full.txt")
  const MastraSource := Source("Mastra", "https://mastra.ai" + FullSuffix, "docs/mastra_llms_full.txt")

  /** The default sources: Cedar unless only Mastra was asked for, Mastra
      unless only Cedar was. */
  function Sources(cedarOnly: bool, mastraOnly: bool): (r: seq<Source>)
    ensures |r| == 0 <==> cedarOnly && mastraOnly
    ensures CedarSource in r <==> !mastraOnly
    ensures MastraSource in r <==> !cedarOnly
    ensures |r| == (if mastraOnly then 0 else 1) + (if cedarOnly then 0 else 1)
  {
    (if mastraOnly then [] else [CedarSource]) + (if cedarOnly then [] else [MastraSource])
  }

  /** Both default URLs are already normalised. */
  lemma DefaultUrlsKept()
    ensures NormalizeUrl(CedarSource.url) == Some(CedarSource.url)
    ensures NormalizeUrl(MastraSource.url) == Some(MastraSource.url)
  {
    EndsWithAppended("https://docs.cedarcopilot.com", FullSuffix);
    EndsWithAppended("https://mastra.ai", FullSuffix);
  }

  /** `fetch_single_doc`: false for a refused URL, otherwise the outcome of
      fetching the normalised URL. */
  function FetchOne(url: string, fetched: string -> bool): (ok: bool)
    ensures ok <==> NormalizeUrl(url).Some? && fetched(NormalizeUrl(url).value)
  {
    match NormalizeUrl(url)
    case None => false
    case Some(u) => fetched(u)
  }

  /** How many sources were fetched. */
  function Successes(sources: seq<Source>, fetched: string -> bool): (n: nat)
    ensures n <= |sources|
    ensures n == |sources| <==> forall k :: 0 <= k < |sources| ==> FetchOne(sources[k].url, fetched)
  {
    if |sources| == 0 then 0
    else
      var rest := Successes(sources[1..], fetched);
      assert forall k :: 1 <= k < |sources| ==> sources[k] == sources[1..][k - 1];
      (if FetchOne(sources[0].url, fetched) then 1 else 0) + rest
  }

  /** The command line: the mode flags and the legacy `--url`/`--out`
      pair, with an absent option read as "". */
  datatype Args = Args(cedarOnly: bool, mastraOnly: bool, url: string, out: string)

  /** The name the legacy mode reports a custom URL under. */
  function SourceName(url: string): (name: string)
    ensures name == "Cedar" <==> Contains(Lower(url), "cedar")
    ensures name == "Mastra" <==> !Contains(Lower(url), "cedar") && Contains(Lower(url), "mastra")
  {
    if Contains(Lower(url), "cedar") then "Cedar"
    else if Contains(Lower(url), "mastra") then "Mastra"
    else "Custom"
  }

  /** `main`'s exit code. */
  function Main(args: Args, fetched: string -> bool): (code: int)
    ensures code == 0 || code == 1
    ensures args.url != "" && args.out == "" ==> code == 1
    ensures args.url != "" && args.out != "" ==> (code == 0 <==> FetchOne(args.url, fetched))
    ensures args.url == "" && args.cedarOnly && args.mastraOnly ==> code == 1
  {
    if args.url != "" then
      if args.out == "" then 1
      else if FetchOne(args.url, fetched) then 0 else 1
    else
      var sources := Sources(args.cedarOnly, args.mastraOnly);
      if |sources| == 0 then 1
      else if Successes(sources, fetched) == |sources| then 0 else 1
  }

  /** Without a custom URL, the script succeeds exactly when at least one
      source is selected and every selected source was fetched. */
  lemma DefaultModeExit(args: Args, fetched: string -> bool)
    requires args.url == ""
    ensures Main(args, fetched) == 0 <==>
              !(args.cedarOnly && args.mastraOnly)
              && (!args.mastraOnly ==> fetched(CedarSource.url))
              && (!args.cedarOnly ==> fetched(MastraSource.url))
  {
    var sources := Sources(args.cedarOnly, args.mastraOnly);
    DefaultUrlsKept();
    if !args.mastraOnly {
      assert sources[0] == CedarSource;
    }
    if !args.cedarOnly {
      assert sources[|sources| - 1] == MastraSource;
    }
  }
}

=== FILE: installcommand.dfy ===
/** The install-command resolver: the user's explicit command, or the
    default one when the user gave none or only agreed to the default. */
module InstallCommand {
  import opened Strings
  import opened Seqs

  const DefaultInstallCommand := "npx cedar-os-cli plant-seed"

  /** Answers that ask for the default (after stripping and lower-casing). */
  const DefaultAnswers: set<string> := {"default", "", "yes"}

  /** The user asked for the default: no input, an empty one, or one that
      strips and lower-cases to a default answer. */
  predicate AsksDefault(input: Option<string>) {
    input.None? || input.value == "" || Lower(Strip(input.value)) in DefaultAnswers
  }

  /** `resolve_install_command`; `None` stands for an omitted argument.
      The default is chosen exactly when the user asked for it; any other
      input yields its stripped form, which is never itself a default
      answer. */
  function Resolve(input: Option<string>): (r: string)
    ensures r != "" && Strip(r) == r
    ensures r !in DefaultAnswers
    ensures AsksDefault(input) ==> r == DefaultInstallCommand
    ensures !AsksDefault(input) ==> r == Strip(input.value)
  {
    if input.None? || input.value == "" then
      DefaultFacts();
      DefaultInstallCommand
    else
      var s := Strip(input.value);
      if Lower(s) in DefaultAnswers then
        DefaultFacts();
        DefaultInstallCommand
      else
        StripIdempotent(input.value);
        NotDefaultAnswer(s);
        s
  }

  /** The default command is non-empty, stripped, and neither it nor its
      lower-cased form is a default answer (it is longer than all of them). */
  lemma DefaultFacts()
    ensures DefaultInstallCommand != "" && Strip(DefaultInstallCommand) == DefaultInstallCommand
    ensures DefaultInstallCommand !in DefaultAnswers
    ensures Lower(DefaultInstallCommand) !in DefaultAnswers
  {
    var d := DefaultInstallCommand;
    assert |d| == 27;
    assert d[0] == 'n' && d[|d| - 1] == 'd';
    LongNotDefault(d);
    LongNotDefault(Lower(d));
  }

  lemma LongNotDefault(s: string)
    requires |s| > 7
    ensures s !in DefaultAnswers
  {
  }

  /** A string whose lower-cased form is no default answer is no default
      answer either: the default answers are already lower case. */
  lemma NotDefaultAnswer(s: string)
    requires Lower(s) !in DefaultAnswers
    ensures s !in DefaultAnswers
  {
    if s in DefaultAnswers {
      DefaultAnswersLower(s);
    }
  }

  lemma DefaultAnswersLower(a: string)
    requires a in DefaultAnswers
    ensures Lower(a) == a
  {
    if a == "default" {
      DefaultLower();
    } else if a == "yes" {
      YesLower();
    }
  }

  lemma DefaultLower()
    ensures Lower("default") == "default"
  {
    var s := "default";
    assert s[0] == 'd' && s[1] == 'e' && s[2] == 'f' && s[3] == 'a' && s[4] == 'u' && s[5] == 'l' && s[6] == 't';
    LowerKeeps(s);
  }

  lemma YesLower()
    ensures Lower("yes") == "yes"
  {
    var s := "yes";
    assert s[0] == 'y' && s[1] == 'e' && s[2] == 's';
    LowerKeeps(s);
  }

  /** Resolving a resolved command gives it back. */
  lemma ResolveIdempotent(input: Option<string>)
    ensures Resolve(Some(Resolve(input))) == Resolve(input)
  {
    if AsksDefault(input) {
      DefaultResolvesToItself();
    } else {
      OwnResolvesToItself(Strip(input.value));
    }
  }

  lemma DefaultResolvesToItself()
    ensures Resolve(Some(DefaultInstallCommand)) == DefaultInstallCommand
  {
    DefaultFacts();
    assert !AsksDefault(Some(DefaultInstallCommand));
  }

  lemma OwnResolvesToItself(r: string)
    requires r != "" && Strip(r) == r && Lower(r) !in DefaultAnswers
    ensures Resolve(Some(r)) == r
  {
    assert !AsksDefault(Some(r));
  }
}

=== FILE: installstrategy.dfy ===
/** The installation-strategy decision table: from the facts gathered about
    a project directory to the command to run and the strategy's name. */
module InstallStrategy {

  /** The project analysis the decision reads. */
  datatype Analysis = Analysis(
    isEmpty: bool,
    hasPackageJson: bool,
    hasReactApp: bool,
    hasCedar: bool,
    hasBackend: bool,
    projectType: string)

  const PlantSeed := "npx cedar-os-cli plant-seed --yes"
  const AddSapling := "npx cedar-os-cli add-sapling --yes"
  const NpmInstall := "npm install"

  datatype Choice = Choice(command: string, strategy: string)

  /** The project types `add-sapling` integrates into directly. */
  predicate KnownFrontend(a: Analysis) {
    a.projectType == "nextjs" || a.projectType == "react"
  }

  /** `_determine_installation_strategy`; the first rule that applies wins.
      Its free-text `context` argument is never read, so it is not a
      parameter here. The ensures characterise each strategy directly by the
      analysis, independently of the order of the rules. */
  function Determine(a: Analysis): (r: Choice)
    ensures r.strategy == "create_new_project"
            <==> a.isEmpty || (!a.hasPackageJson && !a.hasReactApp)
    ensures r.strategy == "existing_cedar"
            <==> !a.isEmpty && (a.hasPackageJson || a.hasReactApp) && a.hasCedar
    ensures r.strategy == "add_to_existing"
            <==> !a.isEmpty && a.hasPackageJson && !a.hasCedar && KnownFrontend(a)
    ensures r.strategy == "create_frontend"
            <==> !a.isEmpty && a.hasPackageJson && !a.hasCedar && !KnownFrontend(a)
                 && a.hasBackend && !a.hasReactApp
    ensures r.strategy == "safe_integration"
            <==> !a.isEmpty && a.hasPackageJson && !a.hasCedar && !KnownFrontend(a)
                 && (!a.hasBackend || a.hasReactApp)
    ensures r.strategy == "default_new"
            <==> !a.isEmpty && !a.hasPackageJson && a.hasReactApp && !a.hasCedar
    ensures r.command == PlantSeed || r.command == AddSapling || r.command == NpmInstall
    ensures r.command == NpmInstall <==> r.strategy == "existing_cedar"
    ensures r.command == AddSapling <==> r.strategy in {"add_to_existing", "safe_integration"}
  {
    if a.isEmpty || (!a.hasPackageJson && !a.hasReactApp) then Choice(PlantSeed, "create_new_project")
    else if a.hasCedar then Choice(NpmInstall, "existing_cedar")
    else if a.hasPackageJson && KnownFrontend(a) then Choice(AddSapling, "add_to_existing")
    else if a.hasBackend && !a.hasReactApp then Choice(PlantSeed, "create_frontend")
    else if a.hasPackageJson then Choice(AddSapling, "safe_integration")
    else Choice(PlantSeed, "default_new")
  }

  /** An existing Cedar install wins over every later rule: in a non-empty
      project with a package.json, the other facts do not matter. */
  lemma CedarTakesPriority(a: Analysis, b: Analysis)
    requires !a.isEmpty && a.hasPackageJson && a.hasCedar
    requires b.isEmpty == a.isEmpty && b.hasPackageJson == a.hasPackageJson && b.hasCedar
    ensures Determine(a) == Determine(b) == Choice(NpmInstall, "existing_cedar")
  {
  }
}

=== FILE: lineindex.dfy ===
/** Line-level citations (cedar-test/cedar_mcp/services/docs.py:189-233): a
    table of line start offsets, a binary search from a character index to a
    1-based line number, and the lines on which a token's matches start. */
module LineIndex {
  import opened Strings
  import opened Seqs
  import opened Tokens

  /** `[base, base + |p0|, base + |p0| + |p1|, ...]`. */
  function RunningSums(base: nat, parts: seq<string>): (r: seq<nat>)
    ensures |r| == |parts| + 1
    ensures r[0] == base
    ensures forall k {:trigger parts[k]} :: 0 <= k < |parts| ==> r[k + 1] == r[k] + |parts[k]|
    ensures r[|parts|] == base + |Concat(parts)|
    decreases |parts|
  {
    if |parts| == 0 then [base]
    else
      var rest := RunningSums(base + |parts[0]|, parts[1..]);
      assert forall k :: 0 <= k < |parts| - 1 ==> parts[1..][k] == parts[k + 1];
      [base] + rest
  }

  /** Each running sum is below the next one, `d` steps on, when the parts
      are non-empty. */
  lemma {:induction false} RunningSumsStep(base: nat, parts: seq<string>, a: nat, d: nat)
    requires forall k :: 0 <= k < |parts| ==> |parts[k]| > 0
    requires 0 < d && a + d <= |parts|
    ensures RunningSums(base, parts)[a] < RunningSums(base, parts)[a + d]
    decreases d
  {
    var r := RunningSums(base, parts);
    assert r[a + d] == r[a + d - 1] + |parts[a + d - 1]|;
    if d > 1 {
      RunningSumsStep(base, parts, a, d - 1);
    }
  }

  /** Sums of non-empty parts strictly increase. */
  lemma RunningSumsIncrease(base: nat, parts: seq<string>)
    requires forall k :: 0 <= k < |parts| ==> |parts[k]| > 0
    ensures StrictlyIncreasing(RunningSums(base, parts))
  {
    var r := RunningSums(base, parts);
    forall a, b | 0 <= a < b < |r| ensures r[a] < r[b] {
      RunningSumsStep(base, parts, a, b - a);
    }
  }

  /** Part `k` sits in the concatenation between the `k`-th and `k+1`-th
      running sums. */
  lemma RunningSumsTile(base: nat, parts: seq<string>, k: nat)
    requires k < |parts|
    ensures base <= RunningSums(base, parts)[k] <= RunningSums(base, parts)[k + 1] <= base + |Concat(parts)|
    ensures Concat(parts)[RunningSums(base, parts)[k] - base..RunningSums(base, parts)[k + 1] - base] == parts[k]
  {
    var a, c := Concat(parts[..k]), Concat(parts[k + 1..]);
    RunningSumsPrefix(base, parts, k);
    ConcatAround(parts, k);
    SliceMiddle(a, parts[k], c);
  }

  /** The `k`-th running sum is the base plus the length of the first `k`
      parts. */
  lemma {:induction false} RunningSumsPrefix(base: nat, parts: seq<string>, k: nat)
    requires k <= |parts|
    ensures RunningSums(base, parts)[k] == base + |Concat(parts[..k])|
    decreases k
  {
    if k > 0 {
      RunningSumsPrefix(base, parts, k - 1);
      TakeSnoc(parts, k);
      ConcatAppend(parts[..k - 1], [parts[k - 1]]);
      ConcatOne(parts[k - 1]);
    }
  }

  /** The concatenation is the parts before `k`, part `k`, and the parts
      after it. */
  lemma ConcatAround(parts: seq<string>, k: nat)
    requires k < |parts|
    ensures Concat(parts) == Concat(parts[..k]) + (parts[k] + Concat(parts[k + 1..]))
  {
    TakeDrop(parts, k);
    ConcatAppend(parts[..k], parts[k..]);
    ConcatCons(parts[k..]);
    DropOne(parts, k);
  }

  lemma {:induction false} ConcatAppend(a: seq<string>, b: seq<string>)
    ensures Concat(a + b) == Concat(a) + Concat(b)
    decreases |a|
  {
    if |a| > 0 {
      ConcatAppend(a[1..], b);
      DropAppend(a, b);
      ConcatCons(a + b);
      ConcatCons(a);
    } else {
      assert a + b == b;
    }
  }

  lemma ConcatOne(x: string)
    ensures Concat([x]) == x
  {
    assert [x][1..] == [];
  }

  lemma ConcatCons(parts: seq<string>)
    requires |parts| > 0
    ensures Concat(parts) == parts[0] + Concat(parts[1..])
  {
  }

  lemma SliceMiddle(a: string, b: string, c: string)
    ensures (a + (b + c))[|a|..|a| + |b|] == b
  {
  }

  /** `_compute_line_number_index`: the offset at which every line starts,
      then the length of the text. */
  function Offsets(text: string): (r: seq<nat>)
    ensures |r| == |SplitLines(text)| + 1
    ensures r[0] == 0 && r[|r| - 1] == |text|
    ensures StrictlyIncreasing(r)
  {
    SplitLinesKeepEndsConcat(text);
    RunningSumsIncrease(0, SplitLinesKeepEnds(text));
    RunningSums(0, SplitLinesKeepEnds(text))
  }

  /** Line `k + 1` occupies exactly the characters from `Offsets(text)[k]`
      up to `Offsets(text)[k + 1]`. */
  lemma OffsetsTileText(text: string, k: nat)
    requires k < |SplitLines(text)|
    ensures Offsets(text)[k] <= Offsets(text)[k + 1] <= |text|
    ensures text[Offsets(text)[k]..Offsets(text)[k + 1]] == SplitLinesKeepEnds(text)[k]
  {
    var parts := SplitLinesKeepEnds(text);
    OffsetsAre(text);
    SplitLinesKeepEndsConcat(text);
    TileAt(parts, k);
  }

  lemma TileAt(parts: seq<string>, k: nat)
    requires k < |parts|
    ensures RunningSums(0, parts)[k] <= RunningSums(0, parts)[k + 1] <= |Concat(parts)|
    ensures Concat(parts)[RunningSums(0, parts)[k]..RunningSums(0, parts)[k + 1]] == parts[k]
  {
    RunningSumsPrefix(0, parts, k);
    ConcatAround(parts, k);
    SliceMiddle(Concat(parts[..k]), parts[k], Concat(parts[k + 1..]));
  }

  lemma OffsetsAre(text: string)
    ensures Offsets(text) == RunningSums(0, SplitLinesKeepEnds(text))
  {
  }

  /** The number of entries of `offs` at or below `i`. */
  function CountAtMost(offs: seq<nat>, i: int): (n: nat)
    ensures n <= |offs|
  {
    if |offs| == 0 then 0 else (if offs[0] <= i then 1 else 0) + CountAtMost(offs[1..], i)
  }

  /** The 1-based line of character `i`: the number of line starts at or
      before it, and never below 1. */
  function LineOf(offs: seq<nat>, i: int): nat {
    var n := CountAtMost(offs, i);
    if n > 1 then n else 1
  }

  /** In a non-decreasing table the entries at or below `i` form a prefix. */
  lemma {:induction false} CountAtMostSplits(offs: seq<nat>, i: int)
    requires NonDecreasing(offs)
    ensures var n := CountAtMost(offs, i);
      (forall k :: 0 <= k < n ==> offs[k] <= i) && (forall k :: n <= k < |offs| ==> offs[k] > i)
    decreases |offs|
  {
    if |offs| > 0 {
      CountAtMostSplits(offs[1..], i);
    }
  }

  /** A prefix of entries at or below `i` followed only by larger entries
      has `CountAtMost` equal to its length. */
  lemma {:induction false} CountAtMostOfSplit(offs: seq<nat>, i: int, p: nat)
    requires p <= |offs|
    requires forall k :: 0 <= k < p ==> offs[k] <= i
    requires forall k :: p <= k < |offs| ==> offs[k] > i
    ensures CountAtMost(offs, i) == p
    decreases |offs|
  {
    if |offs| > 0 {
      if p > 0 {
        CountAtMostOfSplit(offs[1..], i, p - 1);
      } else {
        CountAtMostOfSplit(offs[1..], i, 0);
      }
    }
  }

  lemma {:induction false} CountAtMostMonotone(offs: seq<nat>, i: int, j: int)
    requires i <= j
    ensures CountAtMost(offs, i) <= CountAtMost(offs, j)
    decreases |offs|
  {
    if |offs| > 0 {
      CountAtMostMonotone(offs[1..], i, j);
    }
  }

  /** `_char_index_to_line`: binary search for the last offset at or below
      `index`, converted to a 1-based line number. */
  method CharIndexToLine(offsets: seq<nat>, index: int) returns (line: int)
    requires NonDecreasing(offsets)
    ensures line == LineOf(offsets, index)
    ensures line >= 1
  {
    var lo, hi := 0, |offsets| - 1;
    while lo <= hi
      invariant 0 <= lo <= |offsets| && -1 <= hi < |offsets| && lo <= hi + 1
      invariant forall k :: 0 <= k < lo ==> offsets[k] <= index
      invariant forall k :: hi < k < |offsets| ==> offsets[k] > index
      decreases hi - lo
    {
      var mid := (lo + hi) / 2;
      if offsets[mid] <= index {
        lo := mid + 1;
      } else {
        hi := mid - 1;
      }
    }
    CountAtMostOfSplit(offsets, index, lo);
    line := if hi + 1 > 1 then hi + 1 else 1;
  }

  /** Character `i` of the text lies on line `LineOf(Offsets(text), i)`: the
      line's start offset is at or before it and the next line's is after
      it. */
  lemma LineOfBracket(text: string, i: nat)
    requires i < |text|
    ensures var o := Offsets(text);
      var l := LineOf(o, i);
      1 <= l <= |SplitLines(text)| && o[l - 1] <= i < o[l]
  {
    var o := Offsets(text);
    CountAtMostSplits(o, i);
    var n := CountAtMost(o, i);
    assert o[0] <= i < o[|o| - 1];
  }

  /** The line of each match start, in order. */
  function LinesOf(offs: seq<nat>, starts: seq<nat>): (r: seq<int>)
    ensures |r| == |starts|
    ensures forall k :: 0 <= k < |starts| ==> r[k] == LineOf(offs, starts[k])
  {
    if |starts| == 0 then [] else [LineOf(offs, starts[0])] + LinesOf(offs, starts[1..])
  }

  /** `_find_token_lines`: the lines on which a match of the token starts,
      de-duplicated in order. */
  function TokenLines(text: string, token: string): seq<int> {
    Dedup(LinesOf(Offsets(text), Matches(text, token)))
  }

  /** The lines of increasing character positions never decrease. */
  lemma LinesOfSorted(offs: seq<nat>, starts: seq<nat>)
    requires StrictlyIncreasing(starts)
    ensures NonDecreasing(LinesOf(offs, starts))
  {
    var ls := LinesOf(offs, starts);
    forall a, b | 0 <= a < b < |ls| ensures ls[a] <= ls[b] {
      CountAtMostMonotone(offs, starts[a], starts[b]);
    }
  }

  /** The lines of increasing character positions, de-duplicated, strictly
      increase. */
  lemma DedupLinesAscending(offs: seq<nat>, starts: seq<nat>)
    requires StrictlyIncreasing(starts)
    ensures StrictlyIncreasing(Dedup(LinesOf(offs, starts)))
  {
    LinesOfSorted(offs, starts);
    DedupSorted(LinesOf(offs, starts));
  }

  /** Token lines are strictly ascending. */
  lemma TokenLinesAscending(text: string, token: string)
    ensures StrictlyIncreasing(TokenLines(text, token))
  {
    DedupLinesAscending(Offsets(text), Matches(text, token));
  }

  /** Token lines are 1-based lines of the text. */
  lemma TokenLinesInRange(text: string, token: string)
    ensures var r := TokenLines(text, token);
      forall k :: 0 <= k < |r| ==> 1 <= r[k] <= |SplitLines(text)|
  {
    var m := Matches(text, token);
    var ls := LinesOf(Offsets(text), m);
    var r := TokenLines(text, token);
    forall k | 0 <= k < |r| ensures 1 <= r[k] <= |SplitLines(text)| {
      var j :| 0 <= j < |ls| && ls[j] == r[k];
      LineOfBracket(text, m[j]);
    }
  }

  /** A line is listed exactly when a match of the token starts on it. */
  lemma TokenLinesExact(text: string, token: string, line: int)
    ensures line in TokenLines(text, token) <==>
      exists i :: MatchAt(text, token, i) && LineOf(Offsets(text), i) == line
  {
    var o := Offsets(text);
    var m := Matches(text, token);
    var ls := LinesOf(o, m);
    if line in TokenLines(text, token) {
      var j :| 0 <= j < |ls| && ls[j] == line;
      assert MatchAt(text, token, m[j]);
    }
    if exists i :: MatchAt(text, token, i) && LineOf(o, i) == line {
      var i :| MatchAt(text, token, i) && LineOf(o, i) == line;
      var j :| 0 <= j < |m| && m[j] == i;
      assert ls[j] == line;
    }
  }
}

=== FILE: markdown.dfy ===
/** The heading chunker of the Cedar index
    (cedar-test/cedar_mcp/services/docs.py:88-104): a line starting with `#`
    opens a new section, every other line is collected into the section of
    the heading in effect, and a section is kept only when it collected at
    least one line. */
module Markdown {
  import opened Strings
  import opened Seqs

  predicate IsHeadingLine(line: string) {
    |line| > 0 && line[0] == '#'
  }

  /** `line.lstrip("# ")`: drops leading `#` and space characters. */
  function HeadingText(line: string): (r: string)
    ensures |r| <= |line| && r == line[|line| - |r|..]
    ensures |r| > 0 ==> r[0] != '#' && r[0] != ' '
    ensures forall i :: 0 <= i < |line| - |r| ==> line[i] == '#' || line[i] == ' '
  {
    if |line| > 0 && (line[0] == '#' || line[0] == ' ') then HeadingText(line[1..]) else line
  }

  datatype Section = Section(heading: Option<string>, lines: seq<string>)

  predicate Plain(lines: seq<string>) {
    forall k :: 0 <= k < |lines| ==> !IsHeadingLine(lines[k])
  }

  /** The section holding the buffered lines, if there are any. */
  function Flush(heading: Option<string>, buffer: seq<string>): seq<Section> {
    if |buffer| > 0 then [Section(heading, buffer)] else []
  }

  /** The loop of `_split_markdown` from a given heading and buffer on. */
  function Scan(lines: seq<string>, heading: Option<string>, buffer: seq<string>): (r: seq<Section>)
    requires Plain(buffer)
    ensures forall k :: 0 <= k < |r| ==> |r[k].lines| > 0 && Plain(r[k].lines)
    decreases |lines|
  {
    if |lines| == 0 then Flush(heading, buffer)
    else if IsHeadingLine(lines[0]) then
      Flush(heading, buffer) + Scan(lines[1..], Some(HeadingText(lines[0])), [])
    else
      Scan(lines[1..], heading, buffer + [lines[0]])
  }

  /** The sections of a text, before each one's lines are joined. */
  function Sections(text: string): (r: seq<Section>)
    ensures forall k :: 0 <= k < |r| ==> |r[k].lines| > 0 && Plain(r[k].lines)
  {
    Scan(SplitLines(text), None, [])
  }

  /** `_split_markdown`: each section's heading with its lines joined by
      newlines and stripped. */
  function SplitMarkdown(text: string): (r: seq<(Option<string>, string)>)
    ensures |r| == |Sections(text)|
    ensures forall k :: 0 <= k < |r| ==>
      r[k].0 == Sections(text)[k].heading && r[k].1 == Strip(Join(Sections(text)[k].lines, "\n"))
  {
    var s := Sections(text);
    seq(|s|, k requires 0 <= k < |s| => (s[k].heading, Strip(Join(s[k].lines, "\n"))))
  }

  /** A line together with the heading it was filed under. */
  datatype TaggedLine = TaggedLine(heading: Option<string>, line: string)

  function TagAll(heading: Option<string>, lines: seq<string>): (r: seq<TaggedLine>)
    ensures |r| == |lines|
    ensures forall k :: 0 <= k < |lines| ==> r[k] == TaggedLine(heading, lines[k])
  {
    if |lines| == 0 then [] else [TaggedLine(heading, lines[0])] + TagAll(heading, lines[1..])
  }

  /** Every non-heading line, in order, with the heading in effect when it
      is read. */
  function Tagged(lines: seq<string>, heading: Option<string>): seq<TaggedLine> {
    if |lines| == 0 then []
    else if IsHeadingLine(lines[0]) then Tagged(lines[1..], Some(HeadingText(lines[0])))
    else [TaggedLine(heading, lines[0])] + Tagged(lines[1..], heading)
  }

  /** The lines of the sections, each with its section's heading. */
  function Expand(sections: seq<Section>): seq<TaggedLine> {
    if |sections| == 0 then []
    else TagAll(sections[0].heading, sections[0].lines) + Expand(sections[1..])
  }

  lemma {:induction false} ExpandAppend(a: seq<Section>, b: seq<Section>)
    ensures Expand(a + b) == Expand(a) + Expand(b)
    decreases |a|
  {
    if |a| == 0 {
      assert a + b == b;
    } else {
      assert (a + b)[0] == a[0];
      assert (a + b)[1..] == a[1..] + b;
      ExpandAppend(a[1..], b);
    }
  }

  lemma ExpandFlush(heading: Option<string>, buffer: seq<string>)
    ensures Expand(Flush(heading, buffer)) == TagAll(heading, buffer)
  {
    if |buffer| > 0 {
      var f := Flush(heading, buffer);
      assert f == [Section(heading, buffer)];
      assert f[1..] == [];
      assert Expand(f[1..]) == [];
      assert Expand(f) == TagAll(heading, buffer) + Expand(f[1..]);
    }
  }

  lemma TagAllSnoc(heading: Option<string>, buffer: seq<string>, line: string)
    ensures TagAll(heading, buffer + [line]) == TagAll(heading, buffer) + [TaggedLine(heading, line)]
  {
  }

  /** The scan loses, duplicates and reorders no line, and files each line
      under the heading in effect when it was read. */
  lemma {:induction false} ScanTagged(lines: seq<string>, heading: Option<string>, buffer: seq<string>)
    requires Plain(buffer)
    ensures Expand(Scan(lines, heading, buffer)) == TagAll(heading, buffer) + Tagged(lines, heading)
    decreases |lines|
  {
    if |lines| == 0 {
      ExpandFlush(heading, buffer);
    } else if IsHeadingLine(lines[0]) {
      ScanTaggedHeading(lines, heading, buffer);
    } else {
      var l := lines[0];
      ScanTagged(lines[1..], heading, buffer + [l]);
      TagAllSnoc(heading, buffer, l);
      assert Tagged(lines, heading) == [TaggedLine(heading, l)] + Tagged(lines[1..], heading);
    }
  }

  lemma {:induction false} ScanTaggedHeading(lines: seq<string>, heading: Option<string>, buffer: seq<string>)
    requires Plain(buffer) && |lines| > 0 && IsHeadingLine(lines[0])
    ensures Expand(Scan(lines, heading, buffer)) == TagAll(heading, buffer) + Tagged(lines, heading)
    decreases |lines|, 0
  {
    var h := Some(HeadingText(lines[0]));
    var rest := Scan(lines[1..], h, []);
    ScanTagged(lines[1..], h, []);
    ExpandFlush(heading, buffer);
    ExpandAppend(Flush(heading, buffer), rest);
    assert TagAll(h, []) == [];
  }

  /** Every non-heading line of the text lands in exactly one section, in
      order, under the heading of the last heading line before it (`None`
      before the first heading). */
  lemma SectionsKeepLines(text: string)
    ensures Expand(Sections(text)) == Tagged(SplitLines(text), None)
  {
    ScanTagged(SplitLines(text), None, []);
  }

  /** Text that does not start with a heading line opens with a section
      without a heading. */
  lemma LeadingSection(text: string)
    requires |SplitLines(text)| > 0 && !IsHeadingLine(SplitLines(text)[0])
    ensures |Sections(text)| > 0 && Sections(text)[0].heading == None
  {
    var s := Sections(text);
    SectionsKeepLines(text);
    var lines := SplitLines(text);
    assert Tagged(lines, None)[0] == TaggedLine(None, lines[0]);
    assert Expand(s) == TagAll(s[0].heading, s[0].lines) + Expand(s[1..]);
    assert Expand(s)[0] == TaggedLine(s[0].heading, s[0].lines[0]);
  }
}

=== FILE: mastradocs.dfy ===
/** The Mastra documentation index
    (cedar-test/cedar_mcp/services/mastra_docs.py): parsing the fetched
    `llms-full.txt` dialect, where `Source:` and `[EN] Source:` marker lines
    set provenance that is attached to every later chunk, weighted keyword
    search, and the index description. Reading the file is an input. */
module MastraDocs {
  import opened Strings
  import opened Seqs
  import opened Tokens
  import opened Ranking
  import opened Scoring

  datatype MastraChunk = MastraChunk(
    source: string,
    heading: Option<string>,
    content: string,
    url: Option<string>,
    section: Option<string>)

  const SourcePrefix := "Source: https://mastra.ai/"
  const SectionPrefix := "[EN] Source:"
  const UrlPrefix := "https://mastra.ai/"

  predicate IsSourceLine(line: string) {
    StartsWith(line, SourcePrefix)
  }

  predicate IsSectionLine(line: string) {
    StartsWith(line, SectionPrefix)
  }

  predicate IsHeading(line: string) {
    StartsWith(line, "#")
  }

  /** A line the parser consumes instead of buffering: a source marker, a
      section marker or a heading. */
  predicate IsMarker(line: string) {
    IsSourceLine(line) || IsSectionLine(line) || IsHeading(line)
  }

  /** `line.lstrip("#")`. */
  function DropHashes(line: string): (r: string)
    ensures |r| <= |line| && r == line[|line| - |r|..]
    ensures |r| > 0 ==> r[0] != '#'
    ensures forall i :: 0 <= i < |line| - |r| ==> line[i] == '#'
  {
    if |line| > 0 && line[0] == '#' then DropHashes(line[1..]) else line
  }

  /** A line as the parser sees it: a source marker with its url, a
      section marker, a heading with its title, or text. */
  datatype Line = SourceMark(url: string) | SectionMark(marker: string) | HeadingMark(title: string) | Text(text: string)

  /** The tests of the parser loop, in its order. */
  function Classify(line: string): (r: Line)
    ensures r.Text? <==> !IsMarker(line)
    ensures r.Text? ==> r.text == line
    ensures r.SourceMark? <==> IsSourceLine(line)
    ensures r.SourceMark? ==> r.url == Strip(line[8..]) && StartsWith(r.url, UrlPrefix)
    ensures r.SectionMark? ==> r.marker == line && IsSectionLine(line)
    ensures r.HeadingMark? ==> r.title == Strip(DropHashes(line)) && IsHeading(line)
  {
    if IsSourceLine(line) then
      var rest := line[8..];
      assert UrlPrefix <= rest;
      StripKeepsPrefix(rest, UrlPrefix);
      SourceMark(Strip(rest))
    else if IsSectionLine(line) then SectionMark(line)
    else if IsHeading(line) then HeadingMark(Strip(DropHashes(line)))
    else Text(line)
  }

  function ClassifyAll(lines: seq<string>): (r: seq<Line>)
    ensures |r| == |lines|
    ensures forall k :: 0 <= k < |lines| ==> r[k] == Classify(lines[k])
  {
    seq(|lines|, k requires 0 <= k < |lines| => Classify(lines[k]))
  }

  /** The values in effect while reading: the last url, the last section
      marker and the last heading (`""` for none: the parser tests it for
      truth, and an empty heading is as false as a missing one). */
  datatype Ctx = Ctx(url: Option<string>, section: Option<string>, heading: string)

  const Initial := Ctx(None, None, "")

  /** What a marker sets. */
  function Step(ctx: Ctx, l: Line): Ctx
    requires !l.Text?
  {
    match l
    case SourceMark(u) => ctx.(url := Some(u))
    case SectionMark(m) => ctx.(section := Some(m))
    case HeadingMark(t) => ctx.(heading := t)
  }

  /** The buffered lines between two markers, with the values in effect. */
  datatype Group = Group(ctx: Ctx, lines: seq<string>)

  function FlushGroup(ctx: Ctx, buffer: seq<string>): seq<Group> {
    if |buffer| > 0 then [Group(ctx, buffer)] else []
  }

  /** The loop of `_parse_mastra_docs`, before chunks are filtered: every
      marker closes the buffered group. */
  function Groups(ls: seq<Line>, ctx: Ctx, buffer: seq<string>): (r: seq<Group>)
    ensures forall k :: 0 <= k < |r| ==> |r[k].lines| > 0
    decreases |ls|
  {
    if |ls| == 0 then FlushGroup(ctx, buffer)
    else if !ls[0].Text? then
      FlushGroup(ctx, buffer) + Groups(ls[1..], Step(ctx, ls[0]), [])
    else
      Groups(ls[1..], ctx, buffer + [ls[0].text])
  }

  /** A buffered line with the values in effect when it was read. */
  datatype Placed = Placed(ctx: Ctx, line: string)

  function PlaceAll(ctx: Ctx, lines: seq<string>): (r: seq<Placed>)
    ensures |r| == |lines|
    ensures forall k :: 0 <= k < |lines| ==> r[k] == Placed(ctx, lines[k])
  {
    if |lines| == 0 then [] else [Placed(ctx, lines[0])] + PlaceAll(ctx, lines[1..])
  }

  /** Every text line, in order, with the values in effect. */
  function Placements(ls: seq<Line>, ctx: Ctx): seq<Placed>
    decreases |ls|
  {
    if |ls| == 0 then []
    else if !ls[0].Text? then Placements(ls[1..], Step(ctx, ls[0]))
    else [Placed(ctx, ls[0].text)] + Placements(ls[1..], ctx)
  }

  function Expand(groups: seq<Group>): seq<Placed> {
    if |groups| == 0 then [] else PlaceAll(groups[0].ctx, groups[0].lines) + Expand(groups[1..])
  }

  lemma {:induction false} ExpandAppend(a: seq<Group>, b: seq<Group>)
    ensures Expand(a + b) == Expand(a) + Expand(b)
    decreases |a|
  {
    if |a| == 0 {
      assert a + b == b;
    } else {
      assert (a + b)[0] == a[0];
      assert (a + b)[1..] == a[1..] + b;
      ExpandAppend(a[1..], b);
    }
  }

  lemma ExpandFlush(ctx: Ctx, buffer: seq<string>)
    ensures Expand(FlushGroup(ctx, buffer)) == PlaceAll(ctx, buffer)
  {
    if |buffer| > 0 {
      assert Expand(FlushGroup(ctx, buffer)) == PlaceAll(ctx, buffer) + Expand([]);
    }
  }

  lemma PlaceAllSnoc(ctx: Ctx, buffer: seq<string>, line: string)
    ensures PlaceAll(ctx, buffer + [line]) == PlaceAll(ctx, buffer) + [Placed(ctx, line)]
  {
  }

  /** The groups hold every text line once, in order, each under the url,
      section and heading in effect when it was read; a group's provenance
      is therefore the one set before the marker that closed it. */
  lemma {:induction false} GroupsPlace(ls: seq<Line>, ctx: Ctx, buffer: seq<string>)
    ensures Expand(Groups(ls, ctx, buffer)) == PlaceAll(ctx, buffer) + Placements(ls, ctx)
    decreases |ls|, 1
  {
    if |ls| == 0 {
      ExpandFlush(ctx, buffer);
    } else if !ls[0].Text? {
      GroupsPlaceMarker(ls, ctx, buffer);
    } else {
      var l := ls[0].text;
      GroupsPlace(ls[1..], ctx, buffer + [l]);
      PlaceAllSnoc(ctx, buffer, l);
      assert Placements(ls, ctx) == [Placed(ctx, l)] + Placements(ls[1..], ctx);
    }
  }

  lemma {:induction false} GroupsPlaceMarker(ls: seq<Line>, ctx: Ctx, buffer: seq<string>)
    requires |ls| > 0 && !ls[0].Text?
    ensures Expand(Groups(ls, ctx, buffer)) == PlaceAll(ctx, buffer) + Placements(ls, ctx)
    decreases |ls|, 0
  {
    var next := Step(ctx, ls[0]);
    GroupsPlace(ls[1..], next, []);
    ExpandFlush(ctx, buffer);
    ExpandAppend(FlushGroup(ctx, buffer), Groups(ls[1..], next, []));
    assert PlaceAll(next, []) == [];
  }

  /** Provenance has the shape its markers give it: a url starts with the
      Mastra site, a section is a whole section marker line. */
  predicate CtxOk(ctx: Ctx) {
    && (ctx.url.Some? ==> StartsWith(ctx.url.value, UrlPrefix))
    && (ctx.section.Some? ==> IsSectionLine(ctx.section.value))
  }

  predicate LineOk(l: Line) {
    && (l.SourceMark? ==> StartsWith(l.url, UrlPrefix))
    && (l.SectionMark? ==> IsSectionLine(l.marker))
  }

  /** Every group carries provenance of the marker shapes. */
  lemma {:induction false} GroupsCtxOk(ls: seq<Line>, ctx: Ctx, buffer: seq<string>)
    requires CtxOk(ctx) && forall k :: 0 <= k < |ls| ==> LineOk(ls[k])
    ensures forall k :: 0 <= k < |Groups(ls, ctx, buffer)| ==> CtxOk(Groups(ls, ctx, buffer)[k].ctx)
    decreases |ls|
  {
    if |ls| > 0 {
      assert LineOk(ls[0]);
      if !ls[0].Text? {
        GroupsCtxOk(ls[1..], Step(ctx, ls[0]), []);
      } else {
        GroupsCtxOk(ls[1..], ctx, buffer + [ls[0].text]);
      }
    }
  }

  /** No marker line reaches a group: the parser never buffers one. */
  lemma {:induction false} PlacementsPlain(lines: seq<string>, ctx: Ctx)
    ensures forall k :: 0 <= k < |Placements(ClassifyAll(lines), ctx)| ==>
      !IsMarker(Placements(ClassifyAll(lines), ctx)[k].line)
    decreases |lines|
  {
    if |lines| > 0 {
      var ls := ClassifyAll(lines);
      assert ClassifyAll(lines[1..]) == ls[1..];
      if !ls[0].Text? {
        PlacementsPlain(lines[1..], Step(ctx, ls[0]));
      } else {
        PlacementsPlain(lines[1..], ctx);
      }
    }
  }

  /** The chunk a group would flush into. */
  function ChunkOf(path: string, g: Group): MastraChunk {
    MastraChunk(path, Some(g.ctx.heading), Strip(Join(g.lines, "\n")), g.ctx.url, g.ctx.section)
  }

  function Drafts(path: string, groups: seq<Group>): (r: seq<MastraChunk>)
    ensures |r| == |groups|
    ensures forall k :: 0 <= k < |groups| ==> r[k] == ChunkOf(path, groups[k])
  {
    seq(|groups|, k requires 0 <= k < |groups| => ChunkOf(path, groups[k]))
  }

  /** A flush appends its chunk when a heading is in effect and the joined,
      stripped lines are not empty; text before the first heading is
      dropped. */
  predicate Emits(c: MastraChunk) {
    c.heading != Some("") && c.content != ""
  }

  /** The emitted chunks, in order. */
  function Emitted(drafts: seq<MastraChunk>): (r: seq<MastraChunk>)
    ensures |r| <= |drafts|
    ensures forall c :: c in r <==> c in drafts && Emits(c)
  {
    if |drafts| == 0 then []
    else
      var rest := Emitted(drafts[1..]);
      assert forall c :: c in drafts <==> c == drafts[0] || c in drafts[1..];
      if Emits(drafts[0]) then [drafts[0]] + rest else rest
  }

  /** An emitted chunk: from the file, with a heading, with content that is
      non-empty and has no surrounding whitespace, and with provenance of
      the marker shapes. */
  predicate WellFormed(path: string, c: MastraChunk) {
    && c.source == path
    && c.heading.Some? && c.heading.value != ""
    && c.content != "" && Strip(c.content) == c.content
    && (c.url.Some? ==> StartsWith(c.url.value, UrlPrefix))
    && (c.section.Some? ==> IsSectionLine(c.section.value))
  }

  /** The groups of a text. */
  function ParsedGroups(text: string): (r: seq<Group>)
    ensures forall k :: 0 <= k < |r| ==> CtxOk(r[k].ctx)
  {
    var ls := ClassifyAll(SplitLines(text));
    assert forall k :: 0 <= k < |ls| ==> LineOk(ls[k]);
    GroupsCtxOk(ls, Initial, []);
    Groups(ls, Initial, [])
  }

  /** `_parse_mastra_docs`. */
  function Parse(path: string, text: string): (r: seq<MastraChunk>)
    ensures forall k :: 0 <= k < |r| ==> WellFormed(path, r[k])
  {
    var groups := ParsedGroups(text);
    var drafts := Drafts(path, groups);
    var r := Emitted(drafts);
    forall k | 0 <= k < |r| ensures WellFormed(path, r[k]) {
      assert r[k] in drafts;
      var i :| 0 <= i < |drafts| && drafts[i] == r[k];
      DraftWellFormed(path, groups[i]);
    }
    r
  }

  /** An emitted chunk of a group with provenance of the marker shapes is
      well formed. */
  lemma DraftWellFormed(path: string, g: Group)
    requires CtxOk(g.ctx) && Emits(ChunkOf(path, g))
    ensures WellFormed(path, ChunkOf(path, g))
  {
    StripIdempotent(Join(g.lines, "\n"));
  }

  /** The groups of a text hold its non-marker lines, each once and in
      order, under the url, section and heading in effect when it was read;
      no marker line is ever buffered. */
  lemma ParseKeepsText(text: string)
    ensures Expand(ParsedGroups(text)) == Placements(ClassifyAll(SplitLines(text)), Initial)
    ensures forall k :: 0 <= k < |Expand(ParsedGroups(text))| ==> !IsMarker(Expand(ParsedGroups(text))[k].line)
  {
    GroupsPlace(ClassifyAll(SplitLines(text)), Initial, []);
    PlacementsPlain(SplitLines(text), Initial);
  }

  /** The chunks of a parse are exactly the flushed groups that have a
      heading and non-blank content, each with the provenance in effect. */
  lemma ParseChunks(path: string, text: string)
    ensures forall c :: c in Parse(path, text) <==>
      exists g :: g in ParsedGroups(text) && g.ctx.heading != "" && Strip(Join(g.lines, "\n")) != ""
        && c == MastraChunk(path, Some(g.ctx.heading), Strip(Join(g.lines, "\n")), g.ctx.url, g.ctx.section)
  {
    var groups := ParsedGroups(text);
    var drafts := Drafts(path, groups);
    forall c | c in drafts ensures exists g :: g in groups && c == ChunkOf(path, g) {
      var i :| 0 <= i < |drafts| && drafts[i] == c;
      assert groups[i] in groups;
    }
    forall g | g in groups ensures ChunkOf(path, g) in drafts {
      var i :| 0 <= i < |groups| && groups[i] == g;
      assert drafts[i] == ChunkOf(path, g);
    }
  }

  /** The configured docs path: none, one that does not exist, one that is
      not a regular file, or a file with its text (`None` when it cannot be
      read). */
  datatype MastraPath = Unset | Missing(path: string) | NotFile(path: string) | File(path: string, text: Option<string>)

  datatype MastraIndex = MastraIndex(docsPath: Option<string>, chunks: seq<MastraChunk>, texts: map<string, string>)

  /** `MastraDocsIndex(docs_path)`. */
  function Load(p: MastraPath): (ix: MastraIndex)
    ensures p.Unset? <==> ix.docsPath.None?
    ensures !p.File? ==> ix.chunks == [] && ix.texts == map[]
    ensures p.File? && p.text.None? ==> ix.chunks == [] && ix.texts == map[]
    ensures p.File? && p.text.Some? ==> ix.texts == map[p.path := p.text.value]
    ensures forall k :: 0 <= k < |ix.chunks| ==> p.File? && WellFormed(p.path, ix.chunks[k])
  {
    match p
    case Unset => MastraIndex(None, [], map[])
    case Missing(path) => MastraIndex(Some(path), [], map[])
    case NotFile(path) => MastraIndex(Some(path), [], map[])
    case File(path, text) =>
      if text.None? then MastraIndex(Some(path), [], map[])
      else MastraIndex(Some(path), Parse(path, text.value), map[path := text.value])
  }

  /** The chunks as the scorer reads them. */
  function DocsOf(chunks: seq<MastraChunk>): (r: seq<Doc>)
    ensures |r| == |chunks|
    ensures forall k :: 0 <= k < |chunks| ==> r[k] == DocOf(chunks[k].heading.GetOr(""), chunks[k].content)
  {
    seq(|chunks|, k requires 0 <= k < |chunks| => DocOf(chunks[k].heading.GetOr(""), chunks[k].content))
  }

  const ContentLimit := 2000

  datatype MastraResult = MastraResult(
    source: string,
    heading: Option<string>,
    content: string,
    matchCount: nat,
    matchedTokens: seq<Hit>,
    url: Option<string>,
    section: Option<string>)

  function QueryTokensOf(query: string): seq<string> {
    QueryOf(MastraConfig, query)
  }

  /** A value is reported only when it is present and not empty. */
  function Truthy(v: Option<string>): (r: Option<string>)
    ensures r.Some? <==> v.Some? && v.value != ""
    ensures r.Some? ==> r == v
  {
    if v.Some? && v.value != "" then v else None
  }

  /** The result entry of one ranked chunk. */
  function ResultOf(ix: MastraIndex, e: Ranked<seq<Hit>>): MastraResult
    requires e.pos < |ix.chunks|
  {
    var c := ix.chunks[e.pos];
    MastraResult(c.source, c.heading, Take(c.content, ContentLimit), e.score, e.item,
                 Truthy(c.url), Truthy(c.section))
  }

  /** `scored[:limit]`, as written: a negative limit drops entries from the
      end instead of returning none. */
  function TopOf(tokens: seq<string>, docs: seq<Doc>, limit: int): (r: seq<Ranked<seq<Hit>>>)
    ensures |r| <= |RankChunks(MastraConfig, tokens, docs)|
    ensures forall k :: 0 <= k < |r| ==> r[k] == RankChunks(MastraConfig, tokens, docs)[k]
    ensures limit >= 0 ==> |r| <= limit
    ensures limit < 0 ==> |r| == Clamp(|RankChunks(MastraConfig, tokens, docs)| + limit)
    ensures Ordered(r)
    ensures forall k :: 0 <= k < |r| ==> r[k].pos < |docs|
    ensures forall k :: 0 <= k < |r| ==> Scored(MastraConfig, tokens, docs, r[k])
  {
    PySliceTo(RankChunks(MastraConfig, tokens, docs), limit)
  }

  function Clamp(n: int): nat {
    if n < 0 then 0 else n
  }

  /** `MastraDocsIndex.search`. */
  function Search(ix: MastraIndex, query: string, limit: int): (r: seq<MastraResult>)
    ensures |r| == |TopOf(QueryTokensOf(query), DocsOf(ix.chunks), limit)|
    ensures limit >= 0 ==> |r| <= limit
    ensures query == "" ==> r == []
    ensures QueryTokensOf(query) == [] ==> r == []
  {
    var top := TopOf(QueryTokensOf(query), DocsOf(ix.chunks), limit);
    seq(|top|, k requires 0 <= k < |top| => ResultOf(ix, top[k]))
  }

  /** The chunk positions of the results, best first. */
  function ResultPositions(ix: MastraIndex, query: string, limit: int): (ps: seq<nat>)
    ensures |ps| == |TopOf(QueryTokensOf(query), DocsOf(ix.chunks), limit)|
    ensures forall k :: 0 <= k < |ps| ==> ps[k] < |ix.chunks|
  {
    var top := TopOf(QueryTokensOf(query), DocsOf(ix.chunks), limit);
    assert |DocsOf(ix.chunks)| == |ix.chunks|;
    seq(|top|, k requires 0 <= k < |top| => top[k].pos)
  }

  /** `res` is the result for the chunk at `p`: its source and heading, at
      most its first 2000 characters, the totals (three times the heading
      hits plus the body hits, doubled for the Mastra domain terms) of
      exactly the query tokens that occur, their sum, and the chunk's url
      and section when it has them. */
  predicate ResultFor(ix: MastraIndex, tokens: seq<string>, res: MastraResult, p: nat) {
    && p < |ix.chunks|
    && var c := ix.chunks[p];
    && var d := DocsOf(ix.chunks)[p];
    && res.source == c.source
    && res.heading == c.heading
    && res.content <= c.content
    && |res.content| == (if |c.content| < ContentLimit then |c.content| else ContentLimit)
    && (forall j :: 0 <= j < |res.matchedTokens| ==>
          && res.matchedTokens[j].token in tokens
          && res.matchedTokens[j].count == MastraTotal(d, res.matchedTokens[j].token)
          && res.matchedTokens[j].count > 0)
    && (forall i :: 0 <= i < |tokens| && TokenTotal(MastraConfig, d, tokens[i]) > 0 ==>
          tokens[i] in HitTokens(res.matchedTokens))
    && NoDups(HitTokens(res.matchedTokens))
    && res.matchCount == Total(res.matchedTokens) == SumTotals(MastraConfig, d, tokens)
    && res.matchCount > 0
    && (res.url.Some? <==> c.url.Some? && c.url.value != "")
    && (res.url.Some? ==> res.url == c.url)
    && (res.section.Some? <==> c.section.Some? && c.section.value != "")
    && (res.section.Some? ==> res.section == c.section)
  }

  lemma SearchResults(ix: MastraIndex, query: string, limit: int)
    ensures forall k :: 0 <= k < |Search(ix, query, limit)| ==>
      ResultFor(ix, QueryTokensOf(query), Search(ix, query, limit)[k], ResultPositions(ix, query, limit)[k])
  {
    var tokens := QueryTokensOf(query);
    var docs := DocsOf(ix.chunks);
    var top := TopOf(tokens, docs, limit);
    var r := Search(ix, query, limit);
    var ps := ResultPositions(ix, query, limit);
    forall k | 0 <= k < |r| ensures ResultFor(ix, tokens, r[k], ps[k]) {
      var e := top[k];
      var d := docs[e.pos];
      assert Scored(MastraConfig, tokens, docs, e);
      HitsDistinct(MastraConfig, d, tokens);
      ScoreIsSum(MastraConfig, d, tokens);
      forall i | 0 <= i < |tokens| && TokenTotal(MastraConfig, d, tokens[i]) > 0
        ensures tokens[i] in HitTokens(e.item)
      {
        HitsComplete(MastraConfig, d, tokens, i);
      }
      forall j | 0 <= j < |e.item|
        ensures e.item[j].count == MastraTotal(d, e.item[j].token)
      {
        MastraTotalIs(d, e.item[j].token);
      }
    }
  }

  /** The Mastra weighting: three times the heading hits plus the body hits,
      doubled for the domain terms. */
  function MastraTotal(d: Doc, token: string): nat {
    (3 * CountWordPrefix(d.heading, token) + CountWordPrefix(d.body, token))
    * (if token in {"mastra", "agent", "workflow", "tool", "memory"} then 2 else 1)
  }

  lemma MastraTotalIs(d: Doc, token: string)
    ensures TokenTotal(MastraConfig, d, token) == MastraTotal(d, token)
  {
  }

  /** Every chunk of a loaded index has its url and section reported
      exactly when it has them: marker values are never empty. */
  lemma LoadedProvenanceReported(p: MastraPath, k: nat)
    requires k < |Load(p).chunks|
    ensures var c := Load(p).chunks[k];
      (c.url.Some? ==> c.url.value != "") && (c.section.Some? ==> c.section.value != "")
  {
    var c := Load(p).chunks[k];
    assert WellFormed(p.path, c);
    if c.url.Some? {
      assert |c.url.value| >= |UrlPrefix|;
    }
    if c.section.Some? {
      assert |c.section.value| >= |SectionPrefix|;
    }
  }

  /** Results are ordered by match count, then by number of matched tokens,
      both descending; results with equal keys keep chunk order. */
  lemma SearchOrder(ix: MastraIndex, query: string, limit: int, i: nat, j: nat)
    requires i < j < |Search(ix, query, limit)|
    ensures
      var r := Search(ix, query, limit);
      var ps := ResultPositions(ix, query, limit);
      || r[i].matchCount > r[j].matchCount
      || (r[i].matchCount == r[j].matchCount && |r[i].matchedTokens| > |r[j].matchedTokens|)
      || (r[i].matchCount == r[j].matchCount && |r[i].matchedTokens| == |r[j].matchedTokens| && ps[i] < ps[j])
  {
    var top := TopOf(QueryTokensOf(query), DocsOf(ix.chunks), limit);
    assert Ahead(top[i], top[j]);
  }

  /** With a negative limit the search still returns results: `scored[:-n]`
      drops the last `n` ranked chunks instead of all of them. */
  lemma NegativeLimitKeepsResults(ix: MastraIndex, query: string, limit: int)
    requires limit < 0
    requires |RankChunks(MastraConfig, QueryTokensOf(query), DocsOf(ix.chunks))| > -limit
    ensures |Search(ix, query, limit)| == |RankChunks(MastraConfig, QueryTokensOf(query), DocsOf(ix.chunks))| + limit > 0
  {
  }

  /** The search with the limit clamped at zero, as the Cedar index does it. */
  function SearchClamped(ix: MastraIndex, query: string, limit: int): (r: seq<MastraResult>)
    ensures |r| <= Clamp(limit)
    ensures limit <= 0 ==> r == []
    ensures limit >= 0 ==> r == Search(ix, query, limit)
  {
    if limit < 0 then Search(ix, query, 0) else Search(ix, query, limit)
  }

  const DocsSectionPrefix := "[EN] Source: https://mastra.ai/en/docs/"

  /** The first index at which `lit` occurs in `s`. */
  function FindFirst(s: string, lit: string): (r: Option<nat>)
    ensures r.Some? ==> r.value + |lit| <= |s| && s[r.value..r.value + |lit|] == lit
    ensures r.Some? ==> forall j :: 0 <= j < r.value ==> !(lit <= s[j..])
    ensures r.None? ==> forall j :: 0 <= j <= |s| ==> !(lit <= s[j..])
    decreases |s|
  {
    if lit <= s then Some(0)
    else if |s| == 0 then None
    else
      match FindFirst(s[1..], lit)
      case Some(i) =>
        assert forall j :: 1 <= j <= |s| ==> s[j..] == s[1..][j - 1..];
        Some(i + 1)
      case None =>
        assert forall j :: 1 <= j <= |s| ==> s[j..] == s[1..][j - 1..];
        None
  }

  /** Length of the lazy group `(.+?)` followed by `/` or the end. */
  function GroupLength(rest: string): (n: nat)
    requires |rest| > 0
    ensures 1 <= n <= |rest|
    ensures n < |rest| ==> rest[n] == '/'
    ensures forall j :: 1 <= j < n ==> rest[j] != '/'
  {
    1 + IndexOf(rest[1..], '/')
  }

  /** The first group of
      `\[EN\] Source: https://mastra\.ai/en/docs/(.+?)(?:/|$)` searched in a
      section marker. */
  function SectionName(section: string): (r: Option<string>)
    ensures r.Some? ==> |r.value| > 0 && '/' !in r.value[1..]
  {
    match FindFirst(section, DocsSectionPrefix)
    case None => None
    case Some(i) =>
      var rest := section[i + |DocsSectionPrefix|..];
      if |rest| == 0 then None
      else
        var name := rest[..GroupLength(rest)];
        assert forall j :: 0 <= j < |name[1..]| ==> name[1..][j] == rest[j + 1];
        Some(name)
  }

  /** A section marker that starts with the documentation prefix names
      what follows it, up to the next `/`. */
  lemma SectionNameAtStart(s: string)
    requires DocsSectionPrefix <= s && |s| > |DocsSectionPrefix|
    ensures var rest := s[|DocsSectionPrefix|..];
      SectionName(s) == Some(rest[..GroupLength(rest)])
  {
  }

  /** After the documentation prefix, a name without `/` that runs to the
      end or to a `/` is the section name. */
  lemma SectionNameIs(s: string, name: string)
    requires DocsSectionPrefix <= s && |name| > 0 && '/' !in name
    requires var rest := s[|DocsSectionPrefix|..];
      name <= rest && (|rest| == |name| || rest[|name|] == '/')
    ensures SectionName(s) == Some(name)
  {
    var rest := s[|DocsSectionPrefix|..];
    SectionNameAtStart(s);
    forall j | 0 <= j < |name| - 1 ensures rest[1..][j] != '/' {
      assert rest[1..][j] == name[j + 1];
    }
    IndexOfIs(rest[1..], '/', |name| - 1);
    assert rest[..|name|] == name;
  }

  /** A documentation section marker yields its first path segment. */
  lemma SectionNameOfDocs(name: string, tail: string)
    requires |name| > 0 && '/' !in name
    ensures SectionName(DocsSectionPrefix + name) == Some(name)
    ensures SectionName(DocsSectionPrefix + name + "/" + tail) == Some(name)
  {
    var n := |DocsSectionPrefix|;
    var s1 := DocsSectionPrefix + name;
    var s2 := DocsSectionPrefix + name + "/" + tail;
    assert s1[n..] == name;
    SectionNameIs(s1, name);
    assert s2[n..] == name + "/" + tail;
    SectionNameIs(s2, name);
  }

  datatype MastraDescription = MastraDescription(docsPath: Option<string>, numChunks: nat, sections: seq<string>, kind: string)

  function SectionNames(chunks: seq<MastraChunk>): seq<string> {
    if |chunks| == 0 then []
    else
      var c := chunks[0];
      var here := if c.section.Some? && c.section.value != "" && SectionName(c.section.value).Some?
                  then [SectionName(c.section.value).value] else [];
      here + SectionNames(chunks[1..])
  }

  /** A chunk contributes the documentation section its marker names. */
  predicate NamesSection(c: MastraChunk, name: string) {
    c.section.Some? && c.section.value != "" && SectionName(c.section.value) == Some(name)
  }

  lemma {:induction false} SectionNamesMembers(chunks: seq<MastraChunk>)
    ensures forall name :: name in SectionNames(chunks) <==>
      exists k :: 0 <= k < |chunks| && NamesSection(chunks[k], name)
    decreases |chunks|
  {
    if |chunks| > 0 {
      SectionNamesMembers(chunks[1..]);
      forall name | name in SectionNames(chunks)
        ensures exists k :: 0 <= k < |chunks| && NamesSection(chunks[k], name)
      {
        if !NamesSection(chunks[0], name) {
          assert name in SectionNames(chunks[1..]);
          var k :| 0 <= k < |chunks[1..]| && NamesSection(chunks[1..][k], name);
          assert chunks[k + 1] == chunks[1..][k];
        }
      }
      forall name | exists k :: 0 <= k < |chunks| && NamesSection(chunks[k], name)
        ensures name in SectionNames(chunks)
      {
        var k :| 0 <= k < |chunks| && NamesSection(chunks[k], name);
        if k > 0 {
          assert chunks[1..][k - 1] == chunks[k];
        }
      }
    }
  }

  /** `MastraDocsIndex.describe`: the chunk count and the sorted distinct
      documentation sections named by the chunks' section markers. */
  function Describe(ix: MastraIndex): (d: MastraDescription)
    ensures d.docsPath == ix.docsPath
    ensures d.numChunks == |ix.chunks|
    ensures d.kind == "Mastra Documentation"
    ensures StrictlySorted(d.sections) && NoDups(d.sections)
    ensures forall name :: name in d.sections <==>
      exists k :: 0 <= k < |ix.chunks| && NamesSection(ix.chunks[k], name)
  {
    SectionNamesMembers(ix.chunks);
    MastraDescription(ix.docsPath, |ix.chunks|, SortedSet(SectionNames(ix.chunks)), "Mastra Documentation")
  }
}

=== FILE: ranking.dfy ===
/** Stable descending sort, as Python's `list.sort(key=..., reverse=True)`
    performs it: entries are ordered by score, then by a secondary "breadth"
    (the number of distinct matched tokens, or 0 where only the score
    counts), and entries with equal keys keep their original order. */
module Ranking {

  /** An entry to be ranked: its original position, its payload and its key. */
  datatype Ranked<T> = Ranked(pos: nat, item: T, score: nat, breadth: nat)

  /** The key of `a` is at least the key of `b` (lexicographic on
      score, then breadth). */
  predicate KeyAtLeast<T>(a: Ranked<T>, b: Ranked<T>) {
    a.score > b.score || (a.score == b.score && a.breadth >= b.breadth)
  }

  predicate SameKey<T>(a: Ranked<T>, b: Ranked<T>) {
    a.score == b.score && a.breadth == b.breadth
  }

  /** `a` comes strictly before `b` in a stable descending sort of entries
      listed by increasing position. */
  predicate Ahead<T>(a: Ranked<T>, b: Ranked<T>) {
    a.score > b.score
    || (a.score == b.score && (a.breadth > b.breadth || (a.breadth == b.breadth && a.pos < b.pos)))
  }

  predicate Ordered<T>(s: seq<Ranked<T>>) {
    forall i, j :: 0 <= i < j < |s| ==> Ahead(s[i], s[j])
  }

  /** The original positions present in `s`. */
  function Positions<T>(s: seq<Ranked<T>>): set<nat> {
    set k | 0 <= k < |s| :: s[k].pos
  }

  predicate PositionsIncrease<T>(s: seq<Ranked<T>>) {
    forall i, j :: 0 <= i < j < |s| ==> s[i].pos < s[j].pos
  }

  /** Inserts `x` before the first entry whose key it matches or beats. */
  function Insert<T>(x: Ranked<T>, s: seq<Ranked<T>>): (r: seq<Ranked<T>>)
    ensures multiset(r) == multiset(s) + multiset{x}
    ensures |r| == |s| + 1
  {
    if |s| == 0 || KeyAtLeast(x, s[0]) then [x] + s
    else
      assert s == [s[0]] + s[1..];
      [s[0]] + Insert(x, s[1..])
  }

  /** Insertion sort: each entry is inserted into the sorted rest, ahead of
      every later entry with an equal key. */
  function Sort<T>(s: seq<Ranked<T>>): (r: seq<Ranked<T>>)
    ensures multiset(r) == multiset(s)
    ensures |r| == |s|
  {
    if |s| == 0 then []
    else
      assert s == [s[0]] + s[1..];
      Insert(s[0], Sort(s[1..]))
  }

  /** Every entry of `s` is behind `a`. */
  predicate AllBehind<T>(a: Ranked<T>, s: seq<Ranked<T>>) {
    forall k :: 0 <= k < |s| ==> Ahead(a, s[k])
  }

  lemma ConsOrdered<T>(a: Ranked<T>, s: seq<Ranked<T>>)
    requires Ordered(s) && AllBehind(a, s)
    ensures Ordered([a] + s)
  {
    var r := [a] + s;
    forall i, j | 0 <= i < j < |r| ensures Ahead(r[i], r[j]) {
      assert r[j] == s[j - 1];
      if i > 0 { assert r[i] == s[i - 1]; }
    }
  }

  lemma OrderedTail<T>(s: seq<Ranked<T>>)
    requires Ordered(s) && |s| > 0
    ensures Ordered(s[1..]) && AllBehind(s[0], s[1..])
  {
    forall i, j | 0 <= i < j < |s| - 1 ensures Ahead(s[1..][i], s[1..][j]) {
      assert Ahead(s[i + 1], s[j + 1]);
    }
    forall k | 0 <= k < |s| - 1 ensures Ahead(s[0], s[1..][k]) {
      assert Ahead(s[0], s[k + 1]);
    }
  }

  /** An entry whose key matches or beats the head of an ordered list, and
      whose position is before all of theirs, is ahead of all of them. */
  lemma BehindNewHead<T>(x: Ranked<T>, s: seq<Ranked<T>>)
    requires Ordered(s) && (|s| == 0 || KeyAtLeast(x, s[0]))
    requires forall k :: 0 <= k < |s| ==> x.pos < s[k].pos
    ensures AllBehind(x, s)
  {
    forall k | 0 <= k < |s| ensures Ahead(x, s[k]) {
      if k > 0 { assert Ahead(s[0], s[k]); }
    }
  }

  /** Inserting an entry behind `a` into a list behind `a` keeps the whole
      list behind `a`. */
  lemma {:induction false} BehindInsert<T>(a: Ranked<T>, x: Ranked<T>, s: seq<Ranked<T>>)
    requires Ahead(a, x) && AllBehind(a, s)
    ensures AllBehind(a, Insert(x, s))
    decreases |s|
  {
    var r := Insert(x, s);
    if |s| == 0 || KeyAtLeast(x, s[0]) {
      forall k | 0 <= k < |r| ensures Ahead(a, r[k]) {
        if k > 0 { assert r[k] == s[k - 1]; }
      }
    } else {
      forall k | 0 <= k < |s| - 1 ensures Ahead(a, s[1..][k]) {
        assert s[1..][k] == s[k + 1];
      }
      BehindInsert(a, x, s[1..]);
      var rest := Insert(x, s[1..]);
      forall k | 0 <= k < |r| ensures Ahead(a, r[k]) {
        if k > 0 { assert r[k] == rest[k - 1]; }
      }
    }
  }

  lemma {:induction false} InsertOrdered<T>(x: Ranked<T>, s: seq<Ranked<T>>)
    requires Ordered(s)
    requires forall k :: 0 <= k < |s| ==> x.pos < s[k].pos
    ensures Ordered(Insert(x, s))
    decreases |s|
  {
    if |s| == 0 || KeyAtLeast(x, s[0]) {
      BehindNewHead(x, s);
      ConsOrdered(x, s);
    } else {
      OrderedTail(s);
      forall k | 0 <= k < |s| - 1 ensures x.pos < s[1..][k].pos {
        assert s[1..][k] == s[k + 1];
      }
      InsertOrdered(x, s[1..]);
      assert Ahead(s[0], x);
      BehindInsert(s[0], x, s[1..]);
      ConsOrdered(s[0], Insert(x, s[1..]));
    }
  }

  /** Sorting entries listed by increasing position orders them strictly by
      `Ahead`: by key descending, ties in original order. */
  lemma {:induction false} SortOrdered<T>(s: seq<Ranked<T>>)
    requires PositionsIncrease(s)
    ensures Ordered(Sort(s))
    decreases |s|
  {
    if |s| > 0 {
      SortOrdered(s[1..]);
      var sorted := Sort(s[1..]);
      forall k | 0 <= k < |sorted| ensures s[0].pos < sorted[k].pos {
        assert sorted[k] in multiset(s[1..]);
        var m :| 0 <= m < |s[1..]| && s[1..][m] == sorted[k];
        assert s[0].pos < s[m + 1].pos;
      }
      InsertOrdered(s[0], sorted);
    }
  }

  /** What `Ordered` means for a caller: keys never increase along the list,
      and equal keys appear in increasing original position. */
  lemma OrderedMeaning<T>(s: seq<Ranked<T>>, i: int, j: int)
    requires Ordered(s) && 0 <= i < j < |s|
    ensures KeyAtLeast(s[i], s[j])
    ensures SameKey(s[i], s[j]) ==> s[i].pos < s[j].pos
  {
    assert Ahead(s[i], s[j]);
  }

  /** The stable descending sort of entries listed by increasing position. */
  function Rank<T>(s: seq<Ranked<T>>): (r: seq<Ranked<T>>)
    requires PositionsIncrease(s)
    ensures Ordered(r)
    ensures multiset(r) == multiset(s)
  {
    SortOrdered(s);
    Sort(s)
  }

  /** Ranking drops no entry. */
  lemma RankKeepsPosition<T>(s: seq<Ranked<T>>, k: nat)
    requires PositionsIncrease(s) && k < |s|
    ensures s[k].pos in Positions(Rank(s))
  {
    var r := Rank(s);
    assert s[k] in multiset(r);
    assert s[k] in r;
    var m :| 0 <= m < |r| && r[m] == s[k];
    assert r[m].pos == s[k].pos;
  }

  /** An entry of an ordered list whose position is missing from the first
      `n` entries lies beyond them, and each of them is ahead of it. */
  lemma PrefixKeepsBest<T>(s: seq<Ranked<T>>, n: nat, m: nat)
    requires Ordered(s) && n <= |s| && m < |s|
    requires forall k :: 0 <= k < n ==> s[k].pos != s[m].pos
    ensures n <= m
    ensures forall k :: 0 <= k < n ==> Ahead(s[k], s[m])
  {
    // Were `m` below `n`, the entry's own position would differ from itself.
    var p := s[m].pos;
    assert m < n ==> p != p;
  }

  /** The items with a positive score, in input order, as entries to rank by
      score alone: an entry's position is its index plus `from`, its breadth
      0. */
  function Positive<T>(items: seq<T>, scores: seq<nat>, from: nat): (r: seq<Ranked<T>>)
    requires |scores| == |items|
    ensures |r| <= |items|
    ensures forall k :: 0 <= k < |r| ==> from <= r[k].pos < from + |items|
    ensures forall k :: 0 <= k < |r| ==>
              r[k].item == items[r[k].pos - from] && r[k].score == scores[r[k].pos - from]
              && r[k].score > 0 && r[k].breadth == 0
    ensures PositionsIncrease(r)
    decreases |items|
  {
    if |items| == 0 then []
    else
      var rest := Positive(items[1..], scores[1..], from + 1);
      if scores[0] > 0 then [Ranked(from, items[0], scores[0], 0)] + rest else rest
  }

  /** Every positively scored item has an entry. */
  lemma {:induction false} PositiveComplete<T>(items: seq<T>, scores: seq<nat>, from: nat, i: nat)
    returns (k: nat)
    requires |scores| == |items| && i < |items| && scores[i] > 0
    ensures k < |Positive(items, scores, from)| && Positive(items, scores, from)[k].pos == from + i
    decreases |items|
  {
    var rest := Positive(items[1..], scores[1..], from + 1);
    if i == 0 {
      k := 0;
    } else {
      var j := PositiveComplete(items[1..], scores[1..], from + 1, i - 1);
      k := if scores[0] > 0 then j + 1 else j;
    }
  }

  /** Every positively scored item is among the ranked entries. */
  lemma RankPositiveComplete<T>(items: seq<T>, scores: seq<nat>, i: nat) returns (k: nat)
    requires |scores| == |items| && i < |items| && scores[i] > 0
    ensures k < |Rank(Positive(items, scores, 0))| && Rank(Positive(items, scores, 0))[k].pos == i
  {
    var candidates := Positive(items, scores, 0);
    var sorted := Rank(candidates);
    var j := PositiveComplete(items, scores, 0, i);
    assert candidates[j] in multiset(sorted);
    k :| 0 <= k < |sorted| && sorted[k] == candidates[j];
  }

  /** Ranked positive entries keep their items' scores. */
  lemma RankPositiveEntries<T>(items: seq<T>, scores: seq<nat>)
    requires |scores| == |items|
    ensures forall k :: 0 <= k < |Rank(Positive(items, scores, 0))| ==>
              var e := Rank(Positive(items, scores, 0))[k];
              e.pos < |items| && e.item == items[e.pos] && e.score == scores[e.pos] > 0 && e.breadth == 0
  {
    var candidates := Positive(items, scores, 0);
    var sorted := Rank(candidates);
    forall k | 0 <= k < |sorted|
      ensures sorted[k].pos < |items| && sorted[k].item == items[sorted[k].pos]
      ensures sorted[k].score == scores[sorted[k].pos] > 0 && sorted[k].breadth == 0
    {
      assert sorted[k] in multiset(candidates);
    }
  }
}

=== FILE: scoring.dfy ===
/** The keyword scorer shared by the Cedar and Mastra documentation indexes
    (cedar-test/cedar_mcp/services/docs.py:133-156 and
    cedar-test/cedar_mcp/services/mastra_docs.py:162-189). The two differ
    only in their short-token whitelist, the weight of a heading hit, and the
    tokens whose total is boosted; a `Config` holds those. */
module Scoring {
  import opened Seqs
  import opened Tokens
  import opened Ranking

  datatype Config = Config(
    whitelist: set<string>,
    headingWeight: nat,
    boosted: set<string>,
    boost: nat)

  /** The Cedar index: heading hits count twice, no token is boosted. */
  const CedarConfig := Config({"ui", "os", "ai", "llm", "sse", "ux"}, 2, {}, 1)

  /** The Mastra index: heading hits count three times, and the totals of the
      domain terms are doubled. */
  const MastraConfig := Config(
    {"mcp", "ai", "llm", "api", "jwt", "cli", "sdk"}, 3,
    {"mastra", "agent", "workflow", "tool", "memory"}, 2)

  function Weight(cfg: Config, token: string): nat {
    if token in cfg.boosted then cfg.boost else 1
  }

  /** What the scorer reads of a chunk: its normalized heading (`""` when it
      has none) and its normalized content. */
  datatype Doc = Doc(heading: string, body: string)

  function DocOf(heading: string, content: string): (d: Doc)
    ensures IsNormalized(d.heading) && IsNormalized(d.body)
  {
    NormalizeShape(heading);
    NormalizeShape(content);
    Doc(Normalize(heading), Normalize(content))
  }

  function Times(a: nat, b: nat): nat {
    a * b
  }

  /** `token_total`: weighted heading hits plus body hits, times the token's
      weight. */
  function TokenTotal(cfg: Config, doc: Doc, token: string): nat {
    var headingHits := CountWordPrefix(doc.heading, token);
    var bodyHits := CountWordPrefix(doc.body, token);
    Times(Times(cfg.headingWeight, headingHits) + bodyHits, Weight(cfg, token))
  }

  /** One entry of `matchedTokens`. */
  datatype Hit = Hit(token: string, count: nat)

  function HitTokens(hits: seq<Hit>): (r: seq<string>)
    ensures |r| == |hits|
    ensures forall k :: 0 <= k < |hits| ==> r[k] == hits[k].token
  {
    if |hits| == 0 then [] else [hits[0].token] + HitTokens(hits[1..])
  }

  /** `token_hits`: the query tokens with a positive total, in query order,
      each with its total. */
  function HitsOf(cfg: Config, doc: Doc, tokens: seq<string>): (r: seq<Hit>)
    ensures |r| <= |tokens|
    ensures forall k :: 0 <= k < |r| ==>
      r[k].token in tokens && r[k].count > 0 && r[k].count == TokenTotal(cfg, doc, r[k].token)
  {
    if |tokens| == 0 then []
    else
      var rest := HitsOf(cfg, doc, tokens[1..]);
      var n := TokenTotal(cfg, doc, tokens[0]);
      if n > 0 then [Hit(tokens[0], n)] + rest else rest
  }

  /** Every query token with a positive total is among the hits. */
  lemma {:induction false} HitsComplete(cfg: Config, doc: Doc, tokens: seq<string>, i: nat)
    requires i < |tokens| && TokenTotal(cfg, doc, tokens[i]) > 0
    ensures tokens[i] in HitTokens(HitsOf(cfg, doc, tokens))
    decreases |tokens|
  {
    var rest := HitsOf(cfg, doc, tokens[1..]);
    if TokenTotal(cfg, doc, tokens[0]) > 0 {
      assert HitTokens(HitsOf(cfg, doc, tokens)) == [tokens[0]] + HitTokens(rest);
    }
    if i > 0 {
      HitsComplete(cfg, doc, tokens[1..], i - 1);
    }
  }

  /** Distinct query tokens give distinct `matchedTokens` keys, so the
      number of hits is the number of distinct matched tokens. */
  lemma {:induction false} HitsDistinct(cfg: Config, doc: Doc, tokens: seq<string>)
    requires NoDups(tokens)
    ensures NoDups(HitTokens(HitsOf(cfg, doc, tokens)))
    decreases |tokens|
  {
    if |tokens| > 0 {
      var rest := HitsOf(cfg, doc, tokens[1..]);
      HitsDistinct(cfg, doc, tokens[1..]);
      if TokenTotal(cfg, doc, tokens[0]) > 0 {
        var ht := HitTokens(rest);
        assert HitTokens(HitsOf(cfg, doc, tokens)) == [tokens[0]] + ht;
        forall k | 0 <= k < |ht| ensures ht[k] != tokens[0] {
          assert ht[k] in tokens[1..];
          var m :| 0 <= m < |tokens[1..]| && tokens[1..][m] == ht[k];
          assert tokens[m + 1] != tokens[0];
        }
      }
    }
  }

  /** `chunk_score`, and the `matchCount` reported for it. */
  function Total(hits: seq<Hit>): nat {
    if |hits| == 0 then 0 else hits[0].count + Total(hits[1..])
  }

  /** The sum over all query tokens of their totals. */
  function SumTotals(cfg: Config, doc: Doc, tokens: seq<string>): nat {
    if |tokens| == 0 then 0 else TokenTotal(cfg, doc, tokens[0]) + SumTotals(cfg, doc, tokens[1..])
  }

  /** The score of a chunk is the sum of every query token's total: tokens
      left out of `matchedTokens` are exactly those that add nothing. */
  lemma {:induction false} ScoreIsSum(cfg: Config, doc: Doc, tokens: seq<string>)
    ensures Total(HitsOf(cfg, doc, tokens)) == SumTotals(cfg, doc, tokens)
    decreases |tokens|
  {
    if |tokens| > 0 {
      ScoreIsSum(cfg, doc, tokens[1..]);
    }
  }

  /** A chunk scores above zero exactly when some token hit it. */
  lemma {:induction false} TotalPositive(hits: seq<Hit>)
    requires forall k :: 0 <= k < |hits| ==> hits[k].count > 0
    ensures Total(hits) > 0 <==> |hits| > 0
  {
  }

  /** The chunks from `from` on that score above zero, in chunk order, each
      carrying its position, its hits, its score and its number of distinct
      matched tokens. */
  function ScoreFrom(cfg: Config, tokens: seq<string>, docs: seq<Doc>, from: nat): (r: seq<Ranked<seq<Hit>>>)
    requires from <= |docs|
    ensures PositionsIncrease(r)
    ensures forall k :: 0 <= k < |r| ==> from <= r[k].pos < |docs| && Scored(cfg, tokens, docs, r[k])
    decreases |docs| - from
  {
    if from == |docs| then []
    else
      var rest := ScoreFrom(cfg, tokens, docs, from + 1);
      var hits := HitsOf(cfg, docs[from], tokens);
      var score := Total(hits);
      if score > 0 then
        var e := Ranked(from, hits, score, |hits|);
        ScoreCons(cfg, tokens, docs, from, e, rest);
        [e] + rest
      else rest
  }

  lemma ScoreCons(cfg: Config, tokens: seq<string>, docs: seq<Doc>, from: nat,
                  e: Ranked<seq<Hit>>, rest: seq<Ranked<seq<Hit>>>)
    requires from < |docs| && e.pos == from && Scored(cfg, tokens, docs, e)
    requires PositionsIncrease(rest)
    requires forall k :: 0 <= k < |rest| ==> from + 1 <= rest[k].pos < |docs| && Scored(cfg, tokens, docs, rest[k])
    ensures PositionsIncrease([e] + rest)
    ensures forall k :: 0 <= k < |[e] + rest| ==>
              from <= ([e] + rest)[k].pos < |docs| && Scored(cfg, tokens, docs, ([e] + rest)[k])
  {
    var r := [e] + rest;
    assert forall k :: 1 <= k < |r| ==> r[k] == rest[k - 1];
  }

  /** `e` is the scored entry of the chunk at its position. */
  predicate Scored(cfg: Config, tokens: seq<string>, docs: seq<Doc>, e: Ranked<seq<Hit>>) {
    && e.pos < |docs|
    && e.item == HitsOf(cfg, docs[e.pos], tokens)
    && e.score == Total(e.item) > 0
    && e.breadth == |e.item|
  }

  /** Every chunk from `from` on with a positive score is kept. */
  lemma {:induction false} ScoreFromComplete(cfg: Config, tokens: seq<string>, docs: seq<Doc>, from: nat, i: nat)
    requires from <= i < |docs| && Total(HitsOf(cfg, docs[i], tokens)) > 0
    ensures i in Positions(ScoreFrom(cfg, tokens, docs, from))
    decreases |docs| - from
  {
    var r := ScoreFrom(cfg, tokens, docs, from);
    var rest := ScoreFrom(cfg, tokens, docs, from + 1);
    var kept := Total(HitsOf(cfg, docs[from], tokens)) > 0;
    if i == from {
      assert r[0].pos == i;
    } else {
      ScoreFromComplete(cfg, tokens, docs, from + 1, i);
      var k :| 0 <= k < |rest| && rest[k].pos == i;
      if kept {
        assert r[k + 1] == rest[k];
      } else {
        assert r[k] == rest[k];
      }
    }
  }

  /** The tokens a query searches for: none for an empty query, otherwise
      its de-duplicated tokens under the corpus's whitelist. */
  function QueryOf(cfg: Config, query: string): (r: seq<string>)
    ensures query == "" ==> r == []
    ensures NoDups(r)
  {
    if query == "" then [] else QueryTokens(query, cfg.whitelist)
  }

  /** The ranked chunks of a search before the limit applies: nothing when
      there are no tokens, otherwise the chunks with a positive score, sorted
      by score and then by number of matched tokens, descending, ties in
      chunk order. */
  function RankChunks(cfg: Config, tokens: seq<string>, docs: seq<Doc>): (r: seq<Ranked<seq<Hit>>>)
    ensures Ordered(r)
    ensures forall k :: 0 <= k < |r| ==> Scored(cfg, tokens, docs, r[k])
    ensures |tokens| == 0 ==> r == []
  {
    if |tokens| == 0 then []
    else
      var scored := ScoreFrom(cfg, tokens, docs, 0);
      var r := Rank(scored);
      assert forall k :: 0 <= k < |r| ==> r[k] in multiset(scored);
      r
  }

  /** A chunk is ranked exactly when it scores above zero. */
  lemma RankChunksComplete(cfg: Config, tokens: seq<string>, docs: seq<Doc>, i: nat)
    requires |tokens| > 0 && i < |docs|
    ensures i in Positions(RankChunks(cfg, tokens, docs)) <==> Total(HitsOf(cfg, docs[i], tokens)) > 0
  {
    if Total(HitsOf(cfg, docs[i], tokens)) > 0 {
      RankChunksKeeps(cfg, tokens, docs, i);
    }
    if i in Positions(RankChunks(cfg, tokens, docs)) {
      RankChunksScored(cfg, tokens, docs, i);
    }
  }

  lemma RankChunksKeeps(cfg: Config, tokens: seq<string>, docs: seq<Doc>, i: nat)
    requires |tokens| > 0 && i < |docs| && Total(HitsOf(cfg, docs[i], tokens)) > 0
    ensures i in Positions(RankChunks(cfg, tokens, docs))
  {
    var scored := ScoreFrom(cfg, tokens, docs, 0);
    var r := RankChunks(cfg, tokens, docs);
    assert r == Rank(scored);
    ScoreFromComplete(cfg, tokens, docs, 0, i);
    var k :| 0 <= k < |scored| && scored[k].pos == i;
    RankKeepsPosition(scored, k);
  }

  lemma RankChunksScored(cfg: Config, tokens: seq<string>, docs: seq<Doc>, i: nat)
    requires i in Positions(RankChunks(cfg, tokens, docs))
    ensures i < |docs| && Total(HitsOf(cfg, docs[i], tokens)) > 0
  {
    var r := RankChunks(cfg, tokens, docs);
    var m :| 0 <= m < |r| && r[m].pos == i;
    assert Scored(cfg, tokens, docs, r[m]);
  }

  /** Where a chunk with a positive score stands in the ranking, with its
      score and number of matched tokens. */
  lemma RankedEntry(cfg: Config, tokens: seq<string>, docs: seq<Doc>, p: nat) returns (m: nat)
    requires p < |docs| && Total(HitsOf(cfg, docs[p], tokens)) > 0
    ensures m < |RankChunks(cfg, tokens, docs)|
    ensures RankChunks(cfg, tokens, docs)[m].pos == p
    ensures RankChunks(cfg, tokens, docs)[m].score == Total(HitsOf(cfg, docs[p], tokens))
    ensures RankChunks(cfg, tokens, docs)[m].breadth == |HitsOf(cfg, docs[p], tokens)|
  {
    var ranked := RankChunks(cfg, tokens, docs);
    assert |tokens| > 0;
    RankChunksComplete(cfg, tokens, docs, p);
    m :| 0 <= m < |ranked| && ranked[m].pos == p;
    assert Scored(cfg, tokens, docs, ranked[m]);
  }
}

=== FILE: seqs.dfy ===
/** Sequence helpers shared by the model: optional values, order-preserving
    de-duplication, Python slicing, and sorting a collection of strings into
    a duplicate-free ascending list. */
module Seqs {

  datatype Option<+T> = None | Some(value: T) {
    function GetOr(default: T): T {
      match this
      case Some(v) => v
      case None => default
    }
  }

  predicate NoDups<T(==)>(s: seq<T>) {
    forall i, j :: 0 <= i < j < |s| ==> s[i] != s[j]
  }

  lemma ConsNoDups<T>(x: T, s: seq<T>)
    requires NoDups(s) && x !in s
    ensures NoDups([x] + s)
  {
    var r := [x] + s;
    forall i, j | 0 <= i < j < |r| ensures r[i] != r[j] {
      assert r[j] == s[j - 1];
      if i > 0 { assert r[i] == s[i - 1]; }
    }
  }

  predicate StrictlyIncreasing(s: seq<int>) {
    forall i, j :: 0 <= i < j < |s| ==> s[i] < s[j]
  }

  predicate NonDecreasing(s: seq<int>) {
    forall i, j :: 0 <= i < j < |s| ==> s[i] <= s[j]
  }

  /** `dict.fromkeys` / a seen-set loop: the elements of `s` not in `seen`,
      each at its first occurrence. */
  function DedupFrom<T(==)>(s: seq<T>, seen: set<T>): (r: seq<T>)
    ensures forall i :: 0 <= i < |r| ==> r[i] in s && r[i] !in seen
    ensures forall i :: 0 <= i < |s| ==> s[i] in r || s[i] in seen
    ensures NoDups(r)
    ensures |r| <= |s|
  {
    if |s| == 0 then []
    else if s[0] in seen then DedupFrom(s[1..], seen)
    else
      var rest := DedupFrom(s[1..], seen + {s[0]});
      assert forall i :: 0 <= i < |rest| ==> rest[i] != s[0];
      [s[0]] + rest
  }

  function Dedup<T(==)>(s: seq<T>): (r: seq<T>)
    ensures forall i :: 0 <= i < |r| ==> r[i] in s
    ensures forall i :: 0 <= i < |s| ==> s[i] in r
    ensures NoDups(r)
    ensures |r| <= |s|
  {
    DedupFrom(s, {})
  }

  lemma {:induction false} DedupFromSnoc<T>(s: seq<T>, seen: set<T>, x: T)
    ensures DedupFrom(s + [x], seen)
         == DedupFrom(s, seen) + (if x in s || x in seen then [] else [x])
    decreases |s|
  {
    if |s| == 0 {
      assert s + [x] == [x];
    } else {
      assert (s + [x])[0] == s[0];
      assert (s + [x])[1..] == s[1..] + [x];
      if s[0] in seen {
        DedupFromSnoc(s[1..], seen, x);
      } else {
        DedupFromSnoc(s[1..], seen + {s[0]}, x);
      }
    }
  }

  /** First-occurrence order: appending an element keeps the de-duplicated
      prefix and adds the element at the end exactly when it is new. With
      `Dedup([]) == []` this determines `Dedup` completely. */
  lemma DedupSnoc<T>(s: seq<T>, x: T)
    ensures Dedup(s + [x]) == Dedup(s) + (if x in s then [] else [x])
  {
    DedupFromSnoc(s, {}, x);
  }

  /** De-duplicating a non-decreasing sequence yields a strictly increasing one. */
  lemma {:induction false} DedupFromSorted(s: seq<int>, seen: set<int>)
    requires NonDecreasing(s)
    ensures StrictlyIncreasing(DedupFrom(s, seen))
    decreases |s|
  {
    if |s| > 0 {
      DedupFromSorted(s[1..], seen);
      DedupFromSorted(s[1..], seen + {s[0]});
      if s[0] !in seen {
        var rest := DedupFrom(s[1..], seen + {s[0]});
        forall y | y in rest
          ensures s[0] < y
        {
          var k :| 0 <= k < |s[1..]| && s[1..][k] == y;
          assert s[0] <= s[k + 1];
        }
      }
    }
  }

  lemma DedupSorted(s: seq<int>)
    requires NonDecreasing(s)
    ensures StrictlyIncreasing(Dedup(s))
  {
    DedupFromSorted(s, {});
  }

  /** De-duplicating a list that has no duplicates changes nothing. */
  lemma {:induction false} DedupFromNoDups<T>(s: seq<T>, seen: set<T>)
    requires NoDups(s)
    requires forall i :: 0 <= i < |s| ==> s[i] !in seen
    ensures DedupFrom(s, seen) == s
    decreases |s|
  {
    if |s| > 0 {
      DedupFromNoDups(s[1..], seen + {s[0]});
    }
  }

  lemma DedupNoDups<T>(s: seq<T>)
    requires NoDups(s)
    ensures Dedup(s) == s
  {
    DedupFromNoDups(s, {});
  }

  /** `a` is `b` with some elements left out, the rest in their order. */
  predicate Subsequence<T(==)>(a: seq<T>, b: seq<T>)
    decreases |b|
  {
    |a| == 0 || (|b| > 0 && ((a[0] == b[0] && Subsequence(a[1..], b[1..])) || Subsequence(a, b[1..])))
  }

  /** A list comprehension `[x for x in s if keep(x)]`. */
  function Filter<T(==)>(s: seq<T>, keep: T -> bool): (r: seq<T>)
    ensures |r| <= |s|
    ensures forall i :: 0 <= i < |r| ==> r[i] in s && keep(r[i])
    ensures forall i :: 0 <= i < |s| && keep(s[i]) ==> s[i] in r
    ensures Subsequence(r, s)
  {
    if |s| == 0 then []
    else if keep(s[0]) then
      var rest := Filter(s[1..], keep);
      assert ([s[0]] + rest)[1..] == rest;
      [s[0]] + rest
    else Filter(s[1..], keep)
  }

  lemma {:induction false} FilterNoDups<T>(s: seq<T>, keep: T -> bool)
    requires NoDups(s)
    ensures NoDups(Filter(s, keep))
    decreases |s|
  {
    if |s| > 0 {
      FilterNoDups(s[1..], keep);
      assert s[0] !in s[1..] by {
        forall j | 0 <= j < |s[1..]| ensures s[1..][j] != s[0] {
          assert s[j + 1] != s[0];
        }
      }
    }
  }

  /** A filter that keeps every element changes nothing. */
  lemma {:induction false} FilterAll<T>(s: seq<T>, keep: T -> bool)
    requires forall i :: 0 <= i < |s| ==> keep(s[i])
    ensures Filter(s, keep) == s
    decreases |s|
  {
    if |s| > 0 {
      assert forall i :: 0 <= i < |s[1..]| ==> keep(s[1..][i]) by {
        forall i | 0 <= i < |s[1..]| ensures keep(s[1..][i]) {
          assert s[1..][i] == s[i + 1];
        }
      }
      FilterAll(s[1..], keep);
      assert s == [s[0]] + s[1..];
    }
  }

  /** `sum(1 for x in s if p(x))`. */
  function Count<T>(s: seq<T>, p: T -> bool): (n: nat)
    ensures n <= |s|
    ensures n > 0 <==> exists k :: 0 <= k < |s| && p(s[k])
    ensures n == |s| <==> forall k :: 0 <= k < |s| ==> p(s[k])
  {
    if |s| == 0 then 0
    else
      var rest := Count(s[1..], p);
      assert forall k :: 1 <= k < |s| ==> s[k] == s[1..][k - 1];
      (if p(s[0]) then 1 else 0) + rest
  }

  /** The comprehension keeps exactly as many elements as satisfy its test. */
  lemma {:induction false} FilterCount<T>(s: seq<T>, keep: T -> bool)
    ensures |Filter(s, keep)| == Count(s, keep)
    decreases |s|
  {
    if |s| > 0 {
      FilterCount(s[1..], keep);
    }
  }

  /** A kept element lands at the position given by how many kept elements
      precede it. */
  lemma {:induction false} FilterAt<T>(s: seq<T>, keep: T -> bool, i: nat)
    requires i < |s| && keep(s[i])
    ensures Count(s[..i], keep) < |Filter(s, keep)|
    ensures Filter(s, keep)[Count(s[..i], keep)] == s[i]
    decreases i
  {
    if i == 0 {
      assert s[..0] == [];
    } else {
      FilterAt(s[1..], keep, i - 1);
      assert s[1..][i - 1] == s[i];
      assert s[..i][0] == s[0];
      assert s[..i][1..] == s[1..][..i - 1];
    }
  }

  /** Python's `s[:n]` for `n >= 0` after clamping with `max(0, n)`. */
  lemma TakeSnoc<T>(s: seq<T>, k: nat)
    requires 0 < k <= |s|
    ensures s[..k] == s[..k - 1] + [s[k - 1]]
  {
  }

  lemma TakeDrop<T>(s: seq<T>, k: nat)
    requires k <= |s|
    ensures s[..k] + s[k..] == s
  {
  }

  lemma DropOne<T>(s: seq<T>, k: nat)
    requires k < |s|
    ensures s[k..][0] == s[k] && s[k..][1..] == s[k + 1..]
  {
  }

  lemma DropAppend<T>(a: seq<T>, b: seq<T>)
    requires |a| > 0
    ensures (a + b)[0] == a[0] && (a + b)[1..] == a[1..] + b
  {
  }

  lemma SplitAround<T>(s: seq<T>, k: nat)
    requires k < |s|
    ensures s == s[..k] + ([s[k]] + s[k + 1..])
  {
  }

  /** The indices at or after `from` where `f` holds, in increasing order. */
  function TruePositions(f: seq<bool>, from: nat): (r: seq<nat>)
    requires from <= |f|
    ensures forall k :: 0 <= k < |r| ==> from <= r[k] < |f| && f[r[k]]
    ensures forall i :: from <= i < |f| && f[i] ==> i in r
    ensures StrictlyIncreasing(r)
    decreases |f| - from
  {
    if from == |f| then []
    else
      var rest := TruePositions(f, from + 1);
      if f[from] then
        var r := [from] + rest;
        assert forall k :: 1 <= k < |r| ==> r[k] == rest[k - 1];
        r
      else rest
  }

  /** The number of indices at or after `from` where `f` holds. */
  function CountTrue(f: seq<bool>, from: nat): (n: nat)
    requires from <= |f|
    decreases |f| - from
  {
    if from == |f| then 0 else (if f[from] then 1 else 0) + CountTrue(f, from + 1)
  }

  /** Counting the true indices is listing them and taking the length. */
  lemma {:induction false} CountTruePositions(f: seq<bool>, from: nat)
    requires from <= |f|
    ensures CountTrue(f, from) == |TruePositions(f, from)|
    decreases |f| - from
  {
    if from < |f| {
      CountTruePositions(f, from + 1);
    }
  }

  /** Indices where `f` is false do not count. */
  lemma {:induction false} CountTrueSkip(f: seq<bool>, from: nat, end: nat)
    requires from <= end <= |f|
    requires forall i :: from <= i < end ==> !f[i]
    ensures CountTrue(f, from) == CountTrue(f, end)
    decreases end - from
  {
    if from < end {
      CountTrueSkip(f, from + 1, end);
    }
  }

  /** Two flag lists that agree past an offset have as many true indices
      there. */
  lemma {:induction false} CountTrueShift(f: seq<bool>, g: seq<bool>, k: nat, j: nat)
    requires |f| == k + |g| && j <= |g|
    requires forall i :: j <= i < |g| ==> f[k + i] == g[i]
    ensures CountTrue(f, k + j) == CountTrue(g, j)
    decreases |g| - j
  {
    if j < |g| {
      CountTrueShift(f, g, k, j + 1);
    }
  }

  /** Counting from the start when only the first index can hold before
      `w`, and `w` does not. */
  lemma CountTrueSplit(f: seq<bool>, w: nat)
    requires 0 < w <= |f|
    requires forall i :: 1 <= i < w ==> !f[i]
    requires w < |f| ==> !f[w]
    ensures CountTrue(f, 0) == (if f[0] then 1 else 0) + (if w < |f| then CountTrue(f, w + 1) else 0)
  {
    CountTrueSkip(f, 1, w);
  }

  function Take<T>(s: seq<T>, n: int): (r: seq<T>)
    ensures |r| <= |s| && r == s[..|r|]
    ensures |r| <= if n < 0 then 0 else n
    ensures n >= 0 && n <= |s| ==> |r| == n
    ensures n > |s| ==> r == s
  {
    if n <= 0 then [] else if n >= |s| then s else s[..n]
  }

  /** A prefix of a subsequence is a subsequence. */
  lemma {:induction false} SubsequenceTake<T>(a: seq<T>, b: seq<T>, n: int)
    requires Subsequence(a, b)
    ensures Subsequence(Take(a, n), b)
    decreases |b|
  {
    var t := Take(a, n);
    if |t| > 0 && t != a {
      if a[0] == b[0] && Subsequence(a[1..], b[1..]) {
        SubsequenceTake(a[1..], b[1..], n - 1);
        assert t[1..] == Take(a[1..], n - 1);
      } else {
        SubsequenceTake(a, b[1..], n);
      }
    }
  }

  /** Python's `s[:n]` for any `n`: a negative `n` counts from the end. */
  function PySliceTo<T>(s: seq<T>, n: int): (r: seq<T>)
    ensures |r| <= |s| && r == s[..|r|]
    ensures n >= 0 ==> r == Take(s, n)
    ensures n < 0 ==> |r| == if |s| + n > 0 then |s| + n else 0
  {
    if n >= 0 then Take(s, n)
    else if |s| + n > 0 then s[..|s| + n]
    else []
  }

  function Sum(s: seq<nat>): nat {
    if |s| == 0 then 0 else s[0] + Sum(s[1..])
  }

  function Min(s: seq<int>): (m: int)
    requires |s| > 0
    ensures m in s
    ensures forall x :: x in s ==> m <= x
  {
    if |s| == 1 then s[0]
    else
      var m := Min(s[1..]);
      assert forall x :: x in s ==> x == s[0] || x in s[1..];
      if s[0] <= m then s[0] else m
  }

  function Max(s: seq<int>): (m: int)
    requires |s| > 0
    ensures m in s
    ensures forall x :: x in s ==> x <= m
  {
    if |s| == 1 then s[0]
    else
      var m := Max(s[1..]);
      assert forall x :: x in s ==> x == s[0] || x in s[1..];
      if s[0] >= m then s[0] else m
  }

  /** Python's ordering of strings: lexicographic by code point, a proper
      prefix first. */
  predicate StrLess(a: string, b: string)
    decreases |a|
  {
    if |a| == 0 then |b| > 0
    else if |b| == 0 then false
    else if a[0] != b[0] then a[0] < b[0]
    else StrLess(a[1..], b[1..])
  }

  lemma {:induction false} StrLessIrreflexive(a: string)
    ensures !StrLess(a, a)
    decreases |a|
  {
    if |a| > 0 {
      StrLessIrreflexive(a[1..]);
    }
  }

  lemma {:induction false} StrLessTransitive(a: string, b: string, c: string)
    requires StrLess(a, b) && StrLess(b, c)
    ensures StrLess(a, c)
    decreases |a|
  {
    if |a| > 0 && a[0] == b[0] && b[0] == c[0] {
      StrLessTransitive(a[1..], b[1..], c[1..]);
    }
  }

  lemma {:induction false} StrLessTotal(a: string, b: string)
    ensures a == b || StrLess(a, b) || StrLess(b, a)
    decreases |a|
  {
    if |a| > 0 && |b| > 0 && a[0] == b[0] {
      StrLessTotal(a[1..], b[1..]);
      if a[1..] == b[1..] {
        assert a == [a[0]] + a[1..] && b == [b[0]] + b[1..];
      }
    }
  }

  predicate StrictlySorted(s: seq<string>) {
    forall i, j :: 0 <= i < j < |s| ==> StrLess(s[i], s[j])
  }

  /** Inserts `x` into a strictly ascending list, unless it is already there. */
  function InsertString(x: string, s: seq<string>): (r: seq<string>)
    requires StrictlySorted(s)
    ensures forall y :: y in r <==> y == x || y in s
    ensures StrictlySorted(r)
  {
    if |s| == 0 then [x]
    else if x == s[0] then s
    else if StrLess(x, s[0]) then
      assert forall j :: 0 <= j < |s| ==> StrLess(x, s[j]) by {
        forall j | 0 <= j < |s| ensures StrLess(x, s[j]) {
          if j > 0 { StrLessTransitive(x, s[0], s[j]); }
        }
      }
      [x] + s
    else
      StrLessTotal(x, s[0]);
      var rest := InsertString(x, s[1..]);
      assert forall y :: y in rest ==> StrLess(s[0], y);
      [s[0]] + rest
  }

  /** Python's `sorted(set(xs))` on strings. */
  function SortedSet(xs: seq<string>): (r: seq<string>)
    ensures forall y :: y in r <==> y in xs
    ensures StrictlySorted(r)
    ensures NoDups(r)
  {
    if |xs| == 0 then []
    else
      var r := InsertString(xs[0], SortedSet(xs[1..]));
      forall i, j | 0 <= i < j < |r| ensures r[i] != r[j] {
        if r[i] == r[j] { StrLessIrreflexive(r[i]); }
      }
      r
  }
}

=== FILE: specialist.dfy ===
/** What the spells and context specialists share: the result filter that
    puts relevant documentation results first (ranked by how many search
    terms they mention), the error-keyword extractor, and the related-topic
    list. */
module Specialist {
  import opened Strings
  import opened Seqs
  import opened Ranking

  /** A documentation search result as the filters read it. */
  datatype Hit = Hit(content: Option<string>, heading: Option<string>)

  /** An output result: the input result at position `pos` (the same object
      in the source), with the relevance the filter records on relevant
      results. */
  datatype Tagged<T> = Tagged(pos: nat, item: T, relevance: Option<nat>)

  const RelevantCap := 7
  const OtherCap := 3
  const KeywordCap := 5
  const TopicCap := 5

  /** Lower-cased content, a space, and the lower-cased heading; a missing
      or empty field reads as "". */
  function Haystack(h: Hit): string {
    Lower(h.content.GetOr("") + " " + h.heading.GetOr(""))
  }

  /** How many entries of the term list occur, lower-cased, in the result's
      haystack; a term listed twice counts twice. */
  function Relevance(terms: seq<string>, h: Hit): (n: nat)
    ensures n <= |terms|
    ensures n > 0 <==> exists k :: 0 <= k < |terms| && Contains(Haystack(h), Lower(terms[k]))
  {
    Count(terms, t => Contains(Haystack(h), Lower(t)))
  }

  function Relevances(terms: seq<string>, results: seq<Hit>): (r: seq<nat>)
    ensures |r| == |results|
    ensures forall i :: 0 <= i < |r| ==> r[i] == Relevance(terms, results[i])
  {
    seq(|results|, i requires 0 <= i < |results| => Relevance(terms, results[i]))
  }

  /** The positions (index plus `from`) whose score is 0, ascending. */
  function ZeroPositions(scores: seq<nat>, from: nat): (r: seq<nat>)
    ensures forall k :: 0 <= k < |r| ==> from <= r[k] < from + |scores| && scores[r[k] - from] == 0
    ensures forall i, j :: 0 <= i < j < |r| ==> r[i] < r[j]
    decreases |scores|
  {
    if |scores| == 0 then []
    else
      var rest := ZeroPositions(scores[1..], from + 1);
      if scores[0] == 0 then [from] + rest else rest
  }

  lemma {:induction false} ZeroPositionsComplete(scores: seq<nat>, from: nat, i: nat) returns (k: nat)
    requires i < |scores| && scores[i] == 0
    ensures k < |ZeroPositions(scores, from)| && ZeroPositions(scores, from)[k] == from + i
    decreases |scores|
  {
    if i == 0 {
      k := 0;
    } else {
      var j := ZeroPositionsComplete(scores[1..], from + 1, i - 1);
      k := if scores[0] == 0 then j + 1 else j;
    }
  }

  function TagRelevant<T>(ranked: seq<Ranked<T>>): (r: seq<Tagged<T>>)
    ensures |r| == |ranked|
    ensures forall k :: 0 <= k < |r| ==> r[k] == Tagged(ranked[k].pos, ranked[k].item, Some(ranked[k].score))
  {
    seq(|ranked|, k requires 0 <= k < |ranked| => Tagged(ranked[k].pos, ranked[k].item, Some(ranked[k].score)))
  }

  function TagOthers<T>(items: seq<T>, ps: seq<nat>): (r: seq<Tagged<T>>)
    requires forall k :: 0 <= k < |ps| ==> ps[k] < |items|
    ensures |r| == |ps|
    ensures forall k :: 0 <= k < |r| ==> r[k] == Tagged(ps[k], items[ps[k]], None)
  {
    seq(|ps|, k requires 0 <= k < |ps| => Tagged(ps[k], items[ps[k]], None))
  }

  /** The two parts of the filter's output. */
  function RelevantPart<T>(items: seq<T>, scores: seq<nat>): (r: seq<Ranked<T>>)
    requires |scores| == |items|
    ensures |r| <= RelevantCap && Ordered(r)
    ensures forall k :: 0 <= k < |r| ==>
              r[k].pos < |items| && r[k].item == items[r[k].pos] && r[k].score == scores[r[k].pos] > 0
  {
    RankPositiveEntries(items, scores);
    Take(Rank(Positive(items, scores, 0)), RelevantCap)
  }

  function OtherPart(scores: seq<nat>): (r: seq<nat>)
    ensures |r| <= OtherCap
    ensures forall k :: 0 <= k < |r| ==> r[k] < |scores| && scores[r[k]] == 0
    ensures forall i, j :: 0 <= i < j < |r| ==> r[i] < r[j]
  {
    Take(ZeroPositions(scores, 0), OtherCap)
  }

  /** What the filter promises of its output over scored items: at most
      ten entries, each standing for the input item at its position;
      relevant entries (tagged with their positive score) among the first
      seven, ahead of the irrelevant ones, by score descending and ties in
      input order; the irrelevant entries (score 0) among the last three,
      in input order. */
  ghost predicate FilterShape<T>(items: seq<T>, scores: seq<nat>, r: seq<Tagged<T>>)
    requires |scores| == |items|
  {
    |r| <= RelevantCap + OtherCap
    && (forall k :: 0 <= k < |r| ==> r[k].pos < |items| && r[k].item == items[r[k].pos])
    && (forall k :: 0 <= k < |r| && r[k].relevance.Some? ==>
          r[k].relevance.value == scores[r[k].pos] > 0 && k < RelevantCap)
    && (forall k :: 0 <= k < |r| && r[k].relevance.None? ==>
          scores[r[k].pos] == 0 && |r| - k <= OtherCap)
    && (forall i, j :: 0 <= i < j < |r| && r[j].relevance.Some? ==> r[i].relevance.Some?)
    && (forall i, j :: 0 <= i < j < |r| && r[i].relevance.Some? && r[j].relevance.Some? ==>
          r[i].relevance.value > r[j].relevance.value
          || (r[i].relevance.value == r[j].relevance.value && r[i].pos < r[j].pos))
    && (forall i, j :: 0 <= i < j < |r| && r[i].relevance.None? && r[j].relevance.None? ==>
          r[i].pos < r[j].pos)
  }

  /** The filter over scored results: the relevant results (score > 0),
      stably sorted by score descending, at most seven, each tagged with its
      score; then the first three other results, in input order. */
  function Partition<T>(items: seq<T>, scores: seq<nat>): (r: seq<Tagged<T>>)
    requires |scores| == |items|
    ensures FilterShape(items, scores, r)
  {
    var a := TagRelevant(RelevantPart(items, scores));
    var b := TagOthers(items, OtherPart(scores));
    RelevantTagged(items, scores);
    ConcatShape(items, scores, a, b);
    a + b
  }

  /** The tagged relevant part: at most seven entries, each tagged with its
      positive score, by score descending and ties in input order. */
  lemma RelevantTagged<T>(items: seq<T>, scores: seq<nat>)
    requires |scores| == |items|
    ensures var a := TagRelevant(RelevantPart(items, scores));
            |a| <= RelevantCap
            && (forall k :: 0 <= k < |a| ==>
                  a[k].pos < |items| && a[k].item == items[a[k].pos]
                  && a[k].relevance == Some(scores[a[k].pos]) && scores[a[k].pos] > 0)
            && (forall i, j :: 0 <= i < j < |a| ==>
                  scores[a[i].pos] > scores[a[j].pos] || (scores[a[i].pos] == scores[a[j].pos] && a[i].pos < a[j].pos))
  {
    var relevant := RelevantPart(items, scores);
    forall i, j | 0 <= i < j < |relevant|
      ensures relevant[i].score > relevant[j].score
              || (relevant[i].score == relevant[j].score && relevant[i].pos < relevant[j].pos)
    {
      assert Ahead(relevant[i], relevant[j]);
      assert relevant[i].breadth == relevant[j].breadth == 0 by {
        RankPositiveEntries(items, scores);
      }
    }
  }

  lemma ConcatShape<T>(items: seq<T>, scores: seq<nat>, a: seq<Tagged<T>>, b: seq<Tagged<T>>)
    requires |scores| == |items|
    requires |a| <= RelevantCap
    requires forall k :: 0 <= k < |a| ==>
               a[k].pos < |items| && a[k].item == items[a[k].pos]
               && a[k].relevance == Some(scores[a[k].pos]) && scores[a[k].pos] > 0
    requires forall i, j :: 0 <= i < j < |a| ==>
               scores[a[i].pos] > scores[a[j].pos] || (scores[a[i].pos] == scores[a[j].pos] && a[i].pos < a[j].pos)
    requires |b| <= OtherCap
    requires forall k :: 0 <= k < |b| ==>
               b[k].pos < |items| && b[k].item == items[b[k].pos] && b[k].relevance.None? && scores[b[k].pos] == 0
    requires forall i, j :: 0 <= i < j < |b| ==> b[i].pos < b[j].pos
    ensures FilterShape(items, scores, a + b)
  {
    var r := a + b;
    assert forall k :: 0 <= k < |a| ==> r[k] == a[k];
    assert forall k :: |a| <= k < |r| ==> r[k] == b[k - |a|];
  }

  /** No output entry stands for the input result at position `p`. */
  predicate Dropped<T>(r: seq<Tagged<T>>, p: nat) {
    forall k :: 0 <= k < |r| ==> r[k].pos != p
  }

  /** The first seven output entries are relevant and rank ahead of a
      result at position `p` with relevance `score`: more relevant, or as
      relevant and earlier in the input. */
  predicate SevenAhead<T>(r: seq<Tagged<T>>, p: nat, score: nat) {
    |r| >= RelevantCap
    && forall k :: 0 <= k < RelevantCap ==>
         r[k].relevance.Some?
         && (r[k].relevance.value > score || (r[k].relevance.value == score && r[k].pos < p))
  }

  /** The last three output entries are irrelevant results from before
      position `p`. */
  predicate ThreeBefore<T>(r: seq<Tagged<T>>, p: nat) {
    |r| >= OtherCap
    && forall k :: |r| - OtherCap <= k < |r| ==> r[k].relevance.None? && r[k].pos < p
  }

  /** A relevant result missing from the output lost to seven relevant
      results, each ranked ahead of it. */
  lemma RelevantKeepsBest<T>(items: seq<T>, scores: seq<nat>, p: nat)
    requires |scores| == |items| && p < |items| && scores[p] > 0
    requires Dropped(Partition(items, scores), p)
    ensures SevenAhead(Partition(items, scores), p, scores[p])
  {
    var r := Partition(items, scores);
    var relevant := RelevantPart(items, scores);
    assert r == TagRelevant(relevant) + TagOthers(items, OtherPart(scores));
    RankPositiveEntries(items, scores);
    var all := Rank(Positive(items, scores, 0));
    assert relevant == Take(all, RelevantCap);
    var m := RankPositiveComplete(items, scores, p);
    forall k | 0 <= k < |relevant| ensures all[k].pos != all[m].pos {
      assert r[k].pos == relevant[k].pos;
    }
    PrefixKeepsBest(all, |relevant|, m);
    forall k | 0 <= k < RelevantCap
      ensures r[k].relevance.Some?
      ensures r[k].relevance.value > scores[p] || (r[k].relevance.value == scores[p] && r[k].pos < p)
    {
      assert Ahead(all[k], all[m]);
    }
  }

  /** Another result missing from the output lost to three other results
      that come before it in the input. */
  lemma OtherKeepsFirst<T>(items: seq<T>, scores: seq<nat>, p: nat)
    requires |scores| == |items| && p < |items| && scores[p] == 0
    requires Dropped(Partition(items, scores), p)
    ensures ThreeBefore(Partition(items, scores), p)
  {
    var r := Partition(items, scores);
    var relevant := TagRelevant(RelevantPart(items, scores));
    var others := OtherPart(scores);
    var tagged := TagOthers(items, others);
    assert r == relevant + tagged;
    forall k | 0 <= k < |others| ensures others[k] != p {
      assert r[|relevant| + k] == tagged[k];
    }
    FirstZerosBefore(scores, p);
    TailBefore(relevant, tagged, p);
  }

  /** When position `p` holds a zero score missing from the other part,
      the other part is full and every position in it is before `p`. */
  lemma FirstZerosBefore(scores: seq<nat>, p: nat)
    requires p < |scores| && scores[p] == 0
    requires forall k :: 0 <= k < |OtherPart(scores)| ==> OtherPart(scores)[k] != p
    ensures |OtherPart(scores)| == OtherCap
    ensures forall k :: 0 <= k < OtherCap ==> OtherPart(scores)[k] < p
  {
    var zeros := ZeroPositions(scores, 0);
    var others := OtherPart(scores);
    assert others == Take(zeros, OtherCap);
    var m := ZeroPositionsComplete(scores, 0, p);
    forall k | 0 <= k < |others| ensures others[k] == zeros[k] != p {
    }
    assert m >= |others|;
    forall k | 0 <= k < |others| ensures others[k] < p {
      assert zeros[k] < zeros[m];
    }
  }

  lemma TailBefore<T>(relevant: seq<Tagged<T>>, tagged: seq<Tagged<T>>, p: nat)
    requires |tagged| == OtherCap
    requires forall k :: 0 <= k < |tagged| ==> tagged[k].relevance.None? && tagged[k].pos < p
    ensures ThreeBefore(relevant + tagged, p)
  {
    var r := relevant + tagged;
    forall k | |r| - OtherCap <= k < |r| ensures r[k].relevance.None? && r[k].pos < p {
      assert r[k] == tagged[k - |relevant|];
    }
  }

  /** The result filter over a term list: each result's relevance is the
      number of terms its haystack mentions, and the relevant results come
      first, best first. */
  function FilterHits(terms: seq<string>, results: seq<Hit>): (r: seq<Tagged<Hit>>)
    ensures |r| <= RelevantCap + OtherCap
    ensures forall k :: 0 <= k < |r| ==> r[k].pos < |results| && r[k].item == results[r[k].pos]
  {
    var scores := Relevances(terms, results);
    Partition(results, scores)
  }

  lemma FilterHitsIsPartition(terms: seq<string>, results: seq<Hit>)
    ensures FilterHits(terms, results) == Partition(results, Relevances(terms, results))
  {
  }

  /** A kept result is tagged with its relevance exactly when it has some. */
  lemma FilterHitsTags(terms: seq<string>, results: seq<Hit>, k: nat)
    requires k < |FilterHits(terms, results)|
    ensures FilterHits(terms, results)[k].relevance.Some? ==>
              FilterHits(terms, results)[k].relevance.value
              == Relevance(terms, results[FilterHits(terms, results)[k].pos]) > 0
    ensures FilterHits(terms, results)[k].relevance.None? ==>
              Relevance(terms, results[FilterHits(terms, results)[k].pos]) == 0
  {
    var scores := Relevances(terms, results);
    FilterHitsIsPartition(terms, results);
    PartitionTags(results, scores, k);
    var i := FilterHits(terms, results)[k].pos;
    assert scores[i] == Relevance(terms, results[i]);
  }

  lemma PartitionTags<T>(items: seq<T>, scores: seq<nat>, k: nat)
    requires |scores| == |items| && k < |Partition(items, scores)|
    ensures Partition(items, scores)[k].pos < |items|
    ensures Partition(items, scores)[k].relevance.Some? ==>
              Partition(items, scores)[k].relevance.value == scores[Partition(items, scores)[k].pos] > 0
    ensures Partition(items, scores)[k].relevance.None? ==> scores[Partition(items, scores)[k].pos] == 0
  {
  }

  /** A kept result whose haystack mentions one of the terms is tagged as
      relevant. */
  lemma MentionedTermIsRelevant(terms: seq<string>, results: seq<Hit>, k: nat, t: nat)
    requires k < |FilterHits(terms, results)| && t < |terms|
    requires Contains(Haystack(results[FilterHits(terms, results)[k].pos]), Lower(terms[t]))
    ensures FilterHits(terms, results)[k].relevance.Some?
  {
    FilterHitsTags(terms, results, k);
  }

  /** Relevant results come first, in order of relevance, ties in input
      order; the irrelevant ones follow in input order. */
  lemma FilterHitsOrder(terms: seq<string>, results: seq<Hit>, i: nat, j: nat)
    requires i < j < |FilterHits(terms, results)|
    ensures FilterHits(terms, results)[j].relevance.Some? ==> FilterHits(terms, results)[i].relevance.Some?
    ensures FilterHits(terms, results)[i].relevance.Some? && FilterHits(terms, results)[j].relevance.Some? ==>
              FilterHits(terms, results)[i].relevance.value > FilterHits(terms, results)[j].relevance.value
              || (FilterHits(terms, results)[i].relevance.value == FilterHits(terms, results)[j].relevance.value
                  && FilterHits(terms, results)[i].pos < FilterHits(terms, results)[j].pos)
    ensures FilterHits(terms, results)[i].relevance.None? && FilterHits(terms, results)[j].relevance.None? ==>
              FilterHits(terms, results)[i].pos < FilterHits(terms, results)[j].pos
  {
    FilterHitsIsPartition(terms, results);
  }

  /** A relevant result the filter drops lost to seven results that rank
      ahead of it: more relevant, or as relevant and earlier in the input. */
  lemma FilterKeepsBest(terms: seq<string>, results: seq<Hit>, p: nat)
    requires p < |results| && Relevance(terms, results[p]) > 0
    requires Dropped(FilterHits(terms, results), p)
    ensures SevenAhead(FilterHits(terms, results), p, Relevance(terms, results[p]))
  {
    var scores := Relevances(terms, results);
    FilterHitsIsPartition(terms, results);
    RelevantKeepsBest(results, scores, p);
  }

  /** An irrelevant result the filter drops comes after the three irrelevant
      results it keeps. */
  lemma FilterKeepsFirst(terms: seq<string>, results: seq<Hit>, p: nat)
    requires p < |results| && Relevance(terms, results[p]) == 0
    requires Dropped(FilterHits(terms, results), p)
    ensures ThreeBefore(FilterHits(terms, results), p)
  {
    var scores := Relevances(terms, results);
    FilterHitsIsPartition(terms, results);
    OtherKeepsFirst(results, scores, p);
  }

  /** The extractor's test on a word: longer than three characters and not
      in the stop list. */
  function KeywordTest(stop: seq<string>): string -> bool {
    w => |w| > 3 && w !in stop
  }

  /** Python's `query.lower().split()` words longer than three characters
      and not in the stop list, in order, at most five. */
  function ErrorKeywords(stop: seq<string>, query: string): (r: seq<string>)
    ensures |r| <= KeywordCap
    ensures forall k :: 0 <= k < |r| ==> |r[k]| > 3 && r[k] !in stop && NoSpace(r[k])
    ensures Subsequence(r, SplitWs(Lower(query)))
  {
    var words := Filter(SplitWs(Lower(query)), KeywordTest(stop));
    SplitWsWords(Lower(query));
    SubsequenceTake(words, SplitWs(Lower(query)), KeywordCap);
    Take(words, KeywordCap)
  }

  /** A qualifying word is dropped only when five keywords were already
      found. */
  lemma ErrorKeywordsComplete(stop: seq<string>, query: string, w: string)
    requires w in SplitWs(Lower(query)) && |w| > 3 && w !in stop
    ensures w in ErrorKeywords(stop, query) || |ErrorKeywords(stop, query)| == KeywordCap
  {
    var words := Filter(SplitWs(Lower(query)), KeywordTest(stop));
    var i :| 0 <= i < |SplitWs(Lower(query))| && SplitWs(Lower(query))[i] == w;
    assert w in words;
  }

  /** The keywords are the query's first five qualifying words, repeats
      included: as many as qualify, capped at five, and the qualifying word
      at position `i` is keyword number `q`, where `q` counts the qualifying
      words before it, whenever fewer than five came before it. */
  lemma ErrorKeywordsPositions(stop: seq<string>, query: string, i: nat)
    requires i < |SplitWs(Lower(query))|
    requires |SplitWs(Lower(query))[i]| > 3 && SplitWs(Lower(query))[i] !in stop
    ensures var n := Count(SplitWs(Lower(query)), KeywordTest(stop));
      |ErrorKeywords(stop, query)| == if n < KeywordCap then n else KeywordCap
    ensures var q := Count(SplitWs(Lower(query))[..i], KeywordTest(stop));
      q < KeywordCap ==>
        q < |ErrorKeywords(stop, query)| && ErrorKeywords(stop, query)[q] == SplitWs(Lower(query))[i]
  {
    var words := SplitWs(Lower(query));
    assert ErrorKeywords(stop, query) == Take(Filter(words, KeywordTest(stop)), KeywordCap);
    TakeFilterPositions(words, KeywordTest(stop), i);
  }

  /** `FilterCount` and `FilterAt` carried through the cap of five. */
  lemma TakeFilterPositions(words: seq<string>, keep: string -> bool, i: nat)
    requires i < |words| && keep(words[i])
    ensures var n := Count(words, keep);
      |Take(Filter(words, keep), KeywordCap)| == if n < KeywordCap then n else KeywordCap
    ensures var q := Count(words[..i], keep);
      q < KeywordCap ==>
        q < |Take(Filter(words, keep), KeywordCap)| && Take(Filter(words, keep), KeywordCap)[q] == words[i]
  {
    FilterCount(words, keep);
    FilterAt(words, keep, i);
  }

  /** A related topic offered when its condition on the query holds. */
  datatype Extra = Extra(applies: bool, topic: string)

  function Applicable(extras: seq<Extra>): (r: seq<string>)
    ensures |r| <= |extras|
    ensures forall k :: 0 <= k < |r| ==> Extra(true, r[k]) in extras
    ensures forall i :: 0 <= i < |extras| && extras[i].applies ==> extras[i].topic in r
    ensures (forall i :: 0 <= i < |extras| ==> !extras[i].applies) ==> r == []
  {
    if |extras| == 0 then []
    else
      var rest := Applicable(extras[1..]);
      assert forall i :: 1 <= i < |extras| ==> extras[i] == extras[1..][i - 1];
      if extras[0].applies then [extras[0].topic] + rest else rest
  }

  lemma {:induction false} ApplicableAppend(a: seq<Extra>, b: seq<Extra>)
    ensures Applicable(a + b) == Applicable(a) + Applicable(b)
    decreases |a|
  {
    if |a| == 0 {
      assert a + b == b;
    } else {
      assert (a + b)[0] == a[0];
      assert (a + b)[1..] == a[1..] + b;
      ApplicableAppend(a[1..], b);
    }
  }

  /** The focus's base topics, then the applicable extra topics in order,
      at most five in all. */
  function Topics(base: seq<string>, extras: seq<Extra>): (r: seq<string>)
    ensures |r| == if |base| + |Applicable(extras)| < TopicCap then |base| + |Applicable(extras)| else TopicCap
    ensures |base| <= TopicCap ==> r[..|base|] == base
    ensures forall k :: |base| <= k < |r| ==> r[k] == Applicable(extras)[k - |base|]
  {
    var all := base + Applicable(extras);
    var r := Take(all, TopicCap);
    assert r == all[..|r|];
    assert forall k :: |base| <= k < |r| ==> r[k] == all[k] == Applicable(extras)[k - |base|];
    r
  }

  /** An applicable extra topic is offered whenever the base topics and the
      applicable extras before it leave room under the cap of five. */
  lemma TopicsKeepsEarly(base: seq<string>, extras: seq<Extra>, i: nat)
    requires i < |extras| && extras[i].applies
    requires |base| + |Applicable(extras[..i])| < TopicCap
    ensures |base| + |Applicable(extras[..i])| < |Topics(base, extras)|
    ensures Topics(base, extras)[|base| + |Applicable(extras[..i])|] == extras[i].topic
  {
    ApplicableAt(extras, i);
  }

  /** An applicable extra follows the applicable extras before it. */
  lemma ApplicableAt(extras: seq<Extra>, i: nat)
    requires i < |extras| && extras[i].applies
    ensures |Applicable(extras[..i])| < |Applicable(extras)|
    ensures Applicable(extras)[|Applicable(extras[..i])|] == extras[i].topic
  {
    var rest := [extras[i]] + extras[i + 1..];
    SplitAround(extras, i);
    ApplicableAppend(extras[..i], rest);
    ApplicableCons(extras[i], extras[i + 1..]);
  }

  lemma ApplicableCons(x: Extra, s: seq<Extra>)
    requires x.applies
    ensures Applicable([x] + s) == [x.topic] + Applicable(s)
  {
    assert ([x] + s)[1..] == s;
  }
}

=== FILE: spells.dfy ===
/** The spells specialist: its search terms, the focus-specific search
    query, the result filter, the error-keyword extractor and the related
    topics it suggests. */
module SpellsSpecialist {
  import opened Strings
  import opened Seqs
  import opened Specialist

  /** The spells search terms by category, in declaration order. */
  const CoreConcepts: seq<string> :=
    ["spell", "spells", "useSpell", "spell architecture", "spell system", "magic", "interactions"]
  const Components: seq<string> :=
    ["QuestioningSpell", "RadialMenu", "RadialMenuItem", "TooltipMenuSpell", "SpellProvider", "useSpell hook"]
  const Activation: seq<string> :=
    ["activation conditions", "ActivationMode", "Hotkey", "MouseEvent", "SelectionEvent", "gesture", "trigger"]
  const Modes: seq<string> := ["TOGGLE", "HOLD", "TRIGGER", "activation mode", "spell lifecycle"]
  const Events: seq<string> :=
    ["keyboard events", "mouse events", "text selection", "right click", "hotkeys", "shortcuts"]
  const FeatureTerms: seq<string> :=
    ["radial menu", "context menu", "command palette", "interactive cursor", "tooltip menu",
     "questioning cursor", "visual feedback"]
  const Lifecycle: seq<string> := ["onActivate", "onDeactivate", "activate", "deactivate", "toggle", "isActive"]
  const Integration: seq<string> :=
    ["useCedarStore", "sendMessage", "AI integration", "state access", "Cedar store"]

  /** All search terms, flattened in category order; a term listed in two
      categories counts twice. */
  const SearchTerms: seq<string> :=
    CoreConcepts + Components + Activation + Modes + Events + FeatureTerms + Lifecycle + Integration

  /** The focus areas with their own query terms. */
  const KnownFocuses: seq<string> := ["creating", "activation", "components", "lifecycle", "patterns", "general"]

  /** The terms appended for a focus area that has none of its own. */
  const DefaultTerms := "spell"

  /** The extra query terms for a focus area. */
  function FocusTerms(focus: string): (t: string)
    ensures t == DefaultTerms <==> focus !in KnownFocuses
  {
    if focus == "creating" then "useSpell hook custom spell " + "implementation lifecycle"
    else if focus == "activation" then "ActivationMode Hotkey MouseEvent " + "trigger conditions"
    else if focus == "components" then "QuestioningSpell RadialMenu " + "spell components"
    else if focus == "lifecycle" then "onActivate onDeactivate isActive " + "toggle activate"
    else if focus == "patterns" then "spell patterns best practices " + "examples"
    else if focus == "general" then "spell useSpell activation " + "radial menu"
    else DefaultTerms
  }

  /** `_build_search_query`: the caller's query, a space, the focus terms.
      Split into words, it is the query's words followed by the focus
      terms' words. */
  function BuildQuery(base: string, focus: string): (q: string)
    ensures |q| > |base| && q[..|base|] == base && q[|base|] == ' '
    ensures SplitWs(q) == SplitWs(base) + SplitWs(FocusTerms(focus))
  {
    var t := FocusTerms(focus);
    SplitWsSpaced(base, t);
    base + " " + t
  }

  /** A focus area without terms of its own adds the single word "spell". */
  lemma UnknownFocusAddsSpell(base: string, focus: string)
    requires focus !in KnownFocuses
    ensures SplitWs(BuildQuery(base, focus)) == SplitWs(base) + ["spell"]
  {
    var d := DefaultTerms;
    assert NoSpace(d) by {
      assert d[0] == 's' && d[1] == 'p' && d[2] == 'e' && d[3] == 'l' && d[4] == 'l';
    }
    SplitWsOfWord(d);
  }

  /** `_filter_spells_results`: relevance counts the spells search terms. */
  function FilterResults(results: seq<Hit>): seq<Tagged<Hit>> {
    FilterHits(SearchTerms, results)
  }

  /** A result that mentions "spell" anywhere in its content or heading is
      never kept as an irrelevant result. */
  lemma MentioningSpellIsRelevant(results: seq<Hit>, k: nat)
    requires k < |FilterResults(results)|
    requires Contains(Haystack(results[FilterResults(results)[k].pos]), "spell")
    ensures FilterResults(results)[k].relevance.Some?
  {
    assert SearchTerms[0] == "spell";
    LowerSpell();
    MentionedTermIsRelevant(SearchTerms, results, k, 0);
  }

  lemma LowerSpell()
    ensures Lower("spell") == "spell"
  {
    var s := "spell";
    assert Lower(s)[0] == 's' && Lower(s)[1] == 'p' && Lower(s)[2] == 'e';
    assert Lower(s)[3] == 'l' && Lower(s)[4] == 'l';
  }

  /** Words the error-keyword extractor ignores. */
  const StopWords: seq<string> := ["the", "and", "not", "working", "doesn't", "won't", "spell"]

  /** `_extract_error_keywords`. */
  function ErrorKeywords(query: string): (r: seq<string>)
    ensures |r| <= KeywordCap
    ensures forall k :: 0 <= k < |r| ==> |r[k]| > 3 && r[k] != "spell" && r[k] != "working"
    ensures forall k :: 0 <= k < |r| ==> r[k] !in StopWords
    ensures Subsequence(r, SplitWs(Lower(query)))
  {
    Specialist.ErrorKeywords(StopWords, query)
  }

  /** The keywords are the query's first five qualifying words: as many as
      qualify, capped at five, and the `q`-th qualifying word at index `q`. */
  lemma ErrorKeywordsPositions(query: string, i: nat)
    requires i < |SplitWs(Lower(query))|
    requires |SplitWs(Lower(query))[i]| > 3 && SplitWs(Lower(query))[i] !in StopWords
    ensures var n := Count(SplitWs(Lower(query)), KeywordTest(StopWords));
      |ErrorKeywords(query)| == if n < KeywordCap then n else KeywordCap
    ensures var q := Count(SplitWs(Lower(query))[..i], KeywordTest(StopWords));
      q < KeywordCap ==> q < |ErrorKeywords(query)| && ErrorKeywords(query)[q] == SplitWs(Lower(query))[i]
  {
    Specialist.ErrorKeywordsPositions(StopWords, query, i);
  }

  /** The topics every suggestion starts with, by focus area. */
  function BaseTopics(focus: string): (r: seq<string>)
    ensures |r| == 3
  {
    if focus == "creating" then ["useSpell hook usage", "Custom spell examples", "Activation conditions"]
    else if focus == "activation" then ["Hotkey combinations", "Mouse events", "Activation modes"]
    else if focus == "components" then ["RadialMenu setup", "QuestioningSpell usage", "Custom spell components"]
    else if focus == "lifecycle" then ["Spell state management", "Lifecycle callbacks", "Programmatic control"]
    else ["Creating spells", "Radial menus", "Keyboard shortcuts"]
  }

  /** The extra topics, each with whether the lower-cased query asks for it. */
  function Extras(query: string): (r: seq<Extra>)
    ensures |r| == 6
  {
    var q := Lower(query);
    [ Extra(Contains(q, "radial"), "RadialMenuItem configuration"),
      Extra(Contains(q, "questioning") || Contains(q, "question"), "data-question attribute usage"),
      Extra(Contains(q, "tooltip"), "ExtendedTooltipMenuItem interface"),
      Extra(Contains(q, "keyboard") || Contains(q, "hotkey"), "Keyboard event handling"),
      Extra(Contains(q, "mouse"), "Mouse gesture support"),
      Extra(Contains(q, "text") && Contains(q, "selection"), "TooltipMenuSpell configuration") ]
  }

  /** `_suggest_related_topics`. */
  function SuggestTopics(query: string, focus: string): (r: seq<string>)
    ensures 3 <= |r| <= TopicCap
    ensures r[..3] == BaseTopics(focus)
    ensures forall k :: 3 <= k < |r| ==> Extra(true, r[k]) in Extras(query)
  {
    var r := Topics(BaseTopics(focus), Extras(query));
    assert forall k :: 3 <= k < |r| ==> r[k] == Applicable(Extras(query))[k - 3];
    r
  }

  /** A query that mentions "radial" always gets the RadialMenuItem topic,
      right after the three base topics. */
  lemma RadialQueryGetsMenuItems(query: string, focus: string)
    requires Contains(Lower(query), "radial")
    ensures |SuggestTopics(query, focus)| > 3
    ensures SuggestTopics(query, focus)[3] == "RadialMenuItem configuration"
  {
    var extras := Extras(query);
    assert extras[..0] == [];
    TopicsKeepsEarly(BaseTopics(focus), extras, 0);
  }

  /** A query that triggers no extra topic gets the base topics alone. */
  lemma PlainQueryGetsBaseTopics(query: string, focus: string)
    requires forall k :: 0 <= k < 6 ==> !Extras(query)[k].applies
    ensures SuggestTopics(query, focus) == BaseTopics(focus)
  {
    var extras := Extras(query);
    assert forall i :: 0 <= i < |extras| ==> !extras[i].applies;
  }
}

=== FILE: strings.dfy ===
/** The fragment of Python's `str` semantics the documentation engine relies
    on: whitespace classification, lower-casing, stripping, splitting,
    substring search and line splitting. */
module Strings {

  /** Python's `str.isspace()` for one character (the `\s` class of `re`). */
  predicate IsSpace(c: char) {
    var n := c as int;
    n == 32 || 9 <= n <= 13 || 28 <= n <= 31 || n == 0x85 || n == 0xA0 || n == 0x1680
    || 0x2000 <= n <= 0x200A || n == 0x2028 || n == 0x2029 || n == 0x202F
    || n == 0x205F || n == 0x3000
  }

  /** The characters at which Python's `str.splitlines()` ends a line. */
  predicate IsLineBreak(c: char) {
    var n := c as int;
    10 <= n <= 13 || 28 <= n <= 30 || n == 0x85 || n == 0x2028 || n == 0x2029
  }

  predicate NoSpace(s: string) {
    forall i :: 0 <= i < |s| ==> !IsSpace(s[i])
  }

  function LowerChar(c: char): (r: char)
    ensures !('A' <= r <= 'Z')
    ensures !('A' <= c <= 'Z') ==> r == c
    ensures IsSpace(r) <==> IsSpace(c)
  {
    if 'A' <= c <= 'Z' then (c as int + 32) as char else c
  }

  /** `str.lower()` on the ASCII letters; every other character is kept. */
  function Lower(s: string): (r: string)
    ensures |r| == |s|
    ensures forall i :: 0 <= i < |s| ==> r[i] == LowerChar(s[i])
  {
    if |s| == 0 then [] else [LowerChar(s[0])] + Lower(s[1..])
  }

  lemma LowerAppend(a: string, b: string)
    ensures Lower(a + b) == Lower(a) + Lower(b)
  {
  }

  /** Lower-casing a string without capitals changes nothing. */
  lemma LowerKeeps(s: string)
    requires forall i :: 0 <= i < |s| ==> !('A' <= s[i] <= 'Z')
    ensures Lower(s) == s
  {
  }

  function StartsWith(s: string, prefix: string): bool {
    prefix <= s
  }

  function EndsWith(s: string, suffix: string): bool {
    |suffix| <= |s| && s[|s| - |suffix|..] == suffix
  }

  /** Python's `sub in s`. */
  predicate Contains(s: string, sub: string)
    decreases |s|
  {
    sub <= s || (|s| > 0 && Contains(s[1..], sub))
  }

  /** `Contains` holds exactly when `sub` occurs at some index of `s`. */
  lemma {:induction false} ContainsAt(s: string, sub: string, i: nat)
    requires i + |sub| <= |s| && s[i..i + |sub|] == sub
    ensures Contains(s, sub)
    decreases i
  {
    if i > 0 {
      assert s[1..][i - 1..i - 1 + |sub|] == sub;
      ContainsAt(s[1..], sub, i - 1);
    }
  }

  lemma {:induction false} ContainsWitness(s: string, sub: string) returns (i: nat)
    requires Contains(s, sub)
    ensures i + |sub| <= |s| && s[i..i + |sub|] == sub
    decreases |s|
  {
    if sub <= s {
      i := 0;
    } else {
      var j := ContainsWitness(s[1..], sub);
      i := j + 1;
      assert s[i..i + |sub|] == s[1..][j..j + |sub|];
    }
  }

  lemma ContainsEmpty(s: string)
    ensures Contains(s, "")
  {
    assert "" <= s;
  }

  /** `str.lstrip()`: drops leading whitespace. */
  function LStrip(s: string): (r: string)
    ensures |r| <= |s| && r == s[|s| - |r|..]
    ensures |r| > 0 ==> !IsSpace(r[0])
    ensures forall i :: 0 <= i < |s| - |r| ==> IsSpace(s[i])
  {
    if |s| > 0 && IsSpace(s[0]) then LStrip(s[1..]) else s
  }

  /** `str.rstrip()`: drops trailing whitespace. */
  function RStrip(s: string): (r: string)
    ensures |r| <= |s| && r == s[..|r|]
    ensures |r| > 0 ==> !IsSpace(r[|r| - 1])
    ensures forall i :: |r| <= i < |s| ==> IsSpace(s[i])
  {
    if |s| > 0 && IsSpace(s[|s| - 1]) then RStrip(s[..|s| - 1]) else s
  }

  /** `str.strip()`. */
  function Strip(s: string): (r: string)
    ensures |r| <= |s|
    ensures |r| > 0 ==> !IsSpace(r[0]) && !IsSpace(r[|r| - 1])
    ensures (|s| == 0 || (!IsSpace(s[0]) && !IsSpace(s[|s| - 1]))) ==> r == s
  {
    RStrip(LStrip(s))
  }

  /** Stripping a stripped string changes nothing. */
  lemma StripIdempotent(s: string)
    ensures Strip(Strip(s)) == Strip(s)
  {
  }

  /** A prefix that neither starts nor ends with whitespace survives `Strip`. */
  lemma {:induction false} StripKeepsPrefix(s: string, p: string)
    requires |p| > 0 && p <= s && !IsSpace(p[0]) && !IsSpace(p[|p| - 1])
    ensures p <= Strip(s)
  {
    assert LStrip(s) == s;
    var r := RStrip(s);
    assert s[|p| - 1] == p[|p| - 1];
    assert |p| <= |r|;
    assert r == s[..|r|];
  }

  /** The whitespace-free characters of `s`, in order. */
  function NonSpace(s: string): string {
    if |s| == 0 then [] else (if IsSpace(s[0]) then [] else [s[0]]) + NonSpace(s[1..])
  }

  function Concat(parts: seq<string>): string {
    if |parts| == 0 then [] else parts[0] + Concat(parts[1..])
  }

  /** Python's `sep.join(parts)`. */
  function Join(parts: seq<string>, sep: string): string {
    if |parts| == 0 then []
    else if |parts| == 1 then parts[0]
    else parts[0] + sep + Join(parts[1..], sep)
  }

  /** Length of the run of non-whitespace characters at the start of `s`. */
  function WordLength(s: string): (n: nat)
    ensures n <= |s|
    ensures forall i :: 0 <= i < n ==> !IsSpace(s[i])
    ensures n < |s| ==> IsSpace(s[n])
  {
    if |s| == 0 || IsSpace(s[0]) then 0 else 1 + WordLength(s[1..])
  }

  /** Python's `str.split()` with no separator: the maximal runs of
      non-whitespace characters. */
  function SplitWs(s: string): (r: seq<string>)
    ensures forall i :: 0 <= i < |r| ==> |r[i]| > 0
    decreases |s|
  {
    var t := LStrip(s);
    if |t| == 0 then []
    else
      var n := WordLength(t);
      assert n > 0;
      var rest := SplitWs(t[n..]);
      [t[..n]] + rest
  }

  /** Every word of `split()` is free of whitespace. */
  lemma {:induction false} SplitWsWords(s: string)
    ensures forall i :: 0 <= i < |SplitWs(s)| ==> NoSpace(SplitWs(s)[i])
    decreases |s|
  {
    var t := LStrip(s);
    if |t| > 0 {
      var n := WordLength(t);
      var rest := SplitWs(t[n..]);
      SplitWsWords(t[n..]);
      assert SplitWs(s) == [t[..n]] + rest;
      forall i | 0 <= i < |SplitWs(s)| ensures NoSpace(SplitWs(s)[i]) {
        if i == 0 {
          WordPrefixNoSpace(t);
        } else {
          assert SplitWs(s)[i] == rest[i - 1];
        }
      }
    }
  }

  lemma WordPrefixNoSpace(t: string)
    ensures NoSpace(t[..WordLength(t)])
  {
    var n := WordLength(t);
    forall j | 0 <= j < n ensures !IsSpace(t[..n][j]) {
      assert t[..n][j] == t[j];
    }
  }

  lemma {:induction false} NonSpaceAppend(a: string, b: string)
    ensures NonSpace(a + b) == NonSpace(a) + NonSpace(b)
    decreases |a|
  {
    if |a| == 0 {
      assert a + b == b;
    } else {
      var h := if IsSpace(a[0]) then [] else [a[0]];
      assert (a + b)[0] == a[0];
      assert (a + b)[1..] == a[1..] + b;
      NonSpaceAppend(a[1..], b);
      calc {
        NonSpace(a + b);
        h + NonSpace(a[1..] + b);
        h + (NonSpace(a[1..]) + NonSpace(b));
        (h + NonSpace(a[1..])) + NonSpace(b);
      }
    }
  }

  lemma {:induction false} NonSpaceOfSpaces(s: string)
    requires forall i :: 0 <= i < |s| ==> IsSpace(s[i])
    ensures NonSpace(s) == []
    decreases |s|
  {
    if |s| > 0 {
      NonSpaceOfSpaces(s[1..]);
    }
  }

  lemma {:induction false} NonSpaceOfWord(s: string)
    requires NoSpace(s)
    ensures NonSpace(s) == s
    decreases |s|
  {
    if |s| > 0 {
      NonSpaceOfWord(s[1..]);
    }
  }

  /** Leading whitespace does not change what `lstrip` leaves. */
  lemma {:induction false} LStripSpaces(p: string, x: string)
    requires forall i :: 0 <= i < |p| ==> IsSpace(p[i])
    ensures LStrip(p + x) == LStrip(x)
    decreases |p|
  {
    if |p| > 0 {
      assert (p + x)[0] == p[0];
      assert (p + x)[1..] == p[1..] + x;
      LStripSpaces(p[1..], x);
    } else {
      assert p + x == x;
    }
  }

  /** A word that ends inside `x`, or at its end before whitespace, is not
      lengthened by what follows. */
  lemma {:induction false} WordLengthAppend(x: string, y: string)
    requires WordLength(x) < |x| || (|y| > 0 && IsSpace(y[0]))
    ensures WordLength(x + y) == WordLength(x)
    decreases |x|
  {
    if |x| > 0 && !IsSpace(x[0]) {
      assert (x + y)[1..] == x[1..] + y;
      WordLengthAppend(x[1..], y);
    }
  }

  /** `split()` ignores leading whitespace. */
  lemma SplitWsLStrip(s: string)
    ensures SplitWs(s) == SplitWs(LStrip(s))
  {
    var t := LStrip(s);
    assert LStrip(t) == t;
  }

  /** One step of `split()` on a string that starts with a word. */
  lemma SplitWsWord(s: string)
    requires |s| > 0 && !IsSpace(s[0])
    ensures SplitWs(s) == [s[..WordLength(s)]] + SplitWs(s[WordLength(s)..])
  {
    assert LStrip(s) == s;
  }

  lemma {:induction false} WordLengthOfWord(s: string)
    requires NoSpace(s)
    ensures WordLength(s) == |s|
    decreases |s|
  {
    if |s| > 0 {
      WordLengthOfWord(s[1..]);
    }
  }

  /** A non-empty string without whitespace is one word. */
  lemma SplitWsOfWord(s: string)
    requires |s| > 0 && NoSpace(s)
    ensures SplitWs(s) == [s]
  {
    WordLengthOfWord(s);
    SplitWsWord(s);
    var e := s[|s|..];
    assert e == [];
    assert LStrip(e) == [];
    assert SplitWs(e) == [];
    assert s[..|s|] == s;
  }

  /** Splitting two strings joined by whitespace gives the words of the
      first, then the words of the second. */
  lemma {:induction false} SplitWsJoin(a: string, w: string, b: string)
    requires |w| > 0 && forall i :: 0 <= i < |w| ==> IsSpace(w[i])
    ensures SplitWs(a + w + b) == SplitWs(a) + SplitWs(b)
    decreases |a|, 1
  {
    var t := LStrip(a);
    var p := a[..|a| - |t|];
    assert a == p + t;
    if |t| == 0 {
      forall i | 0 <= i < |a + w| ensures IsSpace((a + w)[i]) {
        if i >= |a| {
          assert (a + w)[i] == w[i - |a|];
        }
      }
      SplitWsSpaces(a + w, b);
      SplitWsLStrip(a);
    } else {
      assert a + w + b == p + (t + w + b);
      SplitWsSpaces(p, t + w + b);
      SplitWsSpaces(p, t);
      SplitWsJoinWord(t, w, b);
    }
  }

  /** Two texts joined by a space split into the words of each. */
  lemma SplitWsSpaced(a: string, b: string)
    ensures SplitWs(a + " " + b) == SplitWs(a) + SplitWs(b)
  {
    SplitWsJoin(a, " ", b);
  }

  /** A word, a space and more text split into the word and the rest's words. */
  lemma SplitWsCons(a: string, rest: string)
    requires |a| > 0 && NoSpace(a)
    ensures SplitWs(a + " " + rest) == [a] + SplitWs(rest)
  {
    SplitWsJoin(a, " ", rest);
    SplitWsOfWord(a);
  }

  /** Leading whitespace does not change the words. */
  lemma SplitWsSpaces(p: string, x: string)
    requires forall i :: 0 <= i < |p| ==> IsSpace(p[i])
    ensures SplitWs(p + x) == SplitWs(x)
  {
    LStripSpaces(p, x);
    SplitWsLStrip(p + x);
    SplitWsLStrip(x);
  }

  lemma {:induction false} SplitWsJoinWord(t: string, w: string, b: string)
    requires |w| > 0 && forall i :: 0 <= i < |w| ==> IsSpace(w[i])
    requires |t| > 0 && !IsSpace(t[0])
    ensures SplitWs(t + w + b) == SplitWs(t) + SplitWs(b)
    decreases |t|, 0
  {
    var n := WordLength(t);
    var word := t[..n];
    Assoc(t, w, b);
    Assoc(t[n..], w, b);
    SplitWsWordAppend(t, w + b);
    SplitWsWord(t);
    SplitWsJoin(t[n..], w, b);
    ConsAppend(word, SplitWs(t[n..]), SplitWs(b));
  }

  /** A word that `t` ends with is ended by whitespace that follows. */
  lemma SplitWsWordAppend(t: string, rest: string)
    requires |t| > 0 && !IsSpace(t[0]) && |rest| > 0 && IsSpace(rest[0])
    ensures SplitWs(t + rest) == [t[..WordLength(t)]] + SplitWs(t[WordLength(t)..] + rest)
  {
    var n := WordLength(t);
    WordLengthAppend(t, rest);
    SliceAppend(t, rest, n);
    SplitWsWord(t + rest);
  }

  lemma SliceAppend(t: string, rest: string, n: nat)
    requires 0 < n <= |t|
    ensures (t + rest)[0] == t[0]
    ensures (t + rest)[..n] == t[..n] && (t + rest)[n..] == t[n..] + rest
  {
  }

  lemma Assoc(a: string, b: string, c: string)
    ensures a + b + c == a + (b + c)
  {
  }

  lemma ConsAppend(h: string, x: seq<string>, y: seq<string>)
    ensures [h] + (x + y) == ([h] + x) + y
  {
  }

  /** The words of `str.split()` are exactly the non-whitespace characters of
      the input, in order: nothing is lost, reordered or invented. */
  lemma {:induction false} SplitWsKeepsText(s: string)
    ensures Concat(SplitWs(s)) == NonSpace(s)
    decreases |s|
  {
    var t := LStrip(s);
    NonSpaceLStrip(s);
    if |t| > 0 {
      var n := WordLength(t);
      SplitWsKeepsText(t[n..]);
      NonSpaceWord(t);
      assert SplitWs(s) == [t[..n]] + SplitWs(t[n..]);
      assert Concat(SplitWs(s)) == t[..n] + Concat(SplitWs(t[n..]));
    }
  }

  /** Leading whitespace adds nothing to the non-whitespace characters. */
  lemma NonSpaceLStrip(s: string)
    ensures NonSpace(s) == NonSpace(LStrip(s))
  {
    var t := LStrip(s);
    var p := s[..|s| - |t|];
    assert s == p + t;
    NonSpaceAppend(p, t);
    NonSpaceOfSpaces(p);
  }

  /** The non-whitespace characters of a string are its first word, then
      those of the rest. */
  lemma NonSpaceWord(t: string)
    ensures NonSpace(t) == t[..WordLength(t)] + NonSpace(t[WordLength(t)..])
  {
    var n := WordLength(t);
    assert t == t[..n] + t[n..];
    NonSpaceAppend(t[..n], t[n..]);
    WordPrefixNoSpace(t);
    NonSpaceOfWord(t[..n]);
  }

  function IndexOf(s: string, c: char): (i: nat)
    ensures i <= |s|
    ensures forall j :: 0 <= j < i ==> s[j] != c
    ensures i < |s| ==> s[i] == c
  {
    if |s| == 0 || s[0] == c then 0 else 1 + IndexOf(s[1..], c)
  }

  /** `IndexOf` is the first occurrence: any `n` with no `c` before it and
      `c` at it (or at the end) is the index. */
  lemma {:induction false} IndexOfIs(s: string, c: char, n: nat)
    requires n <= |s| && (forall j :: 0 <= j < n ==> s[j] != c) && (n < |s| ==> s[n] == c)
    ensures IndexOf(s, c) == n
    decreases n
  {
    if n > 0 {
      assert s[0] != c;
      IndexOfIs(s[1..], c, n - 1);
    }
  }

  /** Python's `s.split(sep)` for a one-character separator. */
  function SplitOn(s: string, sep: char): (r: seq<string>)
    ensures |r| >= 1
    ensures forall i :: 0 <= i < |r| ==> sep !in r[i]
    decreases |s|
  {
    var i := IndexOf(s, sep);
    if i == |s| then [s] else [s[..i]] + SplitOn(s[i + 1..], sep)
  }

  /** Splitting on `sep` and joining with `sep` gives the input back. */
  lemma {:induction false} SplitOnJoin(s: string, sep: char)
    ensures Join(SplitOn(s, sep), [sep]) == s
    decreases |s|
  {
    var i := IndexOf(s, sep);
    if i < |s| {
      SplitOnJoin(s[i + 1..], sep);
      JoinCons(s[..i], SplitOn(s[i + 1..], sep), [sep]);
      CutAt(s, i);
    }
  }

  lemma JoinCons(h: string, rest: seq<string>, sep: string)
    requires |rest| > 0
    ensures Join([h] + rest, sep) == h + sep + Join(rest, sep)
  {
    assert ([h] + rest)[1..] == rest;
  }

  lemma CutAt(s: string, i: nat)
    requires i < |s|
    ensures s == s[..i] + [s[i]] + s[i + 1..]
  {
  }

  /** Length of the line break starting at `j`: `\r\n` counts as one break. */
  function BreakLength(s: string, j: nat): nat
    requires j < |s| && IsLineBreak(s[j])
  {
    if s[j] == '\r' && j + 1 < |s| && s[j + 1] == '\n' then 2 else 1
  }

  function NextBreak(s: string): (j: nat)
    ensures j <= |s|
    ensures forall k :: 0 <= k < j ==> !IsLineBreak(s[k])
    ensures j < |s| ==> IsLineBreak(s[j])
  {
    if |s| == 0 || IsLineBreak(s[0]) then 0 else 1 + NextBreak(s[1..])
  }

  /** Length of the first line of non-empty `s`, its line break included. */
  function FirstLineLength(s: string): (n: nat)
    requires |s| > 0
    ensures NextBreak(s) < n <= |s| || NextBreak(s) == n == |s|
  {
    var j := NextBreak(s);
    if j == |s| then j else j + BreakLength(s, j)
  }

  /** Python's `str.splitlines(keepends=True)`. */
  function SplitLinesKeepEnds(s: string): (r: seq<string>)
    ensures forall i :: 0 <= i < |r| ==> |r[i]| > 0
    decreases |s|
  {
    if |s| == 0 then [] else
      var n := FirstLineLength(s);
      [s[..n]] + SplitLinesKeepEnds(s[n..])
  }

  /** Python's `str.splitlines()`: the same lines without their breaks. */
  function SplitLines(s: string): (r: seq<string>)
    ensures |r| == |SplitLinesKeepEnds(s)|
    ensures forall i :: 0 <= i < |r| ==> forall k :: 0 <= k < |r[i]| ==> !IsLineBreak(r[i][k])
    ensures forall i :: 0 <= i < |r| ==> r[i] <= SplitLinesKeepEnds(s)[i]
    decreases |s|
  {
    if |s| == 0 then [] else
      var n := FirstLineLength(s);
      [s[..NextBreak(s)]] + SplitLines(s[n..])
  }

  /** The kept-ends lines tile the text exactly. */
  lemma {:induction false} SplitLinesKeepEndsConcat(s: string)
    ensures Concat(SplitLinesKeepEnds(s)) == s
    decreases |s|
  {
    if |s| > 0 {
      var n := FirstLineLength(s);
      SplitLinesKeepEndsConcat(s[n..]);
      assert s == s[..n] + s[n..];
    }
  }
}

=== FILE: tokens.dfy ===
/** The search tokenizer shared by both documentation indexes
    (cedar-test/cedar_mcp/services/docs.py:117-129 and
    cedar-test/cedar_mcp/services/mastra_docs.py:146-158), and the
    word-prefix matching of the pattern `\b<token>\w*\b`. */
module Tokens {
  import opened Strings
  import opened Seqs

  predicate IsAlnum(c: char) {
    'a' <= c <= 'z' || '0' <= c <= '9'
  }

  /** `re.sub(r"[^a-z0-9\s]", " ", text)`. */
  function Clean(s: string): (r: string)
    ensures |r| == |s|
    ensures forall i :: 0 <= i < |s| ==> r[i] == if IsAlnum(s[i]) || IsSpace(s[i]) then s[i] else ' '
  {
    if |s| == 0 then [] else [if IsAlnum(s[0]) || IsSpace(s[0]) then s[0] else ' '] + Clean(s[1..])
  }

  /** `re.sub(r"\s+", " ", text)`: every run of whitespace becomes one space. */
  function Collapse(s: string): (r: string)
    ensures forall i :: 0 <= i < |r| ==> r[i] == ' ' || (!IsSpace(r[i]) && r[i] in s)
    ensures forall i :: 0 <= i < |r| - 1 ==> !(r[i] == ' ' && r[i + 1] == ' ')
    ensures |s| > 0 ==> |r| > 0 && (IsSpace(s[0]) <==> r[0] == ' ')
    decreases |s|
  {
    if |s| == 0 then []
    else if IsSpace(s[0]) then
      var t := LStrip(s);
      assert |t| < |s|;
      var rest := Collapse(t);
      SuffixChars(s, t);
      " " + rest
    else
      var rest := Collapse(s[1..]);
      SuffixChars(s, s[1..]);
      [s[0]] + rest
  }

  lemma SuffixChars(s: string, t: string)
    requires |t| <= |s| && t == s[|s| - |t|..]
    ensures forall c :: c in t ==> c in s
  {
    forall c | c in t ensures c in s {
      var i :| 0 <= i < |t| && t[i] == c;
      assert s[|s| - |t| + i] == c;
    }
  }

  /** The search-side `normalize`: lower-case, non-alphanumerics to spaces,
      collapse whitespace, strip. */
  function Normalize(s: string): string {
    Strip(Collapse(Clean(Lower(s))))
  }

  /** Text made of `[a-z0-9]` words separated by single spaces. */
  predicate IsNormalized(s: string) {
    && (forall i :: 0 <= i < |s| ==> s[i] == ' ' || IsAlnum(s[i]))
    && (|s| > 0 ==> s[0] != ' ' && s[|s| - 1] != ' ')
    && (forall i :: 0 <= i < |s| - 1 ==> !(s[i] == ' ' && s[i + 1] == ' '))
  }

  lemma StripIsSlice(s: string) returns (a: nat)
    ensures a + |Strip(s)| <= |s| && Strip(s) == s[a..a + |Strip(s)|]
  {
    var l := LStrip(s);
    a := |s| - |l|;
    assert Strip(s) == l[..|Strip(s)|];
  }

  lemma CleanChars(s: string)
    ensures forall i :: 0 <= i < |Clean(s)| ==> IsAlnum(Clean(s)[i]) || IsSpace(Clean(s)[i])
  {
  }

  lemma CollapseChars(s: string)
    requires forall i :: 0 <= i < |s| ==> IsAlnum(s[i]) || IsSpace(s[i])
    ensures forall i :: 0 <= i < |Collapse(s)| ==> Collapse(s)[i] == ' ' || IsAlnum(Collapse(s)[i])
  {
    var c := Collapse(s);
    forall i | 0 <= i < |c|
      ensures c[i] == ' ' || IsAlnum(c[i])
    {
      if c[i] != ' ' {
        var k :| 0 <= k < |s| && s[k] == c[i];
      }
    }
  }

  lemma StripCollapsed(c: string)
    requires forall i :: 0 <= i < |c| ==> c[i] == ' ' || IsAlnum(c[i])
    requires forall i :: 0 <= i < |c| - 1 ==> !(c[i] == ' ' && c[i + 1] == ' ')
    ensures IsNormalized(Strip(c))
  {
    var n := Strip(c);
    var a := StripIsSlice(c);
    assert |n| > 0 ==> n[0] != ' ' && n[|n| - 1] != ' ';
    NormalizedSlice(c, a, n);
  }

  /** A slice of space-and-alphanumeric text without doubled spaces, which
      neither starts nor ends with a space, is normalized. */
  lemma NormalizedSlice(c: string, a: nat, n: string)
    requires a + |n| <= |c| && n == c[a..a + |n|]
    requires forall i :: 0 <= i < |c| ==> c[i] == ' ' || IsAlnum(c[i])
    requires forall i :: 0 <= i < |c| - 1 ==> !(c[i] == ' ' && c[i + 1] == ' ')
    requires |n| > 0 ==> n[0] != ' ' && n[|n| - 1] != ' '
    ensures IsNormalized(n)
  {
    forall i | 0 <= i < |n|
      ensures n[i] == ' ' || IsAlnum(n[i])
    {
      assert n[i] == c[a + i];
    }
    forall i | 0 <= i < |n| - 1
      ensures !(n[i] == ' ' && n[i + 1] == ' ')
    {
      assert n[i] == c[a + i] && n[i + 1] == c[a + i + 1];
    }
  }

  /** `normalize` yields only `[a-z0-9 ]`, with no leading, trailing or
      doubled spaces. */
  lemma NormalizeShape(s: string)
    ensures IsNormalized(Normalize(s))
  {
    var cl := Clean(Lower(s));
    CleanChars(Lower(s));
    CollapseChars(cl);
    StripCollapsed(Collapse(cl));
  }

  lemma LowerNormalized(s: string)
    requires IsNormalized(s)
    ensures Lower(s) == s
  {
  }

  lemma CleanNormalized(s: string)
    requires IsNormalized(s)
    ensures Clean(s) == s
  {
  }

  lemma {:induction false} CollapseNormalized(s: string)
    requires forall i :: 0 <= i < |s| ==> s[i] == ' ' || IsAlnum(s[i])
    requires forall i :: 0 <= i < |s| - 1 ==> !(s[i] == ' ' && s[i + 1] == ' ')
    ensures Collapse(s) == s
    decreases |s|
  {
    if |s| > 0 {
      SpacedTail(s);
      CollapseNormalized(s[1..]);
      if IsSpace(s[0]) {
        assert s[0] == ' ';
        LStripOne(s);
      }
      assert s == [s[0]] + s[1..];
    }
  }

  lemma SpacedTail(s: string)
    requires |s| > 0
    requires forall i :: 0 <= i < |s| ==> s[i] == ' ' || IsAlnum(s[i])
    requires forall i :: 0 <= i < |s| - 1 ==> !(s[i] == ' ' && s[i + 1] == ' ')
    ensures forall i :: 0 <= i < |s| - 1 ==> s[1..][i] == ' ' || IsAlnum(s[1..][i])
    ensures forall i :: 0 <= i < |s| - 2 ==> !(s[1..][i] == ' ' && s[1..][i + 1] == ' ')
    ensures s[0] == ' ' && |s| > 1 ==> !IsSpace(s[1])
  {
    forall i | 0 <= i < |s| - 1 ensures s[1..][i] == s[i + 1] {}
  }

  lemma LStripOne(s: string)
    requires |s| > 0 && IsSpace(s[0]) && (|s| > 1 ==> !IsSpace(s[1]))
    ensures LStrip(s) == s[1..]
  {
  }

  /** Normalizing normalized text changes nothing. */
  lemma NormalizeIdempotent(s: string)
    ensures Normalize(Normalize(s)) == Normalize(s)
  {
    var n := Normalize(s);
    NormalizeShape(s);
    LowerNormalized(n);
    CleanNormalized(n);
    CollapseNormalized(n);
  }

  /** `tokenize`: the space-separated pieces of the normalized text that are
      at least three characters long or whitelisted. */
  function Tokenize(s: string, whitelist: set<string>): (r: seq<string>)
    ensures forall i :: 0 <= i < |r| ==> |r[i]| >= 3 || r[i] in whitelist
  {
    var pieces := SplitOn(Normalize(s), ' ');
    FilterTokens(pieces, whitelist)
  }

  function FilterTokens(pieces: seq<string>, whitelist: set<string>): (r: seq<string>)
    ensures forall i :: 0 <= i < |r| ==> r[i] in pieces && (|r[i]| >= 3 || r[i] in whitelist)
    ensures forall i :: 0 <= i < |pieces| && (|pieces[i]| >= 3 || pieces[i] in whitelist) ==> pieces[i] in r
  {
    if |pieces| == 0 then []
    else
      var rest := FilterTokens(pieces[1..], whitelist);
      if |pieces[0]| >= 3 || pieces[0] in whitelist then [pieces[0]] + rest else rest
  }

  /** A token of the query: a non-empty run of `[a-z0-9]`. */
  predicate IsToken(t: string) {
    |t| > 0 && forall i :: 0 <= i < |t| ==> IsAlnum(t[i])
  }

  lemma {:induction false} PiecesOfNormalized(s: string, sep: char)
    requires sep == ' ' && IsNormalized(s) && |s| > 0
    ensures forall i :: 0 <= i < |SplitOn(s, sep)| ==> IsToken(SplitOn(s, sep)[i])
    decreases |s|
  {
    var k := IndexOf(s, sep);
    var r := SplitOn(s, sep);
    if k < |s| {
      assert k > 0;
      assert IsNormalized(s[k + 1..]) by {
        assert k + 1 < |s|;
        assert s[k + 1] != ' ';
      }
      PiecesOfNormalized(s[k + 1..], sep);
      assert r == [s[..k]] + SplitOn(s[k + 1..], sep);
    }
  }

  /** `list(dict.fromkeys(tokenize(query)))`. */
  function QueryTokens(query: string, whitelist: set<string>): seq<string> {
    Dedup(Tokenize(query, whitelist))
  }

  /** Query tokens are `[a-z0-9]` words of length at least three or
      whitelisted, free of duplicates, and every surviving token of the query
      is among them. */
  lemma QueryTokensShape(query: string, whitelist: set<string>)
    requires "" !in whitelist
    ensures var q := QueryTokens(query, whitelist);
      && NoDups(q)
      && (forall i :: 0 <= i < |q| ==> IsToken(q[i]) && (|q[i]| >= 3 || q[i] in whitelist))
      && (forall t :: t in Tokenize(query, whitelist) ==> t in q)
  {
    TokenizeShape(query, whitelist);
    DedupTokens(Tokenize(query, whitelist), whitelist);
  }

  lemma DedupTokens(toks: seq<string>, whitelist: set<string>)
    requires forall i :: 0 <= i < |toks| ==> IsToken(toks[i]) && (|toks[i]| >= 3 || toks[i] in whitelist)
    ensures var q := Dedup(toks);
      && NoDups(q)
      && (forall i :: 0 <= i < |q| ==> IsToken(q[i]) && (|q[i]| >= 3 || q[i] in whitelist))
      && (forall t :: t in toks ==> t in q)
  {
    var q := Dedup(toks);
    forall i | 0 <= i < |q| ensures IsToken(q[i]) && (|q[i]| >= 3 || q[i] in whitelist) {
      var j :| 0 <= j < |toks| && toks[j] == q[i];
    }
    forall t | t in toks ensures t in q {
      var j :| 0 <= j < |toks| && toks[j] == t;
    }
  }

  /** The tokens of any text are `[a-z0-9]` words. */
  lemma TokenizeShape(query: string, whitelist: set<string>)
    requires "" !in whitelist
    ensures forall i :: 0 <= i < |Tokenize(query, whitelist)| ==>
              IsToken(Tokenize(query, whitelist)[i])
              && (|Tokenize(query, whitelist)[i]| >= 3 || Tokenize(query, whitelist)[i] in whitelist)
  {
    NormalizeShape(query);
    NormalizedPieces(Normalize(query));
    FilterTokensShape(SplitOn(Normalize(query), ' '), whitelist);
  }

  lemma NormalizedPieces(n: string)
    requires IsNormalized(n)
    ensures forall i :: 0 <= i < |SplitOn(n, ' ')| ==> SplitOn(n, ' ')[i] == "" || IsToken(SplitOn(n, ' ')[i])
  {
    if |n| > 0 {
      PiecesOfNormalized(n, ' ');
    } else {
      assert SplitOn(n, ' ') == [n];
    }
  }

  lemma FilterTokensShape(pieces: seq<string>, whitelist: set<string>)
    requires "" !in whitelist
    requires forall i :: 0 <= i < |pieces| ==> pieces[i] == "" || IsToken(pieces[i])
    ensures forall i :: 0 <= i < |FilterTokens(pieces, whitelist)| ==>
              IsToken(FilterTokens(pieces, whitelist)[i])
              && (|FilterTokens(pieces, whitelist)[i]| >= 3 || FilterTokens(pieces, whitelist)[i] in whitelist)
  {
    var toks := FilterTokens(pieces, whitelist);
    forall i | 0 <= i < |toks| ensures IsToken(toks[i]) {
      var j :| 0 <= j < |pieces| && pieces[j] == toks[i];
    }
  }

  /** Python's `\w` on ASCII text. */
  predicate IsWordChar(c: char) {
    'a' <= c <= 'z' || 'A' <= c <= 'Z' || '0' <= c <= '9' || c == '_'
  }

  /** A match of `\b<token>\w*\b` (case-insensitive) starts at `i`: `i` begins
      a word and the next `|token|` characters lower-case to the token. */
  predicate MatchAt(s: string, token: string, i: int) {
    && 0 <= i < |s|
    && IsWordChar(s[i])
    && (i == 0 || !IsWordChar(s[i - 1]))
    && i + |token| <= |s|
    && Lower(s[i..i + |token|]) == token
  }

  /** Whether a match starts at each index of `s`. */
  function MatchFlags(s: string, token: string): (f: seq<bool>)
    ensures |f| == |s|
    ensures forall i :: 0 <= i < |s| ==> f[i] == MatchAt(s, token, i)
  {
    seq(|s|, i requires 0 <= i < |s| => MatchAt(s, token, i))
  }

  /** The start of every match at or after `from`, in increasing order. */
  function MatchesFrom(s: string, token: string, from: nat): (r: seq<nat>)
    requires from <= |s|
    ensures forall k :: 0 <= k < |r| ==> from <= r[k] && MatchAt(s, token, r[k])
    ensures forall i :: from <= i < |s| && MatchAt(s, token, i) ==> i in r
    ensures StrictlyIncreasing(r)
  {
    var f := MatchFlags(s, token);
    var r := TruePositions(f, from);
    assert forall k :: 0 <= k < |r| ==> f[r[k]];
    r
  }

  /** `re.finditer(rf"\b{token}\w*\b", text, re.IGNORECASE)` start indices. */
  function Matches(s: string, token: string): seq<nat> {
    MatchesFrom(s, token, 0)
  }

  /** `len(re.findall(...))`: the number of words having `token` as a prefix. */
  function CountWordPrefix(s: string, token: string): nat {
    CountTrue(MatchFlags(s, token), 0)
  }

  /** `findall` finds as many words as `finditer` yields matches. */
  lemma CountIsMatches(s: string, token: string)
    ensures CountWordPrefix(s, token) == |Matches(s, token)|
  {
    CountTruePositions(MatchFlags(s, token), 0);
  }

  /** The number of words in `words` that start with `t`. */
  function CountPrefixed(words: seq<string>, t: string): nat {
    if |words| == 0 then 0 else (if t <= words[0] then 1 else 0) + CountPrefixed(words[1..], t)
  }

  /** Past a non-word character, the matches in `s` are those of the suffix. */
  lemma MatchesShift(s: string, t: string, k: nat, j: nat)
    requires 0 < k <= |s| && !IsWordChar(s[k - 1]) && j <= |s| - k
    ensures CountTrue(MatchFlags(s, t), k + j) == CountTrue(MatchFlags(s[k..], t), j)
  {
    var f, g := MatchFlags(s, t), MatchFlags(s[k..], t);
    forall i | j <= i < |g| ensures f[k + i] == g[i] {
      MatchAtShift(s, t, k, i);
    }
    CountTrueShift(f, g, k, j);
  }

  lemma MatchAtShift(s: string, t: string, k: nat, j: nat)
    requires 0 < k <= |s| && !IsWordChar(s[k - 1]) && j < |s| - k
    ensures MatchAt(s, t, k + j) <==> MatchAt(s[k..], t, j)
  {
    var r := s[k..];
    if k + j + |t| <= |s| {
      assert s[k + j..k + j + |t|] == r[j..j + |t|];
    }
    if j > 0 {
      assert s[k + j - 1] == r[j - 1];
    }
  }

  /** On normalized text, `len(re.findall(rf"\b{t}\w*\b", text))` is the
      number of space-separated words that start with the token `t`. */
  lemma {:induction false} CountWordPrefixWords(s: string, t: string)
    requires IsNormalized(s) && IsToken(t)
    ensures CountWordPrefix(s, t) == CountPrefixed(SplitOn(s, ' '), t)
    decreases |s|
  {
    if |s| == 0 {
      assert SplitOn(s, ' ') == [s];
    } else {
      var w := IndexOf(s, ' ');
      FirstWordMatch(s, t, w);
      CountFirstWord(s, t, w);
      if w < |s| {
        NormalizedRest(s, w);
        CountWordPrefixWords(s[w + 1..], t);
        assert SplitOn(s, ' ') == [s[..w]] + SplitOn(s[w + 1..], ' ');
        assert ([s[..w]] + SplitOn(s[w + 1..], ' '))[1..] == SplitOn(s[w + 1..], ' ');
      } else {
        assert SplitOn(s, ' ') == [s];
      }
    }
  }

  /** The first word of normalized text holds a match at its start exactly
      when it starts with the token. */
  lemma FirstWordMatch(s: string, t: string, w: nat)
    requires IsNormalized(s) && IsToken(t) && |s| > 0 && w == IndexOf(s, ' ')
    ensures 0 < w && (MatchAt(s, t, 0) <==> t <= s[..w])
  {
    if MatchAt(s, t, 0) {
      assert forall i :: 0 <= i < |t| ==> s[i] == t[i] by {
        assert Lower(s[..|t|]) == s[..|t|];
      }
      assert |t| <= w;
    }
    if t <= s[..w] {
      assert s[..|t|] == t;
      assert Lower(s[..|t|]) == s[..|t|];
    }
  }

  /** The matches of normalized text: one at its start if any, then those
      past the first space. */
  lemma CountFirstWord(s: string, t: string, w: nat)
    requires IsNormalized(s) && |s| > 0 && w == IndexOf(s, ' ')
    ensures CountWordPrefix(s, t)
            == (if MatchAt(s, t, 0) then 1 else 0) + (if w < |s| then CountWordPrefix(s[w + 1..], t) else 0)
  {
    var f := MatchFlags(s, t);
    FirstWordFlags(s, t, w);
    CountTrueSplit(f, w);
    if w < |s| {
      MatchesShift(s, t, w + 1, 0);
    }
  }

  /** No match starts inside the first word of normalized text, past its
      first character, nor at the space that ends it. */
  lemma FirstWordFlags(s: string, t: string, w: nat)
    requires IsNormalized(s) && |s| > 0 && w == IndexOf(s, ' ')
    ensures 0 < w
    ensures forall i :: 1 <= i < w ==> !MatchFlags(s, t)[i]
    ensures w < |s| ==> !MatchFlags(s, t)[w]
  {
    forall i | 1 <= i < w ensures !MatchAt(s, t, i) {
      assert s[i - 1] != ' ';
      assert IsWordChar(s[i - 1]);
    }
  }

  lemma NormalizedRest(s: string, w: nat)
    requires IsNormalized(s) && w < |s| && s[w] == ' '
    ensures IsNormalized(s[w + 1..])
  {
    assert w + 1 < |s|;
    assert s[w + 1] != ' ';
  }
}

=== FILE: wizard.dfy ===
/** The integration wizard: a guided, one-question-at-a-time flow through
    three stages (understanding the app, initial setup, feature
    implementation), kept per session, ending in an implementation plan. */
module Wizard {
  import opened Strings
  import opened Seqs
  import Clarify
  import InstallCommand

  datatype Stage = UnderstandApp | InitialSetup | FeatureImpl

  /** The stage's position in the stage list. */
  function Rank(stage: Stage): nat {
    match stage
    case UnderstandApp => 0
    case InitialSetup => 1
    case FeatureImpl => 2
  }

  const TotalStages := 3

  datatype Question = Question(id: string, text: string)

  /** The question ids, stage by stage, in the order they are asked. */
  const ClarifyIds: seq<string> := ["clarify_0", "clarify_1", "clarify_2", "clarify_3"]
  const SetupIds: seq<string> := ["provider", "keys_available", "streaming", "ui_cedar", "install_cmd_pref"]
  const FeatureIds: seq<string> := ["features"]
  const AllIds: seq<string> := ClarifyIds + SetupIds + FeatureIds

  /** How many questions the whole flow asks. */
  const QuestionTotal := 10

  function StageIds(stage: Stage): seq<string> {
    match stage
    case UnderstandApp => ClarifyIds
    case InitialSetup => SetupIds
    case FeatureImpl => FeatureIds
  }

  /** How many questions the stages before this one ask. */
  function Offset(stage: Stage): nat {
    match stage
    case UnderstandApp => 0
    case InitialSetup => 4
    case FeatureImpl => 9
  }

  /** The stage's ids sit in the flow's id list at the stage's offset, and
      each stage starts where the previous one ends. */
  lemma StageIdsInOrder(stage: Stage, i: nat)
    requires i < |StageIds(stage)|
    ensures Offset(stage) + i < |AllIds| && AllIds[Offset(stage) + i] == StageIds(stage)[i]
    ensures stage == UnderstandApp ==> Offset(InitialSetup) == Offset(stage) + |StageIds(stage)|
    ensures stage == InitialSetup ==> Offset(FeatureImpl) == Offset(stage) + |StageIds(stage)|
    ensures stage == FeatureImpl ==> Offset(stage) + |StageIds(stage)| == QuestionTotal
  {
    assert |AllIds| == QuestionTotal;
    match stage
    case UnderstandApp =>
    case InitialSetup =>
      assert AllIds[4 + i] == (ClarifyIds + SetupIds)[4 + i];
    case FeatureImpl =>
  }

  /** The first four questions the clarifier suggests for the goal (a
      missing goal reads as ""), with no known constraints. */
  function ClarifyTexts(goal: Option<string>): (r: seq<string>)
    ensures |r| == |ClarifyIds| <= |Clarify.Suggest(goal.GetOr(""), [])|
    ensures forall i :: 0 <= i < |r| ==> r[i] == Clarify.Suggest(goal.GetOr(""), [])[i]
  {
    var all := Clarify.Suggest(goal.GetOr(""), []);
    Clarify.UnconstrainedCount(goal.GetOr(""));
    all[..4]
  }

  const InstallQuestion :=
    "Installation command: default is '" + InstallCommand.DefaultInstallCommand
    + "'. If you prefer another, paste it; " + "otherwise reply 'default'."

  /** The texts of the setup and feature questions, in the order of their ids. */
  const SetupTexts: seq<string> :=
    [ "Which LLM provider do you want to use " + "(OpenAI, Anthropic, AI SDK, custom)?",
      "Do you already have API keys " + "configured as env vars?",
      "Do you want streaming responses enabled?",
      "Should we add <CedarCopilot> with default " + "settings to your app shell?",
      InstallQuestion ]
  const FeatureTexts: seq<string> :=
    [ "Which features should we implement now? " + "(chat, voice). State calling will be added by default." ]

  /** The text of the stage's `i`-th question. */
  function QuestionText(stage: Stage, goal: Option<string>, i: nat): string
    requires i < |StageIds(stage)|
  {
    match stage
    case UnderstandApp => ClarifyTexts(goal)[i]
    case InitialSetup => SetupTexts[i]
    case FeatureImpl => FeatureTexts[i]
  }

  /** `_stage_questions`: the stage's questions, each with its id. */
  function StageQuestions(stage: Stage, goal: Option<string>): (qs: seq<Question>)
    ensures |qs| == |StageIds(stage)|
    ensures forall i :: 0 <= i < |qs| ==> qs[i].id == StageIds(stage)[i]
    ensures stage == UnderstandApp ==> forall i :: 0 <= i < |qs| ==> qs[i].text == ClarifyTexts(goal)[i]
  {
    var ids := StageIds(stage);
    seq(|ids|, i requires 0 <= i < |ids| => Question(ids[i], QuestionText(stage, goal, i)))
  }

  datatype WizardState = WizardState(
    stage: Stage,
    index: nat,
    answers: map<string, string>,
    goal: Option<string>,
    context: Option<string>)

  function Questions(s: WizardState): seq<Question> {
    StageQuestions(s.stage, s.goal)
  }

  /** `_advance_stage_if_complete`: once every question of the stage is
      answered, move to the next stage's first question; the last stage
      stays put. */
  function Advance(s: WizardState): (r: WizardState)
    ensures r.answers == s.answers && r.goal == s.goal && r.context == s.context
    ensures s.index < |StageIds(s.stage)| || s.stage == FeatureImpl ==> r == s
    ensures s.index >= |StageIds(s.stage)| && s.stage != FeatureImpl ==>
              Rank(r.stage) == Rank(s.stage) + 1 && r.index == 0
  {
    if s.index >= |StageIds(s.stage)| then
      match s.stage
      case UnderstandApp => s.(stage := InitialSetup, index := 0)
      case InitialSetup => s.(stage := FeatureImpl, index := 0)
      case FeatureImpl => s
    else s
  }

  datatype Progress = Progress(stage: Stage, done: nat, total: nat, stageIndex: nat, totalStages: nat)

  /** `_progress`. */
  function ProgressOf(s: WizardState): (p: Progress)
    ensures p.stageIndex < p.totalStages == TotalStages
    ensures p.total == |StageIds(s.stage)| && p.done == s.index
  {
    Progress(s.stage, s.index, |StageIds(s.stage)|, Rank(s.stage), TotalStages)
  }

  /** The implementation plan derived from the answers. */
  datatype Plan = Plan(
    provider: Option<string>,
    keysAvailable: Option<string>,
    streaming: Option<string>,
    uiCedar: Option<string>,
    chat: bool,
    voice: bool,
    stateCalling: bool,
    installCommand: string)

  /** `dict.get`. */
  function Lookup(m: map<string, string>, k: string): (r: Option<string>)
    ensures r.Some? <==> k in m
    ensures r.Some? ==> r.value == m[k]
  {
    if k in m then Some(m[k]) else None
  }

  /** `_derive_plan` without the documentation evidence. */
  function DerivePlan(s: WizardState): (p: Plan)
    ensures p.stateCalling
    ensures p.chat <==> "features" in s.answers && Contains(Lower(s.answers["features"]), "chat")
    ensures p.voice <==> "features" in s.answers && Contains(Lower(s.answers["features"]), "voice")
    ensures p.installCommand != "" && Strip(p.installCommand) == p.installCommand
    ensures "install_cmd_pref" !in s.answers ==> p.installCommand == InstallCommand.DefaultInstallCommand
  {
    var features := Lower(Lookup(s.answers, "features").GetOr(""));
    Plan(Lookup(s.answers, "provider"), Lookup(s.answers, "keys_available"),
         Lookup(s.answers, "streaming"), Lookup(s.answers, "ui_cedar"),
         Contains(features, "chat"), Contains(features, "voice"), true,
         InstallCommand.Resolve(Lookup(s.answers, "install_cmd_pref")))
  }

  /** The plan's install command is the `install_cmd_pref` answer as the
      install-command helper resolves it. */
  lemma DerivePlanInstallCommand(s: WizardState)
    requires "install_cmd_pref" in s.answers
    ensures DerivePlan(s).installCommand == InstallCommand.Resolve(Some(s.answers["install_cmd_pref"]))
  {
  }

  /** What an operation returns: no such session, the next question, the
      plan of a completed flow (from `get_next_question`), or the plan with
      a note that the flow was already complete (from `answer`). */
  datatype Reply =
    | NoSession
    | Ask(stage: Stage, question: Question, progress: Progress)
    | Complete(stage: Stage, plan: Plan)
    | AlreadyComplete(plan: Plan)

  type Sessions = map<string, WizardState>

  datatype Outcome = Outcome(reply: Reply, sessions: Sessions)

  /** `get_next_question`. */
  function NextQuestion(ss: Sessions, id: string): (o: Outcome)
    ensures id !in ss ==> o == Outcome(NoSession, ss)
    ensures id in ss ==> o.sessions == ss[id := Advance(ss[id])]
    ensures id in ss ==> (o.reply.Ask? <==> Advance(ss[id]).index < |StageIds(Advance(ss[id]).stage)|)
    ensures o.reply.Ask? ==> id in o.sessions
                             && o.sessions[id].index < |StageIds(o.sessions[id].stage)|
                             && o.reply.question == Questions(o.sessions[id])[o.sessions[id].index]
  {
    if id !in ss then Outcome(NoSession, ss)
    else
      var s := Advance(ss[id]);
      var qs := Questions(s);
      if s.index < |qs| then Outcome(Ask(s.stage, qs[s.index], ProgressOf(s)), ss[id := s])
      else Outcome(Complete(s.stage, DerivePlan(s)), ss[id := s])
  }

  function Initial(goal: Option<string>, context: Option<string>): WizardState {
    WizardState(UnderstandApp, 0, map[], goal, context)
  }

  /** `start`: a fresh session (replacing any with the same id) and its first
      question. */
  function Start(ss: Sessions, id: string, goal: Option<string>, context: Option<string>): (o: Outcome)
    ensures o.sessions == ss[id := Initial(goal, context)]
    ensures o.reply.Ask? && o.reply.stage == UnderstandApp
    ensures o.reply.question.id == "clarify_0"
    ensures o.reply.question.text == Clarify.Suggest(goal.GetOr(""), [])[0]
  {
    var s := Initial(goal, context);
    FirstQuestion(goal);
    assert Advance(s) == s;
    NextQuestion(ss[id := s], id)
  }

  lemma FirstQuestion(goal: Option<string>)
    ensures |StageQuestions(UnderstandApp, goal)| > 0
    ensures StageQuestions(UnderstandApp, goal)[0].id == "clarify_0"
    ensures StageQuestions(UnderstandApp, goal)[0].text == Clarify.Suggest(goal.GetOr(""), [])[0]
  {
    assert ClarifyIds[0] == "clarify_0";
  }

  /** The answer stored under the current question's id, and the cursor
      moved past that question. */
  function Record(s: WizardState, answer: string): (r: WizardState)
    requires s.index < |StageIds(s.stage)|
    ensures r.stage == s.stage && r.goal == s.goal && r.context == s.context
    ensures r.index == s.index + 1
    ensures r.answers == s.answers[StageIds(s.stage)[s.index] := answer]
  {
    s.(answers := s.answers[StageIds(s.stage)[s.index] := answer], index := s.index + 1)
  }

  /** `answer`: record the answer to the current question, move on (to the
      next stage when this one is done) and return what comes next. */
  function Answer(ss: Sessions, id: string, answer: string): (o: Outcome)
    ensures id !in ss ==> o == Outcome(NoSession, ss)
    ensures id in ss ==> id in o.sessions && o.sessions.Keys == ss.Keys
    ensures id in ss ==> forall k :: k in ss && k != id ==> o.sessions[k] == ss[k]
  {
    if id !in ss then Outcome(NoSession, ss)
    else
      var s := Advance(ss[id]);
      if s.index < |StageIds(s.stage)| then
        var t := Advance(Record(s, answer));
        Replace(ss, id, t);
        Replace(ss[id := t], id, Advance(t));
        NextQuestion(ss[id := t], id)
      else
        Replace(ss, id, s);
        Outcome(AlreadyComplete(DerivePlan(s)), ss[id := s])
  }

  /** Replacing a session keeps the other sessions and the set of ids. */
  lemma Replace(ss: Sessions, id: string, s: WizardState)
    requires id in ss
    ensures ss[id := s].Keys == ss.Keys
    ensures forall k :: k in ss && k != id ==> ss[id := s][k] == ss[k]
  {
  }

  /** `state`: the session's state and progress. */
  function StateOf(ss: Sessions, id: string): (r: Option<(WizardState, Progress)>)
    ensures r.None? <==> id !in ss
    ensures r.Some? ==> r.value.0 == ss[id] && r.value.1.done == ss[id].index
  {
    if id in ss then Some((ss[id], ProgressOf(ss[id]))) else None
  }

  /** `abort`: forget the session, if any. */
  function Abort(ss: Sessions, id: string): (r: Sessions)
    ensures id !in r && r.Keys == ss.Keys - {id}
    ensures forall k :: k in r ==> r[k] == ss[k]
  {
    ss - {id}
  }

  /** How many questions a session has answered: the questions of earlier
      stages plus the index within the current one. */
  function Position(s: WizardState): nat {
    Offset(s.stage) + s.index
  }

  /** The ids of the first `n` questions of the flow. */
  function AnsweredIds(n: nat): set<string> {
    FirstIds(AllIds, n)
  }

  function FirstIds(ids: seq<string>, n: nat): set<string> {
    set i | 0 <= i < n && i < |ids| :: ids[i]
  }

  lemma FirstIdsStep(ids: seq<string>, n: nat)
    requires n < |ids|
    ensures FirstIds(ids, n + 1) == FirstIds(ids, n) + {ids[n]}
  {
    var a, b := FirstIds(ids, n + 1), FirstIds(ids, n) + {ids[n]};
    forall x | x in a ensures x in b {
      var i :| 0 <= i < n + 1 && i < |ids| && ids[i] == x;
      if i < n {
        assert x in FirstIds(ids, n);
      }
    }
  }

  /** The states `start` and `answer` can reach: the cursor is on a question
      or past the last one, and the answers are keyed by exactly the ids of
      the questions already asked. */
  predicate Reachable(s: WizardState) {
    (s.index < |StageIds(s.stage)| || (s.stage == FeatureImpl && s.index == |StageIds(s.stage)|))
    && s.answers.Keys == AnsweredIds(Position(s))
  }

  lemma StartReachable(ss: Sessions, id: string, goal: Option<string>, context: Option<string>)
    ensures Reachable(Start(ss, id, goal, context).sessions[id])
    ensures Position(Start(ss, id, goal, context).sessions[id]) == 0
  {
    assert FirstIds(AllIds, 0) == {};
  }

  /** A reachable session whose flow is not complete is asked the question
      at its position in the flow; a complete one gets the plan. */
  lemma NextQuestionFollowsFlow(ss: Sessions, id: string)
    requires id in ss && Reachable(ss[id])
    ensures NextQuestion(ss, id).sessions == ss
    ensures NextQuestion(ss, id).reply.Ask? <==> Position(ss[id]) < QuestionTotal
    ensures NextQuestion(ss, id).reply.Ask? ==>
              NextQuestion(ss, id).reply.question.id == AllIds[Position(ss[id])]
    ensures NextQuestion(ss, id).reply.Complete? <==> Position(ss[id]) == QuestionTotal
  {
    var s := ss[id];
    assert Advance(s) == s;
    assert ss[id := s] == ss;
    if s.index < |StageIds(s.stage)| {
      AskedAtPosition(s);
    } else {
      StageIdsInOrder(s.stage, 0);
    }
  }

  /** The question under a session's cursor is the flow's question at the
      session's position. */
  lemma AskedAtPosition(s: WizardState)
    requires s.index < |StageIds(s.stage)|
    ensures Position(s) < QuestionTotal
    ensures Questions(s)[s.index].id == AllIds[Position(s)]
  {
    StageIdsInOrder(s.stage, s.index);
  }

  /** Each answer to a reachable, unfinished session is recorded under the
      id of the question at its position and moves it one question on; an
      answer to a finished session changes nothing. */
  lemma AnswerAdvancesOne(ss: Sessions, id: string, a: string)
    requires id in ss && Reachable(ss[id])
    ensures Reachable(Answer(ss, id, a).sessions[id])
    ensures Position(ss[id]) < QuestionTotal ==>
              Position(Answer(ss, id, a).sessions[id]) == Position(ss[id]) + 1
              && Answer(ss, id, a).sessions[id].answers == ss[id].answers[AllIds[Position(ss[id])] := a]
    ensures Position(ss[id]) == QuestionTotal ==>
              Answer(ss, id, a) == Outcome(AlreadyComplete(DerivePlan(ss[id])), ss)
  {
    var s := ss[id];
    assert Advance(s) == s;
    if s.index < |StageIds(s.stage)| {
      AnswerOpen(ss, id, a);
    } else {
      AnswerClosed(ss, id, a);
    }
  }

  /** An answer to a finished session returns its plan and changes nothing. */
  lemma AnswerClosed(ss: Sessions, id: string, a: string)
    requires id in ss && Reachable(ss[id]) && ss[id].index >= |StageIds(ss[id].stage)|
    ensures Position(ss[id]) == QuestionTotal
    ensures Answer(ss, id, a) == Outcome(AlreadyComplete(DerivePlan(ss[id])), ss)
  {
    var s := ss[id];
    assert Advance(s) == s;
    StageIdsInOrder(s.stage, 0);
    assert ss[id := s] == ss;
  }

  /** An answer to a session whose cursor is on a question stores the
      advanced, recorded state. */
  lemma AnswerOpen(ss: Sessions, id: string, a: string)
    requires id in ss && Reachable(ss[id]) && ss[id].index < |StageIds(ss[id].stage)|
    ensures Position(ss[id]) < QuestionTotal
    ensures Answer(ss, id, a).sessions[id] == Advance(Record(ss[id], a))
    ensures Reachable(Answer(ss, id, a).sessions[id])
    ensures Position(Answer(ss, id, a).sessions[id]) == Position(ss[id]) + 1
    ensures Answer(ss, id, a).sessions[id].answers == ss[id].answers[AllIds[Position(ss[id])] := a]
  {
    var s := ss[id];
    assert Advance(s) == s;
    var next := Advance(Record(s, a));
    RecordStep(s, a);
    assert Advance(next) == next;
  }

  /** Recording an answer and advancing keeps a state reachable and moves it
      one question on. */
  lemma RecordStep(s: WizardState, a: string)
    requires Reachable(s) && s.index < |StageIds(s.stage)|
    ensures Reachable(Advance(Record(s, a)))
    ensures Position(s) < QuestionTotal
    ensures Position(Advance(Record(s, a))) == Position(s) + 1
    ensures Advance(Record(s, a)).answers == s.answers[AllIds[Position(s)] := a]
  {
    RecordKeys(s, a);
    AdvanceKeepsPosition(Record(s, a));
  }

  lemma RecordKeys(s: WizardState, a: string)
    requires Reachable(s) && s.index < |StageIds(s.stage)|
    ensures Position(s) < QuestionTotal
    ensures Record(s, a).answers == s.answers[AllIds[Position(s)] := a]
    ensures Record(s, a).answers.Keys == AnsweredIds(Position(s) + 1)
  {
    StageIdsInOrder(s.stage, s.index);
    FirstIdsStep(AllIds, Position(s));
  }

  /** Moving to the next stage does not change the position in the flow. */
  lemma AdvanceKeepsPosition(t: WizardState)
    requires t.index <= |StageIds(t.stage)|
    ensures Position(Advance(t)) == Position(t)
    ensures Advance(t).index < |StageIds(Advance(t).stage)|
            || (Advance(t).stage == FeatureImpl && Advance(t).index == |StageIds(Advance(t).stage)|)
  {
    if t.index == |StageIds(t.stage)| {
      StageIdsInOrder(t.stage, 0);
    }
  }

  /** A finished session has an answer for every question of the flow. */
  lemma CompleteHasEveryAnswer(s: WizardState, i: nat)
    requires Reachable(s) && Position(s) == QuestionTotal && i < |AllIds|
    ensures AllIds[i] in s.answers
  {
    assert AllIds[i] in FirstIds(AllIds, QuestionTotal);
  }

  /** Aborting twice is aborting once. */
  lemma AbortIdempotent(ss: Sessions, id: string)
    ensures Abort(Abort(ss, id), id) == Abort(ss, id)
  {
  }
}
